=== FILE: README.md ===
# Promo raffle admin: pagination, country codes and display formatting

A Dafny model of the pure logic inside the raffle administration front end:

- **The read-only subgraph data provider** (`promoRaffleSubgraphProvider.ts`):
  - the resource table, filter cleaning and sort whitelisting;
  - the process-wide cursor cache, with keyset (seek) paging and an offset fallback;
  - the total estimated with a one-row probe;
  - the mutators, which always throw.

  The GraphQL endpoint is the `Upstream` parameter: an ordered row sequence per entity plus the meaning of a filter atom. The cursor cache is explicit state, passed into each call and returned from it. Module `SubgraphProvider` holds the operations. Module `KeysetPaging` proves that paging through cached cursors returns the same pages as offset paging.
- **The country utilities** (`country.ts`), in modules `Country` and `CountryTable`:
  - the 52-row alpha-2 to alpha-3 table and lookups in both directions;
  - the inversion with collision reporting;
  - decoding of the subgraph's `bytes3` hex field;
  - regional-indicator flags.
- **The display helpers** copied into the raffle views:
  - `pow10` and `weiToEth` (module `WeiFormat`);
  - the seven `shortHex` copies, in four variants, each with its view's default widths (module `ShortHex`).
- **The Supabase list query** (`supabaseDataProvider.ts`), in module `SupabaseQuery`. The query builder is a recorded list of `order`, `ilike`, `eq` and `range` steps, and the client's answer is a parameter.

Supporting modules:

- `Wrappers`: `Option` and `Result`.
- `JsString`: `trim`, ASCII `toUpperCase`, `slice`.
- `Values`: JSON-like filter values.
- `Subgraph`: the meaning of `where`, `first` and `skip`.

## Model

| member | source | states |
|---|---|---|
| SubgraphProvider.Spec | examples/raffle-admin/src/dataProvider/promoRaffleSubgraphProvider.ts:101-144 | Succeeds exactly for the six resource names of `SPEC`, with that resource's descriptor. Any other name fails with the message "Unknown resource: <name>". |
| SubgraphProvider.CleanWhere | examples/raffle-admin/src/dataProvider/promoRaffleSubgraphProvider.ts:146-155 | A non-object filter gives the empty filter. An object keeps exactly the entries whose value is not undefined, null or a blank string, with their values and relative order unchanged. |
| SubgraphProvider.SortOf | examples/raffle-admin/src/dataProvider/promoRaffleSubgraphProvider.ts:157-168 | The sort field is the requested one when the resource whitelists it, and `blockTimestamp` otherwise. The direction is ascending exactly when the upper-cased order is "ASC"; a missing order gives descending. |
| KeysetPaging.SeekWhereSelectsAfterCursor | examples/raffle-admin/src/dataProvider/promoRaffleSubgraphProvider.ts:191-222 | A row satisfies `seekWhere(base, orderBy, dir, cur)` exactly when it satisfies the base filter and lies strictly after the cursor in `(orderBy, id)` order for the direction. This covers the `id` shortcut and the empty-base case. |
| SubgraphProvider.PlanPage | examples/raffle-admin/src/dataProvider/promoRaffleSubgraphProvider.ts:301-309 | Asks for `perPage` rows. When page > 1 and a cursor is cached at index page-2, it uses skip 0 and the seek filter after that cursor; otherwise it uses skip (page-1)*perPage and the cleaned filter. |
| SubgraphProvider.LastCursor | examples/raffle-admin/src/dataProvider/promoRaffleSubgraphProvider.ts:335-345 | A cursor exists exactly when the page is non-empty and its last row has a sort value; it is that row's value and id. |
| SubgraphProvider.RecordCursor | examples/raffle-admin/src/dataProvider/promoRaffleSubgraphProvider.ts:338-345 | Without a last cursor the cache is unchanged. Otherwise the entry for the key gains that cursor at index page-1, and every other index and every other key keeps its value. |
| SubgraphProvider.FetchPage | examples/raffle-admin/src/dataProvider/promoRaffleSubgraphProvider.ts:301-345 | At most `perPage` rows. The new cache is the old one with this page's cursor recorded, and no other key is touched. |
| SubgraphProvider.EstimateTotal | examples/raffle-admin/src/dataProvider/promoRaffleSubgraphProvider.ts:347-363 | Never below (page-1)*perPage + rows seen. It is above that exactly when the probe finds a further row, and it is then page*perPage+1. |
| SubgraphProvider.EstimateTotalKnown | examples/raffle-admin/src/dataProvider/promoRaffleSubgraphProvider.ts:347-363 | Agrees with the source's estimate whenever the page is non-empty or the probe finds a row. For an empty page with nothing after it, the result is 0. |
| SubgraphProvider.ListPage | examples/raffle-admin/src/dataProvider/promoRaffleSubgraphProvider.ts:301-365 | At most `perPage` rows. The total is either (page-1)*perPage + rows seen or page*perPage+1. Only the request's own cache key changes. |
| SubgraphProvider.GetList | examples/raffle-admin/src/dataProvider/promoRaffleSubgraphProvider.ts:286-366 | Fails exactly for an unknown resource, with that error. Otherwise it answers with the bounds of `ListPage` under the `keyOf` key, using `{ page: 1, perPage: 25 }` when no pagination is given. |
| SubgraphProvider.ReferenceBaseForcesTarget | examples/raffle-admin/src/dataProvider/promoRaffleSubgraphProvider.ts:411-414 | The reference filter maps the target field to the record id, overriding a same-named entry in place. Every other field reads as in the cleaned filter. |
| SubgraphProvider.ReferencePage | examples/raffle-admin/src/dataProvider/promoRaffleSubgraphProvider.ts:425-472 | At most `perPage` rows. The total is exactly (page-1)*perPage + rows seen, with no probe. Only the request's own cache key changes. |
| SubgraphProvider.GetManyReference | examples/raffle-admin/src/dataProvider/promoRaffleSubgraphProvider.ts:406-473 | Fails exactly for an unknown resource. Otherwise it returns a page with the "so far" total under the `ref:` key. |
| SubgraphProvider.ReferenceKeysAreSeparate | examples/raffle-admin/src/dataProvider/promoRaffleSubgraphProvider.ts:418-424 | No reference cache key equals any list cache key, so the two kinds of call never read each other's cursors. |
| SubgraphProvider.Mutate | examples/raffle-admin/src/dataProvider/promoRaffleSubgraphProvider.ts:475-489 | Every mutator fails with a read-only error reading "Read-only subgraph: dataProvider.<method> is not supported.". |
| SubgraphProvider.MutationMessagesDistinct | examples/raffle-admin/src/dataProvider/promoRaffleSubgraphProvider.ts:224-228 | Different mutators produce different messages. |
| KeysetPaging.SeekQueryAfterPage | examples/raffle-admin/src/dataProvider/promoRaffleSubgraphProvider.ts:304-306 | On strictly ordered rows, the seek filter built from a page's last cursor selects exactly the filtered rows after that page. |
| KeysetPaging.FetchPageIsOffsetPage | examples/raffle-admin/src/dataProvider/promoRaffleSubgraphProvider.ts:301-345 | When every cached cursor is the last cursor of its offset page, a fetch returns exactly the offset page, and the cache keeps that property. |
| KeysetPaging.HasNextIffMoreRows | examples/raffle-admin/src/dataProvider/promoRaffleSubgraphProvider.ts:260-283 | The one-row probe after a page finds a row exactly when perPage > 0 and more filtered rows exist beyond page*perPage. |
| KeysetPaging.ListPageSound | examples/raffle-admin/src/dataProvider/promoRaffleSubgraphProvider.ts:286-366 | The list page is the offset page and the cache stays valid. The total exceeds page*perPage exactly when more rows exist. A non-empty page gives a total no larger than the row count, and exactly the row count on the last page. An empty page gives total (page-1)*perPage. |
| KeysetPaging.PastEndTotalOvershoots | examples/raffle-admin/src/dataProvider/promoRaffleSubgraphProvider.ts:347-363 | A page past the end returns no rows, yet reports total (page-1)*perPage, which is more than the number of matching rows. |
| KeysetPaging.KnownTotalIsLowerBound | examples/raffle-admin/src/dataProvider/promoRaffleSubgraphProvider.ts:347-363 | The corrected total never exceeds the row count. It exceeds page*perPage exactly when more rows exist, and it is exact on a non-empty last page. |
| KeysetPaging.ReferencePageSound | examples/raffle-admin/src/dataProvider/promoRaffleSubgraphProvider.ts:406-473 | A reference page is the offset page and the cache stays valid. On a non-empty page the total is min(page*perPage, rows). |
| KeysetPaging.BrowseSeesOffsetPages | examples/raffle-admin/src/dataProvider/promoRaffleSubgraphProvider.ts:173 | Over any sequence of page requests sharing one cache entry, in any order and with repeats, starting from an empty or valid entry, each request returns its offset page. |
| KeysetPaging.GetListSound | examples/raffle-admin/src/dataProvider/promoRaffleSubgraphProvider.ts:286-366 | For a known resource with a valid cache entry, `getList` succeeds with the offset page of the cleaned, whitelisted-sorted rows and keeps the entry valid. |
| KeysetPaging.GetManyReferenceSound | examples/raffle-admin/src/dataProvider/promoRaffleSubgraphProvider.ts:406-473 | For a known resource with a valid reference entry, `getManyReference` succeeds with the offset page of the rows matching the cleaned filter with `target = id` forced in, and keeps the entry valid. On a non-empty page the total is min(page*perPage, rows). |
| Values.PutGet | examples/raffle-admin/src/dataProvider/promoRaffleSubgraphProvider.ts:411-414 | After `{ ...f, [k]: v }`, `k` reads as `v` and every other key reads as before. Overwriting an existing key keeps the filter's length; a new key is appended at the end. |
| JsString.TrimEmptyIffWhitespace | examples/raffle-admin/src/dataProvider/promoRaffleSubgraphProvider.ts:151 | `s.trim() === ''` exactly when every character of `s` is whitespace. |
| CountryTable.TableWellFormed | examples/raffle-admin/src/promoRaffle/utils/country.ts:11-64 | The shipped table has 52 rows of two and three upper-case letters, with distinct keys and distinct values, and no value is "UNK". |
| Country.Alpha2ToAlpha3Code | examples/raffle-admin/src/promoRaffle/utils/country.ts:66-69 | After upper-casing and trimming, returns the table's alpha-3 for that key. It returns "UNK" exactly when no row has that key. |
| Country.InvertAlpha2ToAlpha3 | examples/raffle-admin/src/promoRaffle/utils/country.ts:72-105 | Succeeds exactly when no two kept normalised entries give one alpha-3 two different alpha-2 codes. Entries with an empty code or alpha-3 "UNK" are skipped. On success, every kept entry is in the map and every map entry comes from one. On failure, the message starts "alpha3ToAlpha2 collisions: ". |
| Country.CollisionReported | examples/raffle-admin/src/promoRaffle/utils/country.ts:88-102 | Two alpha-2 codes with the same alpha-3 fail with exactly "alpha3ToAlpha2 collisions: A3 <= A2a,A2b", first key first. |
| Country.Alpha3ToAlpha2 | examples/raffle-admin/src/promoRaffle/utils/country.ts:107-108 | The inverted table maps each table alpha-3 to its alpha-2 and holds nothing else. |
| Country.Alpha3ToAlpha2Code | examples/raffle-admin/src/promoRaffle/utils/country.ts:110-113 | Returns "" exactly when the normalised code is no table value. Otherwise it returns the key of the row holding it. |
| Country.Alpha2RoundTrip | examples/raffle-admin/src/promoRaffle/utils/country.ts:66-113 | For every input naming a table key, `alpha3ToAlpha2Code(alpha2ToAlpha3Code(a2))` is the normalised key. |
| Country.Alpha3RoundTrip | examples/raffle-admin/src/promoRaffle/utils/country.ts:66-113 | For every input naming a table value, `alpha2ToAlpha3Code(alpha3ToAlpha2Code(a3))` is the normalised value. |
| Country.Bytes3HexToAlpha3AsWritten | examples/raffle-admin/src/promoRaffle/utils/country.ts:121-149 | The decoder as written, with `toUpperCase` applied to the decoded Latin-1 text. Its result is "UNK" or two to three upper-case letters A-Z. |
| Country.SharpSBecomesTwoLetters | examples/raffle-admin/src/promoRaffle/utils/country.ts:138-146 | Hex whose first six digits are "4adf00" decodes to "Jß". The decoder as written upper-cases that to "JSS" and accepts it; the one-letter-per-byte decoder answers "UNK". |
| Country.AsWrittenDiffersOnlyOnSharpS | examples/raffle-admin/src/promoRaffle/utils/country.ts:143 | The two decoders agree on every input whose decoded bytes contain no 0xDF. |
| Country.Bytes3HexToAlpha3 | examples/raffle-admin/src/promoRaffle/utils/country.ts:121-149 | Missing or empty input gives "UNK". Three ASCII letters come back upper-cased. Non-hex text gives "UNK". Every result is "UNK" or two to three upper-case letters, one per decoded byte. |
| Country.HexRoundTrip | examples/raffle-admin/src/promoRaffle/utils/country.ts:115-149 | Any code of two or three upper-case letters, written as "0x" plus its byte hex plus any number of '0' digits, decodes back to itself. |
| Country.HexRoundTripAsWritten | examples/raffle-admin/src/promoRaffle/utils/country.ts:115-149 | The same round trip holds for the decoder as written. |
| Country.OnlyFirstSixDigitsMatterAsWritten | examples/raffle-admin/src/promoRaffle/utils/country.ts:136 | For the decoder as written, hex digits after the sixth, and zero padding of shorter input, do not change the decoded code. |
| Country.OnlyFirstSixDigitsMatter | examples/raffle-admin/src/promoRaffle/utils/country.ts:136 | The same holds for the one-letter-per-byte decoder. |
| Country.UkraineEncoding | examples/raffle-admin/src/promoRaffle/utils/country.ts:118-119 | "UKR" is encoded as "554b52", so with `HexRoundTrip` both "0x554b52" and "0x554b520000" give "UKR". |
| Country.Alpha2ToFlagEmoji | examples/raffle-admin/src/promoRaffle/utils/country.ts:152-160 | The result is the white flag unless the normalised input is exactly two letters A-Z. In that case it is two regional-indicator code points. |
| Country.FlagRoundTrip | examples/raffle-admin/src/promoRaffle/utils/country.ts:152-160 | Reading a flag back gives the normalised input when that is two letters A-Z, and nothing otherwise. |
| Country.FlagDecodesBack | examples/raffle-admin/src/promoRaffle/utils/country.ts:152-160 | Every pair of regional indicators is the flag of the code it reads back as. |
| Country.CountryHexToFlagSpec | examples/raffle-admin/src/promoRaffle/utils/country.ts:163-172 | `countryHexToFlag` reports the alpha-3 of the decoder as written. The alpha-2 is "" exactly when that alpha-3 has no table partner. The flag is white exactly when the alpha-2 is "", and otherwise reads back as it. |
| Country.CountryHexRoundTrip | examples/raffle-admin/src/promoRaffle/utils/country.ts:163-172 | For every table row and any zero padding, the subgraph's hex for the alpha-3 yields that row's alpha-3, its alpha-2 and its flag. |
| Country.CountryHexToFlagAgrees | examples/raffle-admin/src/promoRaffle/utils/country.ts:163-172 | `countryHexToFlag` and its one-letter-per-byte counterpart agree unless the decoded bytes contain 0xDF. |
| Country.SharpSFlag | examples/raffle-admin/src/promoRaffle/utils/country.ts:163-172 | On "0x4adf..." `countryHexToFlag` reports alpha-3 "JSS", where the counterpart reports "UNK". |
| WeiFormat.Pow10Loop | examples/raffle-admin/src/promoRaffle/prizePaid/PromoPrizePaidList.tsx:54-58 | Returns 10^d for d >= 0 and 1 for a negative count. The loop invariant is p = 10^i. |
| WeiFormat.FormatUnitsRoundTrip | examples/raffle-admin/src/promoRaffle/prizePaid/PromoPrizePaidList.tsx:62-70 | Reading the formatted decimal back and scaling it by 10^d gives the original wei amount. |
| WeiFormat.FormatUnitsShape | examples/raffle-admin/src/promoRaffle/prizePaid/PromoPrizePaidList.tsx:62-70 | The text starts with the digits of w div 10^d. A point follows exactly when w mod 10^d is non-zero, and then 1 to d fraction digits with no trailing '0'. |
| WeiFormat.FractionShape | examples/raffle-admin/src/promoRaffle/prizePaid/PromoPrizePaidList.tsx:66-69 | The padded, zero-stripped remainder has at most d digits. It is empty exactly when the remainder is zero and never ends in '0'. |
| WeiFormat.WeiToEth | examples/raffle-admin/src/promoRaffle/prizePaid/PromoPrizePaidList.tsx:60-74 | Missing or empty input gives "". Unparseable input is returned unchanged. Otherwise, for d >= 0, the text reads back as exactly w / 10^d. It starts with the quotient's digits with no leading zero, and has a fraction exactly when the remainder is non-zero. A negative d gives the plain integer. |
| WeiFormat.EtherWeiToEth | examples/raffle-admin/src/promoRaffle/prizePaid/PromoPrizePaidList.tsx:60 | With the default 18 decimals used by every view, the text reads back as the wei amount and has a point exactly when the amount is not a whole number of ether. |
| ShortHex.ShortHexPlain | examples/raffle-admin/src/promoRaffle/prizePaid/PromoPrizePaidList.tsx:40-44 | "" for a missing or empty value. The value itself when its length is at most left+right+3. Otherwise the first `left` characters, '…', and the last `right` characters, strictly shorter than the value. |
| ShortHex.PrizePaidListShortHex | examples/raffle-admin/src/promoRaffle/prizePaid/PromoPrizePaidList.tsx:40-44 | With the defaults 10/8: values up to 21 characters are unchanged, and longer ones become 19 characters: 10, '…', 8. |
| ShortHex.BalanceListShortHex | examples/raffle-admin/src/promoRaffle/balance/PromoBalanceList.tsx:40-44 | With the defaults 8/6: values up to 17 characters are unchanged, and longer ones become 15 characters: 8, '…', 6. |
| ShortHex.PlainSameIff | examples/raffle-admin/src/promoRaffle/balance/PromoBalanceList.tsx:43 | Two long values abbreviate alike exactly when they share the first `left` and last `right` characters. |
| ShortHex.ShortHexChecked | examples/raffle-admin/src/promoRaffle/promoUsers/PromoUsersList.tsx:39-44 | "" for a missing or empty value. Values without a "0x" prefix, or of length at most left+right+2, are unchanged. Otherwise the first left+2 characters, '…', and the last `right`, never longer than the value. Any changed result starts with "0x". |
| ShortHex.PromoUsersListShortHex | examples/raffle-admin/src/promoRaffle/promoUsers/PromoUsersList.tsx:39-44 | With the defaults 8/6: "0x" values longer than 16 characters become 17 characters: 10, '…', 6, keeping "0x". Everything else is unchanged. |
| ShortHex.PromoUsersShowShortHex | examples/raffle-admin/src/promoRaffle/promoUsers/PromoUsersShow.tsx:11-16 | With the defaults 10/8: "0x" values longer than 20 characters become 21 characters: 12, '…', 8, keeping "0x". Everything else is unchanged. |
| ShortHex.CheckedIdempotent | examples/raffle-admin/src/promoRaffle/promoUsers/PromoUsersShow.tsx:11-16 | Shortening a shortened value changes nothing. |
| ShortHex.ShortHexHead | examples/raffle-admin/src/promoRaffle/winners/PromoPickWinnersList.tsx:35-39 | "" for a missing or empty value. Values of length at most left+right+2 are unchanged, whatever their prefix. Otherwise the first left+2 characters, '…', and the last `right`. The result is never longer than the value, and equally long exactly at length left+right+3. |
| ShortHex.PickWinnersListShortHex | examples/raffle-admin/src/promoRaffle/winners/PromoPickWinnersList.tsx:35-39 | With the defaults 6/4: values up to 12 characters are unchanged, and longer ones become 13 characters: 8, '…', 4. |
| ShortHex.PickWinnersShowShortHex | examples/raffle-admin/src/promoRaffle/winners/PromoPickWinnersShow.tsx:12-16 | With the defaults 8/6: values up to 16 characters are unchanged, and longer ones become 17 characters: 10, '…', 6. |
| ShortHex.HeadIdempotent | examples/raffle-admin/src/promoRaffle/winners/PromoPickWinnersShow.tsx:12-16 | Shortening a shortened value changes nothing. |
| ShortHex.ShortHexWidth | examples/raffle-admin/src/promoRaffle/winners/WinnersList.tsx:11-12 | "" for a missing or empty value. Values of length at most 2+2n are unchanged. Otherwise 2+n characters, '…', and the last n: 2n+3 characters, never longer than the value. |
| ShortHex.WinnersListShortHex | examples/raffle-admin/src/promoRaffle/winners/WinnersList.tsx:11-12 | With the declared default n = 6, which no call site uses: values up to 14 characters are unchanged, and longer ones become 15 characters: 8, '…', 6. |
| ShortHex.WinnersListColumnShortHex | examples/raffle-admin/src/promoRaffle/winners/WinnersList.tsx:38-46 | With the width n = 10 that both columns pass: values up to 22 characters are unchanged, and longer ones become 23 characters: 12, '…', 10. |
| SupabaseQuery.WindowsTile | examples/raffle-admin/src/dataProvider/supabaseDataProvider.ts:6-8 | For perPage >= 1, the inclusive range holds exactly perPage rows. Page p+1 starts right after page p ends. Row n falls in exactly page n div perPage + 1. |
| SupabaseQuery.OrderSteps | examples/raffle-admin/src/dataProvider/supabaseDataProvider.ts:11-13 | One order step exactly when the sort field is a non-empty string. It is on that field, and ascending exactly when the order is "ASC", case-sensitively. |
| SupabaseQuery.Used | examples/raffle-admin/src/dataProvider/supabaseDataProvider.ts:18 | The used entries are exactly those whose value is not undefined, null or "". Blank strings are kept. |
| SupabaseQuery.DispatchContents | examples/raffle-admin/src/dataProvider/supabaseDataProvider.ts:16-22 | Every used entry yields its step, and every filter step comes from a used entry. A string becomes `ilike(k, "%v%")` and anything else `eq(k, v)`. |
| SupabaseQuery.FilterStepsDispatch | examples/raffle-admin/src/dataProvider/supabaseDataProvider.ts:16-22 | The `forEach` over the entries appends exactly the per-entry steps, in entry order. |
| SupabaseQuery.ApplyListQuery | examples/raffle-admin/src/dataProvider/supabaseDataProvider.ts:4-25 | The incoming steps, then the order step if any, then the filter steps in entry order, then the range for the page. |
| SupabaseQuery.ListQueryShape | examples/raffle-admin/src/dataProvider/supabaseDataProvider.ts:24 | The range is the last step and the only range. An order step can only come first, and comes first exactly when the sort field is set. |
| SupabaseQuery.Respond | examples/raffle-admin/src/dataProvider/supabaseDataProvider.ts:33-39 | An error is thrown exactly when the answer carries one. Otherwise rows are `data ?? []` and the total is `count ?? 0`. |
| SupabaseQuery.GetList | examples/raffle-admin/src/dataProvider/supabaseDataProvider.ts:29-40 | Runs the list query. It fails with the answer's error exactly when there is one. Otherwise the rows are the answer's data, or none when it is missing, and the total is the answer's count, or 0 when it is missing. |
| SupabaseQuery.GetManyReference | examples/raffle-admin/src/dataProvider/supabaseDataProvider.ts:99-108 | The same answer as `getList` run with `eq(target, id)` placed before every list step. |

## Left out

- SubgraphProvider.Spec: requires that the resource is not a name `Object.prototype` provides (`constructor`, `toString`, ...). The source looks such names up and gets an inherited value back instead of throwing.
- SubgraphProvider.CleanWhere: requires that the filter is not an array. The source would keep an array's elements under index keys; react-admin passes filter objects.
- SubgraphProvider.SortOf: requires an ASCII sort order. `toUpperCase` on other text uses full Unicode case mapping, which is not modelled.
- SubgraphProvider.ReferenceBase: takes the record id as a string. The source also accepts a number, which reaches the subgraph unconverted.
- SubgraphProvider.LastCursor: a row's id is a string and never null, so the source's `last.id != null` test always passes in the model. Only the missing sort value can suppress a cursor.
- SubgraphProvider.ValidPagination: requires page >= 1. React-admin numbers pages from 1; for page 0 the source would send a negative `skip`, which is not modelled.
- KeysetPaging.SortedFor: requires every listed row to have a value for the sort field. The soundness lemmas therefore never exercise the branch of `LastCursor` where a missing sort value suppresses the cursor; `LastCursor` and `RecordCursor` themselves still model that branch.
- SubgraphProvider.KeyOf: the cache key is the tuple (resource, sort field, direction, perPage, filter) itself, and distinct tuples are distinct keys. `JSON.stringify` can make distinct filters collide, for example `{ a: [undefined] }` and `{ a: [null] }` (`Arr([Undefined])` and `Arr([Null])` as entry values), which are both written as `{"a":[null]}`. Its dependence on key insertion order is kept, because the filter is an ordered entry list.
- KeysetPaging: every soundness lemma assumes two things the source relies on but does not enforce. The subgraph must list rows in strict `(orderBy, id)` order for the direction; the query names only `orderBy`, so ties are assumed to come back in `id` order. The collection must not change between calls that share a cache entry.
- KeysetPaging.SeekWhereSelectsAfterCursor: cursor values are the `String(...)` of the row's value, compared in one abstract total order. The subgraph compares numbers and strings differently, and that difference is not modelled.
- getOne and getMany of the subgraph provider are not modelled. Two behaviours of theirs are left out with them: `getOne` throws "<resource> not found: <id>" when the subgraph returns no record, and `getMany` asks for `first: 1000`, so a longer `ids` list is silently cut to its first 1000 matches.
- Network I/O is not modelled: the Apollo client, the auth link, the GraphQL query text and `client.query` calls. The rows the subgraph returns are the `Upstream` parameter, and the `hasNextPage` probe is computed over those rows.
- Concurrent calls racing on the shared cursor cache are not modelled; calls are sequential.
- The Supabase client is not modelled: the client itself, its error objects and exact counts, and the mutators and `getOne`/`getMany` of the Supabase provider. The client's answer to a query is a parameter.
- SupabaseQuery.ApplyListQuery: the `if (filter)` truthiness test is modelled as an optional filter object.
- Values: `Object.entries` lists array-index-like keys first in ascending order. The model keeps all keys in insertion order.
- Country.Alpha2ToAlpha3Code: requires ASCII input. JavaScript's full `toUpperCase`, for example 'ſ' to "S", is not modelled.
- Country.Alpha3ToAlpha2Code: requires ASCII input, for the same reason.
- Country.Alpha2ToFlagEmoji: requires ASCII input, for the same reason.
- Country.InvertAlpha2ToAlpha3: requires ASCII table entries, for the same reason.
- WeiFormat.WeiToEth: the amount is parsed to a natural number by a parameter standing for `BigInt`, so negative wei, whose output the source mangles, is not modelled. Which strings `BigInt` accepts (hex, surrounding whitespace) is left to that parameter.
- ShortHex.ShortHexPlain: lengths and slices count Unicode code points, where JavaScript counts UTF-16 code units. The two agree on the hex ids and addresses these views show. It also requires `right > 0`, as below.
- ShortHex.ShortHexHead: counts code points, not UTF-16 units, as above, and requires `right > 0` as below.
- ShortHex.ShortHexChecked: counts code points, not UTF-16 units, as above, and requires `right > 0` as below.
- ShortHex.ShortHexWidth: counts code points, not UTF-16 units, as above. `right` and `n` must be positive, because `slice(-0)` would return the whole string; every call site passes a positive width.
- Date and time formatting (`toDateFromSeconds`, `formatTs`, `tsToLocal`), JSX rendering, routing and the other providers are not modelled: they are floating point, locale or framework code.

## Findings

| source | as written | input that shows it | evidently intended | confidence | as-written member | corrected member |
|---|---|---|---|---|---|---|
| examples/raffle-admin/src/promoRaffle/utils/country.ts:143-146 | The decoded bytes go through full `toUpperCase()`, so 0xDF ('ß') becomes two letters, "SS". The result then passes the `/^[A-Z]{2,3}$/` check. | `bytes3HexToAlpha3("0x4adf")` decodes to "Jß" and returns "JSS". `countryHexToFlag` then reports alpha-3 "JSS". | One upper-case letter per decoded byte, so non-letter bytes give "UNK", and every accepted code round-trips through the hex encoding. | medium; not executed | Country.Bytes3HexToAlpha3AsWritten, Country.SharpSBecomesTwoLetters, Country.SharpSFlag | Country.Bytes3HexToAlpha3, Country.HexRoundTrip, Country.CountryHexToFlagAgrees |
| examples/raffle-admin/src/dataProvider/promoRaffleSubgraphProvider.ts:347-363 | The total starts at (page-1)*perPage + rows seen even when the page is empty. A page past the end therefore reports more rows than exist. | 5 matching rows, perPage 10, page 3 (a stale page after the filter narrows): no rows, total 20. | A total that never exceeds the number of matching rows and is exact once the last page is reached. | medium; not executed | KeysetPaging.PastEndTotalOvershoots | SubgraphProvider.EstimateTotalKnown, KeysetPaging.KnownTotalIsLowerBound |

The operations themselves follow the code as written: `CountryHexToFlag` uses the decoder with full upper-casing, and `ListPage` uses the source's total. The corrected members sit beside them, with the intended properties proved.

=== FILE: country.dfy ===
/**
 * The promo raffle's country utilities: the alpha-2 to alpha-3 table, its
 * inversion with collision detection, decoding of the subgraph's `bytes3`
 * country field, and regional-indicator flags.
 *
 * Inputs that the source upper-cases with `toUpperCase` are required to be
 * ASCII: on other text JavaScript's full Unicode case mapping applies
 * (`'ſ'` becomes `'S'`, `'ß'` becomes `"SS"`), which the model does not
 * reproduce. The one place where that mapping is reachable from well-formed
 * input, the decoded bytes of `bytes3HexToAlpha3`, is modelled exactly.
 */
module Country {
  import opened Wrappers
  import opened JsString
  import opened CountryTable

  // ---------- Normalisation and lookup ----------

  /** `s.toUpperCase().trim()` on ASCII text. */
  function Normalize(s: string): (r: string)
    ensures |r| <= |s|
  {
    Trim(AsciiUpper(s))
  }

  lemma {:induction false} TrimKeeps(s: string)
    requires |s| > 0 ==> !IsWhitespace(s[0]) && !IsWhitespace(s[|s| - 1])
    ensures Trim(s) == s
  {
  }

  /** An upper-case code is already normalised. */
  lemma {:induction false} NormalizeCode(s: string)
    requires UpperLetters(s)
    ensures Normalize(s) == s
  {
    assert AsciiUpper(s) == s;
    TrimKeeps(s);
  }

  /** `t[k]` on a plain object built from `t`, whose keys are distinct. */
  function Lookup(t: seq<Pair>, k: string): (r: Option<string>)
    ensures r.None? <==> forall i :: 0 <= i < |t| ==> t[i].0 != k
    ensures r.Some? ==> exists i :: 0 <= i < |t| && t[i] == (k, r.value)
  {
    if |t| == 0 then None
    else if t[0].0 == k then Some(t[0].1)
    else
      var r := Lookup(t[1..], k);
      assert forall i :: 1 <= i < |t| ==> t[i] == t[1..][i - 1];
      r
  }

  /** `alpha2ToAlpha3Code`: the table's alpha-3 for a normalised alpha-2, else "UNK". */
  function Alpha2ToAlpha3Code(alpha2: string): (r: string)
    requires IsAscii(alpha2)
    ensures forall i :: 0 <= i < |Table| && Table[i].0 == Normalize(alpha2) ==> r == Table[i].1
    ensures r == "UNK" <==> forall i :: 0 <= i < |Table| ==> Table[i].0 != Normalize(alpha2)
  {
    TableWellFormed();
    LookupOr(Table, Normalize(alpha2), "UNK")
  }

  /** `t[k] ?? missing` on a one-to-one table that never yields `missing`. */
  function LookupOr(t: seq<Pair>, k: string, missing: string): (r: string)
    requires KeysDistinct(t)
    requires forall i :: 0 <= i < |t| ==> t[i].1 != missing
    ensures forall i :: 0 <= i < |t| && t[i].0 == k ==> r == t[i].1
    ensures r == missing <==> forall i :: 0 <= i < |t| ==> t[i].0 != k
  {
    Lookup(t, k).GetOr(missing)
  }

  // ---------- Inversion: alpha-3 to alpha-2 ----------

  /** Two alpha-2 codes claiming the same alpha-3, reported by the inversion. */
  datatype Collision = Collision(alpha3: string, alpha2a: string, alpha2b: string)

  /** The inversion's state: the map built so far and the collisions found. */
  datatype Inversion = Inversion(a3to2: map<string, string>, collisions: seq<Collision>)

  /** Both codes of each entry normalised, as the loop body does before using them. */
  function NormalizeEntries(es: seq<Pair>): (ns: seq<Pair>)
    ensures |ns| == |es|
    ensures forall i :: 0 <= i < |es| ==> ns[i] == (Normalize(es[i].0), Normalize(es[i].1))
  {
    seq(|es|, i requires 0 <= i < |es| => (Normalize(es[i].0), Normalize(es[i].1)))
  }

  /** A normalised entry the inversion uses: both codes non-empty and the alpha-3 not "UNK". */
  predicate Kept(e: Pair) {
    e.0 != "" && e.1 != "" && e.1 != "UNK"
  }

  /** No two kept entries give different alpha-2 codes for one alpha-3. */
  predicate Consistent(ns: seq<Pair>) {
    forall i, j :: 0 <= i < |ns| && 0 <= j < |ns| && Kept(ns[i]) && Kept(ns[j]) && ns[i].1 == ns[j].1 ==> ns[i].0 == ns[j].0
  }

  /**
   * One iteration of the loop over `Object.entries(a2to3)` on a normalised
   * entry; the first alpha-2 seen for an alpha-3 wins.
   */
  function InvertStep(acc: Inversion, e: Pair): Inversion {
    var (a2, a3) := e;
    if a2 == "" || a3 == "" || a3 == "UNK" then acc
    else
      var existing := if a3 in acc.a3to2 then acc.a3to2[a3] else "";
      if existing != "" && existing != a2 then
        acc.(collisions := acc.collisions + [Collision(a3, existing, a2)])
      else
        acc.(a3to2 := acc.a3to2[a3 := a2])
  }

  /** The loop run over the normalised entries `ns`. */
  function InvertEntries(ns: seq<Pair>): Inversion {
    if |ns| == 0 then Inversion(map[], [])
    else InvertStep(InvertEntries(ns[..|ns| - 1]), ns[|ns| - 1])
  }

  /** Every kept entry's alpha-3 is a key. */
  predicate Covers(ns: seq<Pair>, m: map<string, string>) {
    forall i :: 0 <= i < |ns| && Kept(ns[i]) ==> ns[i].1 in m
  }

  /** Every key comes from a kept entry, and maps to that entry's alpha-2. */
  predicate Sourced(ns: seq<Pair>, m: map<string, string>) {
    forall a :: a in m ==> exists i :: 0 <= i < |ns| && Kept(ns[i]) && ns[i] == (m[a], a)
  }

  /** Every kept entry's alpha-3 maps to its own alpha-2. */
  predicate Agrees(ns: seq<Pair>, m: map<string, string>) {
    forall i :: 0 <= i < |ns| && Kept(ns[i]) ==> ns[i].1 in m && m[ns[i].1] == ns[i].0
  }

  /** What the loop keeps true after every prefix of the entries. */
  predicate InversionInvariant(ns: seq<Pair>, inv: Inversion) {
    && Covers(ns, inv.a3to2)
    && Sourced(ns, inv.a3to2)
    && (|inv.collisions| == 0 <==> Consistent(ns))
    && (Consistent(ns) ==> Agrees(ns, inv.a3to2))
  }

  /** Appending an entry keeps every key sourced from the longer sequence. */
  lemma {:induction false} SourcedAppend(p: seq<Pair>, e: Pair, m: map<string, string>)
    requires Sourced(p, m)
    ensures Sourced(p + [e], m)
  {
    var ns := p + [e];
    forall a | a in m
      ensures exists i :: 0 <= i < |ns| && Kept(ns[i]) && ns[i] == (m[a], a)
    {
      var i :| 0 <= i < |p| && Kept(p[i]) && p[i] == (m[a], a);
      assert ns[i] == p[i];
    }
  }

  /** Appending a kept entry and storing it keeps every key sourced. */
  lemma {:induction false} SourcedStore(p: seq<Pair>, e: Pair, m: map<string, string>)
    requires Kept(e) && Sourced(p, m)
    ensures Sourced(p + [e], m[e.1 := e.0])
  {
    var ns := p + [e];
    var m' := m[e.1 := e.0];
    SourcedAppend(p, e, m);
    forall a | a in m'
      ensures exists i :: 0 <= i < |ns| && Kept(ns[i]) && ns[i] == (m'[a], a)
    {
      if a == e.1 {
        assert ns[|p|] == e;
      } else {
        assert m'[a] == m[a];
      }
    }
  }

  /** An inconsistency stays when an entry is appended. */
  lemma {:induction false} InconsistentAppend(p: seq<Pair>, e: Pair)
    requires !Consistent(p)
    ensures !Consistent(p + [e])
  {
    var ns := p + [e];
    var i, j :| 0 <= i < |p| && 0 <= j < |p| && Kept(p[i]) && Kept(p[j]) && p[i].1 == p[j].1 && p[i].0 != p[j].0;
    assert ns[i] == p[i] && ns[j] == p[j];
  }

  /** A non-kept entry adds no disagreement. */
  lemma {:induction false} ConsistentSkip(p: seq<Pair>, e: Pair)
    requires !Kept(e)
    ensures Consistent(p + [e]) <==> Consistent(p)
  {
    var ns := p + [e];
    assert forall i :: 0 <= i < |p| ==> ns[i] == p[i];
    if !Consistent(p) {
      InconsistentAppend(p, e);
    }
  }

  /** A kept entry that agrees with the map built from a consistent prefix adds no disagreement. */
  lemma {:induction false} ConsistentStore(p: seq<Pair>, e: Pair, m: map<string, string>)
    requires Kept(e) && Consistent(p) && Agrees(p, m)
    requires e.1 in m ==> m[e.1] == e.0
    ensures Consistent(p + [e])
  {
    var ns := p + [e];
    assert forall i :: 0 <= i < |p| ==> ns[i] == p[i];
    assert ns[|p|] == e;
  }

  /** Storing a kept entry keeps every earlier kept entry's alpha-3 mapped to its alpha-2. */
  lemma {:induction false} AgreesStore(p: seq<Pair>, e: Pair, m: map<string, string>)
    requires Kept(e) && Consistent(p + [e]) && Agrees(p, m)
    ensures Agrees(p + [e], m[e.1 := e.0])
  {
    var ns := p + [e];
    assert forall i :: 0 <= i < |p| ==> ns[i] == p[i];
    assert ns[|p|] == e;
  }

  lemma {:induction false} SkipKeepsInvariant(p: seq<Pair>, e: Pair, inv: Inversion)
    requires !Kept(e)
    requires InversionInvariant(p, inv)
    ensures InversionInvariant(p + [e], inv)
  {
    var ns := p + [e];
    assert forall i :: 0 <= i < |p| ==> ns[i] == p[i];
    SourcedAppend(p, e, inv.a3to2);
    ConsistentSkip(p, e);
  }

  lemma {:induction false} CollisionKeepsInvariant(p: seq<Pair>, e: Pair, inv: Inversion)
    requires Kept(e)
    requires e.1 in inv.a3to2 && inv.a3to2[e.1] != e.0
    requires InversionInvariant(p, inv)
    ensures InversionInvariant(p + [e], InvertStep(inv, e))
  {
    var ns := p + [e];
    var j :| 0 <= j < |p| && Kept(p[j]) && p[j] == (inv.a3to2[e.1], e.1);
    assert ns[j] == p[j] && ns[|p|] == e;
    assert !Consistent(ns);
    assert forall i :: 0 <= i < |p| ==> ns[i] == p[i];
    SourcedAppend(p, e, inv.a3to2);
  }

  lemma {:induction false} SetKeepsInvariant(p: seq<Pair>, e: Pair, inv: Inversion)
    requires Kept(e)
    requires e.1 in inv.a3to2 ==> inv.a3to2[e.1] == e.0
    requires InversionInvariant(p, inv)
    ensures InversionInvariant(p + [e], inv.(a3to2 := inv.a3to2[e.1 := e.0]))
  {
    var ns := p + [e];
    var m := inv.a3to2[e.1 := e.0];
    assert forall i :: 0 <= i < |p| ==> ns[i] == p[i];
    assert ns[|p|] == e;
    SourcedStore(p, e, inv.a3to2);
    if Consistent(p) {
      ConsistentStore(p, e, inv.a3to2);
      AgreesStore(p, e, inv.a3to2);
    } else {
      InconsistentAppend(p, e);
    }
  }

  lemma {:induction false} InvertEntriesInvariant(ns: seq<Pair>)
    ensures InversionInvariant(ns, InvertEntries(ns))
  {
    if |ns| > 0 {
      var p, e := ns[..|ns| - 1], ns[|ns| - 1];
      assert ns == p + [e];
      InvertEntriesInvariant(p);
      var inv := InvertEntries(p);
      if !Kept(e) {
        SkipKeepsInvariant(p, e, inv);
      } else if e.1 in inv.a3to2 && inv.a3to2[e.1] != e.0 {
        // A stored alpha-2 is never empty, so `existing` is truthy here.
        var i :| 0 <= i < |p| && Kept(p[i]) && p[i] == (inv.a3to2[e.1], e.1);
        CollisionKeepsInvariant(p, e, inv);
      } else {
        SetKeepsInvariant(p, e, inv);
      }
    }
  }

  /** The text of one collision in the thrown message. */
  function CollisionText(c: Collision): string {
    c.alpha3 + " <= " + c.alpha2a + "," + c.alpha2b
  }

  /** `collisions.map(CollisionText).join('; ')`. */
  function JoinCollisions(cs: seq<Collision>): string {
    if |cs| == 0 then ""
    else if |cs| == 1 then CollisionText(cs[0])
    else CollisionText(cs[0]) + "; " + JoinCollisions(cs[1..])
  }

  const CollisionsPrefix: string := "alpha3ToAlpha2 collisions: "

  predicate AsciiEntries(es: seq<Pair>) {
    forall i :: 0 <= i < |es| ==> IsAscii(es[i].0) && IsAscii(es[i].1)
  }

  /**
   * `invertAlpha2ToAlpha3`: fails, with the thrown message, exactly when two
   * kept entries disagree; otherwise every kept alpha-3 maps to its alpha-2
   * and nothing else is a key.
   */
  function InvertAlpha2ToAlpha3(es: seq<Pair>): (r: Result<map<string, string>, string>)
    requires AsciiEntries(es)
    ensures r.Success? <==> Consistent(NormalizeEntries(es))
    ensures r.Success? ==> Agrees(NormalizeEntries(es), r.value) && Sourced(NormalizeEntries(es), r.value)
    ensures r.Failure? ==> StartsWith(r.error, CollisionsPrefix)
  {
    var inv := InvertEntries(NormalizeEntries(es));
    InvertEntriesInvariant(NormalizeEntries(es));
    if |inv.collisions| > 0 then Failure(CollisionsPrefix + JoinCollisions(inv.collisions))
    else Success(inv.a3to2)
  }

  /** A sequence of upper-case codes is left as it is by normalisation. */
  lemma {:induction false} NormalizeCodes(t: seq<Pair>)
    requires forall i :: 0 <= i < |t| ==> UpperLetters(t[i].0) && UpperLetters(t[i].1)
    ensures NormalizeEntries(t) == t
    ensures AsciiEntries(t)
  {
    forall i | 0 <= i < |t|
      ensures NormalizeEntries(t)[i] == t[i]
    {
      NormalizeCode(t[i].0);
      NormalizeCode(t[i].1);
    }
  }

  lemma {:induction false} TwoEntriesCollide(a2: string, b2: string, a3: string)
    requires a2 != "" && b2 != "" && a2 != b2 && a3 != "" && a3 != "UNK"
    ensures InvertEntries([(a2, a3), (b2, a3)]) == Inversion(map[a3 := a2], [Collision(a3, a2, b2)])
  {
    var ns := [(a2, a3), (b2, a3)];
    assert ns[..1][..0] == [];
    assert InvertEntries(ns[..1]) == Inversion(map[a3 := a2], []);
  }

  /** Two keys sharing an alpha-3 make the inversion throw, naming both in entry order. */
  lemma {:induction false} CollisionReported(a2: string, b2: string, a3: string)
    requires |a2| == 2 && UpperLetters(a2) && |b2| == 2 && UpperLetters(b2) && a2 != b2
    requires |a3| == 3 && UpperLetters(a3) && a3 != "UNK"
    ensures InvertAlpha2ToAlpha3([(a2, a3), (b2, a3)]) == Failure(CollisionsPrefix + CollisionText(Collision(a3, a2, b2)))
  {
    var es := [(a2, a3), (b2, a3)];
    NormalizeCodes(es);
    TwoEntriesCollide(a2, b2, a3);
  }

  /** A table of the shipped shape keeps every row and is consistent. */
  lemma {:induction false} WellFormedConsistent(t: seq<Pair>)
    requires WellFormedTable(t)
    ensures Consistent(t)
    ensures forall i :: 0 <= i < |t| ==> Kept(t[i])
  {
  }

  /** The inversion of a table of the shipped shape, which does not throw. */
  function InverseOf(t: seq<Pair>): (m: map<string, string>)
    requires WellFormedTable(t)
    ensures forall i :: 0 <= i < |t| ==> t[i].1 in m && m[t[i].1] == t[i].0
    ensures forall a :: a in m ==> exists i :: 0 <= i < |t| && t[i] == (m[a], a)
  {
    NormalizeCodes(t);
    WellFormedConsistent(t);
    InvertAlpha2ToAlpha3(t).value
  }

  /** `alpha3ToAlpha2`: the inversion of the shipped table. */
  function Alpha3ToAlpha2(): (m: map<string, string>)
    ensures forall i :: 0 <= i < |Table| ==> Table[i].1 in m && m[Table[i].1] == Table[i].0
    ensures forall a :: a in m ==> exists i :: 0 <= i < |Table| && Table[i] == (m[a], a)
  {
    TableWellFormed();
    InverseOf(Table)
  }

  /** Upper-case letters are ASCII. */
  lemma {:induction false} UpperLettersAscii(s: string)
    requires UpperLetters(s)
    ensures IsAscii(s)
  {
  }

  /** `alpha3ToAlpha2Code`: the alpha-2 whose table value is the normalised alpha-3, else "". */
  function Alpha3ToAlpha2Code(alpha3: string): (r: string)
    requires IsAscii(alpha3)
    ensures r == "" <==> forall i :: 0 <= i < |Table| ==> Table[i].1 != Normalize(alpha3)
    ensures r != "" ==> exists i :: 0 <= i < |Table| && Table[i] == (r, Normalize(alpha3))
  {
    TableWellFormed();
    var m := Alpha3ToAlpha2();
    var a3 := Normalize(alpha3);
    if a3 in m then m[a3] else ""
  }

  /** A table key survives the trip to alpha-3 and back, up to normalisation. */
  lemma {:induction false} Alpha2RoundTrip(alpha2: string)
    requires IsAscii(alpha2)
    requires exists i :: 0 <= i < |Table| && Table[i].0 == Normalize(alpha2)
    ensures IsAscii(Alpha2ToAlpha3Code(alpha2))
    ensures Alpha3ToAlpha2Code(Alpha2ToAlpha3Code(alpha2)) == Normalize(alpha2)
  {
    TableWellFormed();
    var i :| 0 <= i < |Table| && Table[i].0 == Normalize(alpha2);
    var a3 := Alpha2ToAlpha3Code(alpha2);
    assert a3 == Table[i].1;
    UpperLettersAscii(a3);
    NormalizeCode(a3);
  }

  /** A table value survives the trip to alpha-2 and back, up to normalisation. */
  lemma {:induction false} Alpha3RoundTrip(alpha3: string)
    requires IsAscii(alpha3)
    requires exists i :: 0 <= i < |Table| && Table[i].1 == Normalize(alpha3)
    ensures IsAscii(Alpha3ToAlpha2Code(alpha3))
    ensures Alpha2ToAlpha3Code(Alpha3ToAlpha2Code(alpha3)) == Normalize(alpha3)
  {
    TableWellFormed();
    var a2 := Alpha3ToAlpha2Code(alpha3);
    var i :| 0 <= i < |Table| && Table[i] == (a2, Normalize(alpha3));
    UpperLettersAscii(a2);
    NormalizeCode(a2);
  }

  // ---------- bytes3 hex to alpha-3 ----------

  predicate IsAsciiLetter(c: char) {
    IsUpperLetter(c) || IsLowerLetter(c)
  }

  /** `/^[A-Za-z]{3}$/`: the subgraph already sent a plain alpha-3. */
  predicate PlainAlpha3(s: string) {
    |s| == 3 && forall k :: 0 <= k < 3 ==> IsAsciiLetter(s[k])
  }

  predicate IsHexDigit(c: char) {
    '0' <= c <= '9' || 'a' <= c <= 'f' || 'A' <= c <= 'F'
  }

  /** `/^[0-9a-fA-F]+$/`. */
  predicate HexDigits(h: string) {
    |h| > 0 && forall k :: 0 <= k < |h| ==> IsHexDigit(h[k])
  }

  function HexValue(c: char): (d: nat)
    requires IsHexDigit(c)
    ensures d < 16
  {
    if '0' <= c <= '9' then c as int - '0' as int
    else if 'a' <= c <= 'f' then c as int - 'a' as int + 10
    else c as int - 'A' as int + 10
  }

  /** Text whose code points all fit in one byte, as `String.fromCharCode` of bytes gives. */
  predicate Latin1(s: string) {
    forall k :: 0 <= k < |s| ==> s[k] < '\U{100}'
  }

  /** `s.startsWith('0x') ? s.slice(2) : s`. */
  function StripHexPrefix(s: string): (h: string)
    ensures StartsWith(s, "0x") ==> s == "0x" + h
    ensures !StartsWith(s, "0x") ==> h == s
  {
    if StartsWith(s, "0x") then s[2..] else s
  }

  /** `hex.padEnd(6, '0').slice(0, 6)`. */
  function First6(h: string): (f: string)
    ensures |f| == 6
    ensures forall k :: 0 <= k < 6 ==> f[k] == if k < |h| then h[k] else '0'
  {
    if |h| >= 6 then h[..6] else h + seq(6 - |h|, _ => '0')
  }

  /** `parseInt(f.slice(2 * k, 2 * k + 2), 16)`. */
  function ByteAt(f: string, k: nat): (b: nat)
    requires |f| == 6 && HexDigits(f) && k < 3
    ensures b < 256
  {
    16 * HexValue(f[2 * k]) + HexValue(f[2 * k + 1])
  }

  /** The characters of `s` from index `i` on, NUL characters left out. */
  function RemoveNulFrom(s: string, i: nat): (r: string)
    requires i <= |s|
    ensures |r| <= |s| - i
    ensures forall k :: 0 <= k < |r| ==> r[k] != '\0' && exists j :: i <= j < |s| && r[k] == s[j]
    ensures (forall k :: i <= k < |s| ==> s[k] != '\0') ==> r == s[i..]
    decreases |s| - i
  {
    if i == |s| then ""
    else
      var rest := RemoveNulFrom(s, i + 1);
      if s[i] == '\0' then rest
      else
        assert [s[i]] + s[i + 1..] == s[i..];
        [s[i]] + rest
  }

  /** `.replace(/\0/g, '')`. */
  function RemoveNul(s: string): (r: string)
    ensures |r| <= |s|
    ensures forall k :: 0 <= k < |r| ==> r[k] != '\0' && r[k] in s
    ensures (forall k :: 0 <= k < |s| ==> s[k] != '\0') ==> r == s
  {
    var r := RemoveNulFrom(s, 0);
    assert s[0..] == s;
    r
  }

  /** `String.fromCharCode(b0, b1, b2)` with NUL characters removed. */
  function DecodeBytes(f: string): (d: string)
    requires |f| == 6 && HexDigits(f)
    ensures |d| <= 3 && Latin1(d)
  {
    RemoveNul([ByteAt(f, 0) as char, ByteAt(f, 1) as char, ByteAt(f, 2) as char])
  }

  /** Where `bytes3HexToAlpha3` stands before its final upper-casing. */
  datatype Decoding =
    | Decided(code: string)  // an early return
    | Decoded(text: string)  // the decoded bytes, still to be upper-cased and checked

  /** Everything `bytes3HexToAlpha3` does up to `.toUpperCase()` on the decoded bytes. */
  function Classify(value: Option<string>): (c: Decoding)
    ensures c.Decoded? ==> |c.text| <= 3 && Latin1(c.text)
  {
    if value.None? || value.value == "" then Decided("UNK")
    else
      var s := Trim(value.value);
      if PlainAlpha3(s) then Decided(AsciiUpper(s))
      else
        var hex := StripHexPrefix(s);
        if !HexDigits(hex) then Decided("UNK")
        else Decoded(DecodeBytes(First6(hex)))
  }

  /** `/^[A-Z]{2,3}$/.test(a3) ? a3 : 'UNK'`. */
  function Accept(a3: string): (r: string)
    ensures r == a3 || r == "UNK"
    ensures r == a3 <==> (2 <= |a3| <= 3 && UpperLetters(a3)) || a3 == "UNK"
  {
    if 2 <= |a3| <= 3 && UpperLetters(a3) then a3 else "UNK"
  }

  /**
   * `bytes3HexToAlpha3`, with the decoded bytes upper-cased in ASCII only,
   * so that each letter of a result stands for one byte.
   */
  function Bytes3HexToAlpha3(value: Option<string>): (r: string)
    ensures value.None? || value == Some("") ==> r == "UNK"
    ensures value.Some? && value.value != "" ==>
      var s := Trim(value.value);
      && (PlainAlpha3(s) ==> r == AsciiUpper(s))
      && (!PlainAlpha3(s) && !HexDigits(StripHexPrefix(s)) ==> r == "UNK")
    ensures r == "UNK" || (2 <= |r| <= 3 && UpperLetters(r))
    ensures Classify(value).Decoded? && r != "UNK" ==> |r| == |Classify(value).text|
  {
    match Classify(value)
    case Decided(code) => code
    case Decoded(text) => Accept(AsciiUpper(text))
  }

  /**
   * JavaScript's `toUpperCase` on one code point below U+0100: `a`..`z` and
   * most of U+00E0..U+00FE move down by 0x20, `µ` becomes Greek capital mu,
   * `ÿ` becomes U+0178 and `ß` becomes the two letters "SS".
   */
  function Latin1UpperChar(c: char): (u: string)
    requires c < '\U{100}'
    ensures 1 <= |u| <= 2
  {
    if IsLowerLetter(c) then [(c as int - 32) as char]
    else if c == '\U{B5}' then ['\U{39C}']
    else if c == '\U{DF}' then "SS"
    else if '\U{E0}' <= c <= '\U{FE}' && c != '\U{F7}' then [(c as int - 32) as char]
    else if c == '\U{FF}' then ['\U{178}']
    else [c]
  }

  /** `toUpperCase` on decoded bytes. */
  function Latin1Upper(s: string): (u: string)
    requires Latin1(s)
    ensures |u| >= |s|
  {
    if |s| == 0 then "" else Latin1UpperChar(s[0]) + Latin1Upper(s[1..])
  }

  /** `bytes3HexToAlpha3` as written: full `toUpperCase` on the decoded bytes. */
  function Bytes3HexToAlpha3AsWritten(value: Option<string>): (r: string)
    ensures r == "UNK" || (2 <= |r| <= 3 && UpperLetters(r))
  {
    match Classify(value)
    case Decided(code) => code
    case Decoded(text) => Accept(Latin1Upper(text))
  }

  /** Away from `ß`, full upper-casing of one character gives one character, a letter exactly where ASCII upper-casing gives one. */
  lemma {:induction false} Latin1UpperCharAgrees(c: char)
    requires c < '\U{100}' && c != '\U{DF}'
    ensures |Latin1UpperChar(c)| == 1
    ensures IsUpperLetter(Latin1UpperChar(c)[0]) <==> IsUpperLetter(UpperChar(c))
    ensures IsUpperLetter(Latin1UpperChar(c)[0]) ==> Latin1UpperChar(c)[0] == UpperChar(c)
  {
  }

  lemma {:induction false} Latin1UpperPointwise(s: string)
    requires Latin1(s)
    requires forall k :: 0 <= k < |s| ==> s[k] != '\U{DF}'
    ensures |Latin1Upper(s)| == |s|
    ensures forall k :: 0 <= k < |s| ==> |Latin1UpperChar(s[k])| == 1 && Latin1Upper(s)[k] == Latin1UpperChar(s[k])[0]
  {
    if |s| > 0 {
      Latin1UpperPointwise(s[1..]);
      Latin1UpperCharAgrees(s[0]);
      var rest := Latin1Upper(s[1..]);
      assert Latin1Upper(s) == Latin1UpperChar(s[0]) + rest;
      assert forall k :: 1 <= k < |s| ==> s[k] == s[1..][k - 1];
    }
  }

  /** Away from `ß`, full upper-casing yields a letter exactly where ASCII upper-casing does. */
  lemma {:induction false} Latin1UpperAgrees(s: string)
    requires Latin1(s)
    requires forall k :: 0 <= k < |s| ==> s[k] != '\U{DF}'
    ensures |Latin1Upper(s)| == |s|
    ensures UpperLetters(Latin1Upper(s)) <==> UpperLetters(AsciiUpper(s))
    ensures UpperLetters(Latin1Upper(s)) ==> Latin1Upper(s) == AsciiUpper(s)
  {
    Latin1UpperPointwise(s);
    var l, a := Latin1Upper(s), AsciiUpper(s);
    forall k | 0 <= k < |s|
      ensures IsUpperLetter(l[k]) <==> IsUpperLetter(a[k])
      ensures IsUpperLetter(l[k]) ==> l[k] == a[k]
    {
      Latin1UpperCharAgrees(s[k]);
    }
  }

  /** The two decoders differ only on decoded bytes that contain `ß` (0xDF). */
  lemma {:induction false} AsWrittenDiffersOnlyOnSharpS(value: Option<string>)
    requires Classify(value).Decoded? ==> forall k :: 0 <= k < |Classify(value).text| ==> Classify(value).text[k] != '\U{DF}'
    ensures Bytes3HexToAlpha3AsWritten(value) == Bytes3HexToAlpha3(value)
  {
    if Classify(value).Decoded? {
      Latin1UpperAgrees(Classify(value).text);
    }
  }

  /** A "0x"-prefixed digit string goes straight to byte decoding. */
  lemma {:induction false} ClassifyHex(h: string)
    requires HexDigits(h)
    ensures HexDigits(First6(h))
    ensures Classify(Some("0x" + h)) == Decoded(DecodeBytes(First6(h)))
  {
    var s := "0x" + h;
    TrimKeeps(s);
    assert s[..2] == "0x" && s[2..] == h;
    assert !PlainAlpha3(s) by { assert s[0] == '0'; }
  }

  /**
   * Bytes "J" (0x4A) and "ß" (0xDF), e.g. the input "0x4adf": as written,
   * `ß` upper-cases to "SS" and the three letters "JSS" pass the final check;
   * with one letter per byte the input is rejected.
   */
  lemma {:induction false} SharpSBecomesTwoLetters(h: string)
    requires HexDigits(h) && First6(h) == "4adf00"
    ensures Bytes3HexToAlpha3AsWritten(Some("0x" + h)) == "JSS"
    ensures Bytes3HexToAlpha3(Some("0x" + h)) == "UNK"
  {
    ClassifyHex(h);
    DecodesToJSharpS(First6(h));
    UpperJSharpS(['J', '\U{DF}']);
  }

  lemma {:induction false} DecodesToJSharpS(f: string)
    requires f == "4adf00"
    ensures HexDigits(f) && DecodeBytes(f) == ['J', '\U{DF}']
  {
    assert ByteAt(f, 0) == 0x4A && ByteAt(f, 1) == 0xDF && ByteAt(f, 2) == 0;
    var raw := ['J', '\U{DF}', '\0'];
    assert [ByteAt(f, 0) as char, ByteAt(f, 1) as char, ByteAt(f, 2) as char] == raw;
    assert RemoveNulFrom(raw, 2) == [];
    assert RemoveNulFrom(raw, 1) == ['\U{DF}'];
  }

  lemma {:induction false} UpperJSharpS(d: string)
    requires d == ['J', '\U{DF}']
    ensures Latin1(d) && Latin1Upper(d) == "JSS"
    ensures Accept(Latin1Upper(d)) == "JSS" && Accept(AsciiUpper(d)) == "UNK"
  {
    assert Latin1UpperChar(d[0]) == "J";
    assert Latin1UpperChar(d[1]) == "SS";
    assert d[1..][1..] == [];
    assert Latin1Upper(d[1..]) == "SS";
    assert Latin1Upper(d) == "J" + "SS";
    assert UpperLetters("JSS");
    assert AsciiUpper(d)[1] == '\U{DF}';
  }

  /** One lower-case hex digit. */
  function HexDigit(n: nat): (c: char)
    requires n < 16
    ensures IsHexDigit(c) && HexValue(c) == n
  {
    if n < 10 then ('0' as int + n) as char else ('a' as int + n - 10) as char
  }

  /** One byte as two lower-case hex digits. */
  function EncodeByte(c: char): (h: string)
    requires c < '\U{100}'
    ensures |h| == 2 && IsHexDigit(h[0]) && IsHexDigit(h[1])
    ensures 16 * HexValue(h[0]) + HexValue(h[1]) == c as int
  {
    [HexDigit(c as int / 16), HexDigit(c as int % 16)]
  }

  /** How the subgraph writes bytes: two lower-case hex digits per byte, after "0x". */
  function EncodeHex(s: string): (h: string)
    requires Latin1(s)
    ensures |h| == 2 * |s|
    ensures forall k :: 0 <= k < |h| ==> IsHexDigit(h[k])
  {
    if |s| == 0 then "" else EncodeByte(s[0]) + EncodeHex(s[1..])
  }
  /** The digits of a 2- or 3-letter code, byte by byte. */
  lemma {:induction false} EncodeCode(code: string)
    requires 2 <= |code| <= 3 && UpperLetters(code)
    ensures |code| == 2 ==> EncodeHex(code) == EncodeByte(code[0]) + EncodeByte(code[1])
    ensures |code| == 3 ==> EncodeHex(code) == EncodeByte(code[0]) + EncodeByte(code[1]) + EncodeByte(code[2])
  {
    var c1 := code[1..];
    var c2 := c1[1..];
    assert EncodeHex(code) == EncodeByte(code[0]) + EncodeHex(c1);
    assert EncodeHex(c1) == EncodeByte(code[1]) + EncodeHex(c2);
    if |code| == 3 {
      assert c2[1..] == [];
      assert EncodeHex(c2) == EncodeByte(code[2]) + "";
    } else {
      assert c2 == [];
    }
  }

  /** Padding and cutting hex digits to six leaves hex digits. */
  lemma {:induction false} First6Digits(h: string)
    requires HexDigits(h)
    ensures HexDigits(First6(h))
  {
  }

  /** Zero padding of at most six digits reads as the digits padded to six. */
  lemma {:induction false} PaddedFirst6(e: string, pad: nat)
    requires |e| <= 6
    ensures First6(e + Zeros(pad)) == e + Zeros(6 - |e|)
  {
    var h := e + Zeros(pad);
    var g := e + Zeros(6 - |e|);
    forall k | 0 <= k < 6
      ensures First6(h)[k] == g[k]
    {
      if k >= |e| {
        assert g[k] == Zeros(6 - |e|)[k - |e|];
        assert k < |h| ==> h[k] == Zeros(pad)[k - |e|];
      }
    }
  }

  /** The first six digits of an encoded code with any zero padding: its digits, then zeros. */
  lemma {:induction false} EncodedFirst6(code: string, pad: nat)
    requires 2 <= |code| <= 3 && UpperLetters(code)
    ensures First6(EncodeHex(code) + Zeros(pad)) == EncodeHex(code) + Zeros(6 - 2 * |code|)
  {
    PaddedFirst6(EncodeHex(code), pad);
  }

  /** Six digits written byte by byte decode to those bytes. */
  lemma {:induction false} DecodeEncoded(c0: char, c1: char, c2: char)
    requires c0 < '\U{100}' && c1 < '\U{100}' && c2 < '\U{100}'
    ensures HexDigits(EncodeByte(c0) + EncodeByte(c1) + EncodeByte(c2))
    ensures DecodeBytes(EncodeByte(c0) + EncodeByte(c1) + EncodeByte(c2)) == RemoveNul([c0, c1, c2])
  {
    var b0, b1, b2 := EncodeByte(c0), EncodeByte(c1), EncodeByte(c2);
    var f := b0 + b1 + b2;
    assert f[0] == b0[0] && f[1] == b0[1];
    assert f[2] == b1[0] && f[3] == b1[1];
    assert f[4] == b2[0] && f[5] == b2[1];
    assert HexDigits(f);
    assert ByteAt(f, 0) == c0 as int && ByteAt(f, 1) == c1 as int && ByteAt(f, 2) == c2 as int;
    assert [ByteAt(f, 0) as char, ByteAt(f, 1) as char, ByteAt(f, 2) as char] == [c0, c1, c2];
  }

  /** The third byte of a 2- or 3-letter code: its last letter, or NUL padding. */
  function ThirdByte(code: string): char
    requires 2 <= |code| <= 3
  {
    if |code| == 3 then code[2] else '\0'
  }

  /** Zero padding after hex digits leaves hex digits. */
  lemma {:induction false} HexPadded(e: string, pad: nat)
    requires |e| > 0 && forall k :: 0 <= k < |e| ==> IsHexDigit(e[k])
    ensures HexDigits(e + Zeros(pad))
  {
    var h := e + Zeros(pad);
    assert forall k :: 0 <= k < |e| ==> h[k] == e[k];
  }

  lemma {:induction false} EncodedDigits(code: string, pad: nat)
    requires 2 <= |code| <= 3 && UpperLetters(code)
    ensures HexDigits(EncodeHex(code) + Zeros(pad))
    ensures First6(EncodeHex(code) + Zeros(pad)) == EncodeByte(code[0]) + EncodeByte(code[1]) + EncodeByte(ThirdByte(code))
  {
    HexPadded(EncodeHex(code), pad);
    EncodedFirst6(code, pad);
    EncodeCode(code);
    if |code| == 2 {
      assert Zeros(2) == EncodeByte('\0');
    } else {
      assert Zeros(0) == [];
    }
  }

  /** A code's three bytes, NULs removed, are the code. */
  lemma {:induction false} CodeBytes(code: string)
    requires 2 <= |code| <= 3 && UpperLetters(code)
    ensures RemoveNul([code[0], code[1], ThirdByte(code)]) == code
  {
    var raw := [code[0], code[1], ThirdByte(code)];
    if |code| == 3 {
      assert raw == code;
    } else {
      assert RemoveNulFrom(raw, 2) == [];
      assert RemoveNulFrom(raw, 1) == [code[1]];
    }
  }

  lemma {:induction false} EncodedDecodes(code: string, pad: nat)
    requires 2 <= |code| <= 3 && UpperLetters(code)
    ensures HexDigits(EncodeHex(code) + Zeros(pad))
    ensures DecodeBytes(First6(EncodeHex(code) + Zeros(pad))) == code
  {
    EncodedDigits(code, pad);
    DecodeEncoded(code[0], code[1], ThirdByte(code));
    CodeBytes(code);
  }

  /** Decoding the subgraph's encoding of a 2- or 3-letter code, however padded, gives the code back. */
  lemma {:induction false} HexRoundTrip(code: string, pad: nat)
    requires 2 <= |code| <= 3 && UpperLetters(code)
    ensures Bytes3HexToAlpha3(Some("0x" + EncodeHex(code) + Zeros(pad))) == code
  {
    var h := EncodeHex(code) + Zeros(pad);
    EncodedDecodes(code, pad);
    assert "0x" + EncodeHex(code) + Zeros(pad) == "0x" + h;
    ClassifyHex(h);
    AcceptCode(code);
  }

  /** The subgraph's encoding of a code reaches byte decoding, and the decoded bytes are the code. */
  lemma {:induction false} EncodedClassify(code: string, pad: nat)
    requires 2 <= |code| <= 3 && UpperLetters(code)
    ensures Classify(Some("0x" + EncodeHex(code) + Zeros(pad))) == Decoded(code)
  {
    var h := EncodeHex(code) + Zeros(pad);
    EncodedDecodes(code, pad);
    assert "0x" + EncodeHex(code) + Zeros(pad) == "0x" + h;
    ClassifyHex(h);
  }

  /** The decoder as written also gives the code back: a code's letters are ASCII, never `ß`. */
  lemma {:induction false} HexRoundTripAsWritten(code: string, pad: nat)
    requires 2 <= |code| <= 3 && UpperLetters(code)
    ensures Bytes3HexToAlpha3AsWritten(Some("0x" + EncodeHex(code) + Zeros(pad))) == code
  {
    EncodedClassify(code, pad);
    HexRoundTrip(code, pad);
    AsWrittenDiffersOnlyOnSharpS(Some("0x" + EncodeHex(code) + Zeros(pad)));
  }

  /** A 2- or 3-letter upper-case code passes the final check unchanged. */
  lemma {:induction false} AcceptCode(code: string)
    requires 2 <= |code| <= 3 && UpperLetters(code)
    ensures Accept(AsciiUpper(code)) == code
  {
    assert AsciiUpper(code) == code;
  }

  /** Digits past the sixth, and zeros appended to fewer than six, do not change the first six. */
  lemma {:induction false} First6Ignores(h: string, rest: string, pad: nat)
    ensures |h| >= 6 ==> First6(h + rest) == First6(h)
    ensures First6(h + Zeros(pad)) == First6(h)
  {
    assert |h| >= 6 ==> (h + rest)[..6] == h[..6];
    var p := h + Zeros(pad);
    forall k | 0 <= k < 6
      ensures First6(p)[k] == First6(h)[k]
    {
    }
  }

  /** Digits past the sixth do not change the result. */
  lemma {:induction false} LaterDigitsIgnored(h: string, rest: string)
    requires HexDigits(h) && |h| >= 6 && (forall k :: 0 <= k < |rest| ==> IsHexDigit(rest[k]))
    ensures Bytes3HexToAlpha3(Some("0x" + h + rest)) == Bytes3HexToAlpha3(Some("0x" + h))
  {
    var hr := h + rest;
    First6Ignores(h, rest, 0);
    assert HexDigits(hr) by {
      assert forall k :: 0 <= k < |h| ==> hr[k] == h[k];
    }
    assert "0x" + h + rest == "0x" + hr;
    ClassifyHex(h);
    ClassifyHex(hr);
  }

  /** Right-padding with '0' does not change the result. */
  lemma {:induction false} PaddingIgnored(h: string, pad: nat)
    requires HexDigits(h)
    ensures Bytes3HexToAlpha3(Some("0x" + h + Zeros(pad))) == Bytes3HexToAlpha3(Some("0x" + h))
  {
    var hp := h + Zeros(pad);
    First6Ignores(h, [], pad);
    HexPadded(h, pad);
    assert "0x" + h + Zeros(pad) == "0x" + hp;
    ClassifyHex(h);
    ClassifyHex(hp);
  }

  /** Only the first six hex digits decide the result: later digits and right-padding with '0' are ignored. */
  lemma {:induction false} OnlyFirstSixDigitsMatter(h: string, rest: string, pad: nat)
    requires HexDigits(h) && (forall k :: 0 <= k < |rest| ==> IsHexDigit(rest[k]))
    ensures |h| >= 6 ==> Bytes3HexToAlpha3(Some("0x" + h + rest)) == Bytes3HexToAlpha3(Some("0x" + h))
    ensures Bytes3HexToAlpha3(Some("0x" + h + Zeros(pad))) == Bytes3HexToAlpha3(Some("0x" + h))
  {
    if |h| >= 6 {
      LaterDigitsIgnored(h, rest);
    }
    PaddingIgnored(h, pad);
  }

  /** Digits past the sixth do not change the result of the decoder as written. */
  lemma {:induction false} LaterDigitsIgnoredAsWritten(h: string, rest: string)
    requires HexDigits(h) && |h| >= 6 && (forall k :: 0 <= k < |rest| ==> IsHexDigit(rest[k]))
    ensures Bytes3HexToAlpha3AsWritten(Some("0x" + h + rest)) == Bytes3HexToAlpha3AsWritten(Some("0x" + h))
  {
    var hr := h + rest;
    First6Ignores(h, rest, 0);
    assert HexDigits(hr) by {
      assert forall k :: 0 <= k < |h| ==> hr[k] == h[k];
    }
    assert "0x" + h + rest == "0x" + hr;
    ClassifyHex(h);
    ClassifyHex(hr);
  }

  /** Right-padding with '0' does not change the result of the decoder as written. */
  lemma {:induction false} PaddingIgnoredAsWritten(h: string, pad: nat)
    requires HexDigits(h)
    ensures Bytes3HexToAlpha3AsWritten(Some("0x" + h + Zeros(pad))) == Bytes3HexToAlpha3AsWritten(Some("0x" + h))
  {
    var hp := h + Zeros(pad);
    First6Ignores(h, [], pad);
    HexPadded(h, pad);
    assert "0x" + h + Zeros(pad) == "0x" + hp;
    ClassifyHex(h);
    ClassifyHex(hp);
  }

  /** The decoder as written, too, reads only the first six hex digits. */
  lemma {:induction false} OnlyFirstSixDigitsMatterAsWritten(h: string, rest: string, pad: nat)
    requires HexDigits(h) && (forall k :: 0 <= k < |rest| ==> IsHexDigit(rest[k]))
    ensures |h| >= 6 ==> Bytes3HexToAlpha3AsWritten(Some("0x" + h + rest)) == Bytes3HexToAlpha3AsWritten(Some("0x" + h))
    ensures Bytes3HexToAlpha3AsWritten(Some("0x" + h + Zeros(pad))) == Bytes3HexToAlpha3AsWritten(Some("0x" + h))
  {
    if |h| >= 6 {
      LaterDigitsIgnoredAsWritten(h, rest);
    }
    PaddingIgnoredAsWritten(h, pad);
  }

  /**
   * "UKR" is written "554b52", so `HexRoundTrip("UKR", 0)` and
   * `HexRoundTrip("UKR", 4)` decode "0x554b52" and "0x554b520000" to "UKR".
   */
  lemma {:induction false} UkraineEncoding(code: string)
    requires code == "UKR"
    ensures 2 <= |code| <= 3 && UpperLetters(code)
    ensures EncodeHex(code) == "554b52"
  {
    EncodeCode(code);
    assert code[0] == 'U' && code[1] == 'K' && code[2] == 'R';
    assert EncodeByte('U') == "55" && EncodeByte('K') == "4b" && EncodeByte('R') == "52";
  }

  // ---------- Flags ----------

  /** The white flag: U+1F3F3 followed by the emoji presentation selector U+FE0F. */
  const WhiteFlag: string := "\U{1F3F3}\U{FE0F}"

  /** REGIONAL INDICATOR SYMBOL LETTER A; the letters B..Z follow it. */
  const RegionalA: int := 0x1F1E6

  predicate IsRegional(c: char) {
    RegionalA <= c as int <= RegionalA + 25
  }

  /** The flag of an already normalised code. */
  function FlagOf(a2: string): (r: string)
    ensures r != WhiteFlag <==> |a2| == 2 && UpperLetters(a2)
    ensures r == WhiteFlag || (|r| == 2 && IsRegional(r[0]) && IsRegional(r[1]))
  {
    if |a2| != 2 then WhiteFlag
    else
      var c1 := a2[0] as int - 65;
      var c2 := a2[1] as int - 65;
      if c1 < 0 || c1 > 25 || c2 < 0 || c2 > 25 then WhiteFlag
      else [(RegionalA + c1) as char, (RegionalA + c2) as char]
  }

  /**
   * `alpha2ToFlagEmoji`: two regional indicators for a normalised two-letter
   * code, the white flag for anything else.
   */
  function Alpha2ToFlagEmoji(alpha2: Option<string>): (r: string)
    requires alpha2.Some? ==> IsAscii(alpha2.value)
    ensures var a2 := Normalize(alpha2.GetOr(""));
      r != WhiteFlag <==> |a2| == 2 && UpperLetters(a2)
    ensures r == WhiteFlag || (|r| == 2 && IsRegional(r[0]) && IsRegional(r[1]))
  {
    FlagOf(Normalize(alpha2.GetOr("")))
  }

  /** Reads a flag back as its two letters; anything else is `None`. */
  function FlagToAlpha2(flag: string): (r: Option<string>)
    ensures r.Some? ==> |r.value| == 2 && UpperLetters(r.value)
  {
    if |flag| == 2 && IsRegional(flag[0]) && IsRegional(flag[1]) then
      Some([(flag[0] as int - RegionalA + 65) as char, (flag[1] as int - RegionalA + 65) as char])
    else None
  }

  lemma {:induction false} FlagOfRoundTrip(a2: string)
    ensures FlagToAlpha2(FlagOf(a2)) == if |a2| == 2 && UpperLetters(a2) then Some(a2) else None
  {
    if |a2| == 2 && UpperLetters(a2) {
      assert FlagToAlpha2(FlagOf(a2)).value == [a2[0], a2[1]] == a2;
    } else {
      assert !IsRegional(WhiteFlag[0]);
    }
  }

  /** A flag names exactly the code it was made from, and no flag is made from anything else. */
  lemma {:induction false} FlagRoundTrip(alpha2: string)
    requires IsAscii(alpha2)
    ensures var a2 := Normalize(alpha2);
      FlagToAlpha2(Alpha2ToFlagEmoji(Some(alpha2))) == if |a2| == 2 && UpperLetters(a2) then Some(a2) else None
  {
    FlagOfRoundTrip(Normalize(alpha2));
  }

  lemma {:induction false} FlagOfDecodesBack(flag: string)
    requires FlagToAlpha2(flag).Some?
    ensures FlagOf(FlagToAlpha2(flag).value) == flag
  {
    var a2 := FlagToAlpha2(flag).value;
    assert FlagOf(a2) == [flag[0], flag[1]];
  }

  /** Every pair of regional indicators is the flag of the code it reads as. */
  lemma {:induction false} FlagDecodesBack(flag: string)
    requires FlagToAlpha2(flag).Some?
    ensures IsAscii(FlagToAlpha2(flag).value)
    ensures Alpha2ToFlagEmoji(FlagToAlpha2(flag)) == flag
  {
    var a2 := FlagToAlpha2(flag).value;
    UpperLettersAscii(a2);
    NormalizeCode(a2);
    FlagOfDecodesBack(flag);
  }

  // ---------- bytes3 hex to flag and codes ----------

  datatype CountryFlag = CountryFlag(flag: string, a3: string, a2: string)

  /** A decoder result is upper-case letters, so normalising it changes nothing. */
  lemma {:induction false} DecodedIsCode(value: Option<string>)
    ensures UpperLetters(Bytes3HexToAlpha3(value))
    ensures IsAscii(Bytes3HexToAlpha3(value))
    ensures Normalize(Bytes3HexToAlpha3(value)) == Bytes3HexToAlpha3(value)
  {
    var a3 := Bytes3HexToAlpha3(value);
    assert UpperLetters("UNK");
    UpperLettersAscii(a3);
    NormalizeCode(a3);
  }

  /** A table key has a proper flag, which reads back as the key. */
  lemma {:induction false} KeyFlag(i: int)
    requires 0 <= i < |Table|
    ensures IsAscii(Table[i].0)
    ensures Alpha2ToFlagEmoji(Some(Table[i].0)) != WhiteFlag
    ensures FlagToAlpha2(Alpha2ToFlagEmoji(Some(Table[i].0))) == Some(Table[i].0)
  {
    TableWellFormed();
    UpperLettersAscii(Table[i].0);
    NormalizeCode(Table[i].0);
    FlagRoundTrip(Table[i].0);
  }

  /** A looked-up alpha-2 is a table key, so ASCII. */
  lemma {:induction false} Alpha2CodeAscii(alpha3: string)
    requires IsAscii(alpha3)
    ensures IsAscii(Alpha3ToAlpha2Code(alpha3))
  {
    var a2 := Alpha3ToAlpha2Code(alpha3);
    if a2 != "" {
      TableWellFormed();
      var i :| 0 <= i < |Table| && Table[i] == (a2, Normalize(alpha3));
      UpperLettersAscii(a2);
    }
  }

  /** The codes and flag shown for a decoded alpha-3. */
  function FlagForCode(a3: string): CountryFlag
    requires IsAscii(a3)
  {
    var a2 := Alpha3ToAlpha2Code(a3);
    Alpha2CodeAscii(a3);
    CountryFlag(if a2 != "" then Alpha2ToFlagEmoji(Some(a2)) else WhiteFlag, a3, a2)
  }

  /**
   * For an upper-case alpha-3: its table partner, "" when it has none; the
   * flag is white exactly when there is no partner, and otherwise reads back
   * as the partner.
   */
  lemma {:induction false} FlagForCodeSpec(a3: string)
    requires UpperLetters(a3)
    ensures IsAscii(a3)
    ensures var r := FlagForCode(a3);
      && r.a3 == a3
      && (r.a2 == "" <==> forall i :: 0 <= i < |Table| ==> Table[i].1 != a3)
      && (r.a2 != "" ==> exists i :: 0 <= i < |Table| && Table[i] == (r.a2, a3))
      && (r.flag == WhiteFlag <==> r.a2 == "")
      && (r.a2 != "" ==> FlagToAlpha2(r.flag) == Some(r.a2))
  {
    UpperLettersAscii(a3);
    NormalizeCode(a3);
    var r := FlagForCode(a3);
    if r.a2 != "" {
      var i :| 0 <= i < |Table| && Table[i] == (r.a2, a3);
      KeyFlag(i);
    }
  }

  /** A result of the decoder as written is upper-case letters too. */
  lemma {:induction false} DecodedAsWrittenIsCode(value: Option<string>)
    ensures UpperLetters(Bytes3HexToAlpha3AsWritten(value))
    ensures IsAscii(Bytes3HexToAlpha3AsWritten(value))
  {
    assert UpperLetters("UNK");
    UpperLettersAscii(Bytes3HexToAlpha3AsWritten(value));
  }

  /**
   * `countryHexToFlag`: the alpha-3 `bytes3HexToAlpha3` decodes (full
   * `toUpperCase` included), the alpha-2 the table pairs it with (or ""),
   * and that alpha-2's flag (or the white flag).
   */
  function CountryHexToFlag(hex: Option<string>): CountryFlag {
    DecodedAsWrittenIsCode(hex);
    FlagForCode(Bytes3HexToAlpha3AsWritten(hex))
  }

  /**
   * `countryHexToFlag` names the decoded alpha-3; its alpha-2 is the table
   * partner of that code or ""; the flag is white exactly when there is no
   * partner, and otherwise reads back as the partner.
   */
  lemma {:induction false} CountryHexToFlagSpec(hex: Option<string>)
    ensures var r := CountryHexToFlag(hex);
      && r.a3 == Bytes3HexToAlpha3AsWritten(hex)
      && (r.a3 == "UNK" || 2 <= |r.a3| <= 3)
      && (r.a2 == "" <==> forall i :: 0 <= i < |Table| ==> Table[i].1 != r.a3)
      && (r.flag == WhiteFlag <==> r.a2 == "")
      && (r.a2 != "" ==> FlagToAlpha2(r.flag) == Some(r.a2))
  {
    DecodedAsWrittenIsCode(hex);
    FlagForCodeSpec(Bytes3HexToAlpha3AsWritten(hex));
  }

  /** `countryHexToFlag` built on the decoder with one letter per byte. */
  function CountryHexToFlagIntended(hex: Option<string>): CountryFlag {
    DecodedIsCode(hex);
    FlagForCode(Bytes3HexToAlpha3(hex))
  }

  /** The two compositions agree unless the decoded bytes contain `ß`. */
  lemma {:induction false} CountryHexToFlagAgrees(hex: Option<string>)
    requires Classify(hex).Decoded? ==> forall k :: 0 <= k < |Classify(hex).text| ==> Classify(hex).text[k] != '\U{DF}'
    ensures CountryHexToFlag(hex) == CountryHexToFlagIntended(hex)
  {
    AsWrittenDiffersOnlyOnSharpS(hex);
  }

  /** On "0x4adf…" the source shows the codes of "JSS"; one letter per byte shows "UNK". */
  lemma {:induction false} SharpSFlag(h: string)
    requires HexDigits(h) && First6(h) == "4adf00"
    ensures CountryHexToFlag(Some("0x" + h)).a3 == "JSS"
    ensures CountryHexToFlagIntended(Some("0x" + h)).a3 == "UNK"
  {
    SharpSBecomesTwoLetters(h);
  }

  /** The `bytes3` hex value the subgraph stores for table row `i`, followed by `pad` zero digits. */
  function CountryHex(i: int, pad: nat): string
    requires 0 <= i < |Table|
  {
    TableWellFormed();
    "0x" + EncodeHex(Table[i].1) + Zeros(pad)
  }

  /** The subgraph's encoding of a table country, however padded, yields that country's codes and flag. */
  lemma {:induction false} CountryHexRoundTrip(i: int, pad: nat)
    requires 0 <= i < |Table|
    ensures var r := CountryHexToFlag(Some(CountryHex(i, pad)));
      r.a3 == Table[i].1 && r.a2 == Table[i].0 && FlagToAlpha2(r.flag) == Some(Table[i].0)
  {
    TableWellFormed();
    var code := Table[i].1;
    HexRoundTripAsWritten(code, pad);
    FlagForCodeSpec(code);
    var r := FlagForCode(code);
    var j :| 0 <= j < |Table| && Table[j] == (r.a2, code);
    assert j == i;
  }
}

=== FILE: country_table.dfy ===
/**
 * The shipped `alpha2ToAlpha3` table and the facts the rest of the model
 * needs about it: 52 rows of two upper-case letters to three, no key and no
 * value twice, and no value "UNK".
 */
module CountryTable {
  import opened JsString

  /** One row of the table: alpha-2 key and alpha-3 value. */
  type Pair = (string, string)

  /** The first quarter of `alpha2ToAlpha3`, in source order. */
  const TableA: seq<Pair> := [
    ("UA", "UKR"), ("US", "USA"), ("GB", "GBR"), ("CA", "CAN"), ("AU", "AUS"), ("DE", "DEU"), ("FR", "FRA"),
    ("ES", "ESP"), ("IT", "ITA"), ("PL", "POL"), ("NL", "NLD"), ("SE", "SWE"), ("NO", "NOR")]

  /** The second quarter of `alpha2ToAlpha3`, in source order. */
  const TableB: seq<Pair> := [
    ("DK", "DNK"), ("FI", "FIN"), ("IE", "IRL"), ("CH", "CHE"), ("AT", "AUT"), ("BE", "BEL"), ("CZ", "CZE"),
    ("SK", "SVK"), ("HU", "HUN"), ("RO", "ROU"), ("BG", "BGR"), ("GR", "GRC"), ("TR", "TUR")]

  /** The third quarter of `alpha2ToAlpha3`, in source order. */
  const TableC: seq<Pair> := [
    ("IL", "ISR"), ("AE", "ARE"), ("SA", "SAU"), ("IN", "IND"), ("CN", "CHN"), ("JP", "JPN"), ("KR", "KOR"),
    ("BR", "BRA"), ("MX", "MEX"), ("AR", "ARG"), ("CL", "CHL"), ("CO", "COL"), ("PE", "PER")]

  /** The fourth quarter of `alpha2ToAlpha3`, in source order. */
  const TableD: seq<Pair> := [
    ("ZA", "ZAF"), ("EG", "EGY"), ("NG", "NGA"), ("KE", "KEN"), ("SG", "SGP"), ("HK", "HKG"), ("TW", "TWN"),
    ("TH", "THA"), ("VN", "VNM"), ("MY", "MYS"), ("ID", "IDN"), ("PH", "PHL"), ("NZ", "NZL")]

  /** `alpha2ToAlpha3`: 52 countries, keys in insertion order. */
  const Table: seq<Pair> := TableA + TableB + TableC + TableD

  predicate UpperLetters(s: string) {
    forall k :: 0 <= k < |s| ==> IsUpperLetter(s[k])
  }

  /** A well-formed table row: two upper-case letters to three. */
  predicate CodeRow(p: Pair) {
    |p.0| == 2 && UpperLetters(p.0) && |p.1| == 3 && UpperLetters(p.1)
  }

  /** An alpha-2 code read as a base-256 number, to index the table by. */
  function Code2(s: string): int {
    if |s| == 2 then (s[0] as int) * 256 + s[1] as int else 0
  }

  /** An alpha-3 code read as a base-256 number, to index the table by. */
  function Code3(s: string): int {
    if |s| == 3 then ((s[0] as int) * 256 + s[1] as int) * 256 + s[2] as int else 0
  }

  /** The position of each alpha-2 key in `Table`: a left inverse of the keys. */
  function KeyPosition(c: int): nat {
    if c < 18766 then
      if c < 17477 then
        if c < 16978 then
          if c < 16725 then
            if c < 16722 then
              if c == 16709 then 27 else 52
            else
              if c < 16724 then
                if c == 16722 then 35 else 52
              else
                if c == 16724 then 17 else 52
          else
            if c < 16965 then
              if c == 16725 then 4 else 52
            else
              if c < 16967 then
                if c == 16965 then 18 else 52
              else
                if c == 16967 then 23 else 52
        else
          if c < 17228 then
            if c < 17217 then
              if c == 16978 then 33 else 52
            else
              if c < 17224 then
                if c == 17217 then 3 else 52
              else
                if c == 17224 then 16 else 52
          else
            if c < 17231 then
              if c < 17230 then
                if c == 17228 then 36 else 52
              else
                if c == 17230 then 30 else 52
            else
              if c < 17242 then
                if c == 17231 then 37 else 52
              else
                if c == 17242 then 19 else 52
      else
        if c < 18242 then
          if c < 17747 then
            if c < 17483 then
              if c == 17477 then 5 else 52
            else
              if c < 17735 then
                if c == 17483 then 13 else 52
              else
                if c == 17735 then 40 else 52
          else
            if c < 17993 then
              if c == 17747 then 7 else 52
            else
              if c < 18002 then
                if c == 17993 then 14 else 52
              else
                if c == 18002 then 6 else 52
        else
          if c < 18517 then
            if c < 18258 then
              if c == 18242 then 2 else 52
            else
              if c < 18507 then
                if c == 18258 then 24 else 52
              else
                if c == 18507 then 44 else 52
          else
            if c < 18757 then
              if c < 18756 then
                if c == 18517 then 21 else 52
              else
                if c == 18756 then 49 else 52
            else
              if c < 18764 then
                if c == 18757 then 15 else 52
              else
                if c == 18764 then 26 else 52
    else
      if c < 20556 then
        if c < 19801 then
          if c < 19269 then
            if c < 18772 then
              if c == 18766 then 29 else 52
            else
              if c < 19024 then
                if c == 18772 then 8 else 52
              else
                if c == 19024 then 31 else 52
          else
            if c < 19282 then
              if c == 19269 then 42 else 52
            else
              if c < 19800 then
                if c == 19282 then 32 else 52
              else
                if c == 19800 then 34 else 52
        else
          if c < 20047 then
            if c < 20039 then
              if c == 19801 then 48 else 52
            else
              if c < 20044 then
                if c == 20039 then 41 else 52
              else
                if c == 20044 then 10 else 52
          else
            if c < 20549 then
              if c < 20058 then
                if c == 20047 then 12 else 52
              else
                if c == 20058 then 51 else 52
            else
              if c < 20552 then
                if c == 20549 then 38 else 52
              else
                if c == 20552 then 50 else 52
      else
        if c < 21576 then
          if c < 21317 then
            if c < 21071 then
              if c == 20556 then 9 else 52
            else
              if c < 21313 then
                if c == 21071 then 22 else 52
              else
                if c == 21313 then 28 else 52
          else
            if c < 21319 then
              if c == 21317 then 11 else 52
            else
              if c < 21323 then
                if c == 21319 then 43 else 52
              else
                if c == 21323 then 20 else 52
        else
          if c < 21825 then
            if c < 21586 then
              if c == 21576 then 46 else 52
            else
              if c < 21591 then
                if c == 21586 then 25 else 52
              else
                if c == 21591 then 45 else 52
          else
            if c < 22094 then
              if c < 21843 then
                if c == 21825 then 0 else 52
              else
                if c == 21843 then 1 else 52
            else
              if c < 23105 then
                if c == 22094 then 47 else 52
              else
                if c == 23105 then 39 else 52
  }

  /** The position of each alpha-3 value in `Table`: a left inverse of the values. */
  function ValuePosition(c: int): nat {
    if c < 4805458 then
      if c < 4474197 then
        if c < 4346433 then
          if c < 4281684 then
            if c < 4280903 then
              if c == 4280901 then 27 else 52
            else
              if c < 4281683 then
                if c == 4280903 then 35 else 52
              else
                if c == 4281683 then 4 else 52
          else
            if c < 4343116 then
              if c == 4281684 then 17 else 52
            else
              if c < 4343634 then
                if c == 4343116 then 18 else 52
              else
                if c == 4343634 then 23 else 52
        else
          if c < 4409420 then
            if c < 4407630 then
              if c == 4346433 then 33 else 52
            else
              if c < 4409413 then
                if c == 4407630 then 3 else 52
              else
                if c == 4409413 then 16 else 52
          else
            if c < 4411212 then
              if c < 4409422 then
                if c == 4409420 then 36 else 52
              else
                if c == 4409422 then 30 else 52
            else
              if c < 4414021 then
                if c == 4411212 then 37 else 52
              else
                if c == 4414021 then 19 else 52
      else
        if c < 4670034 then
          if c < 4543312 then
            if c < 4476491 then
              if c == 4474197 then 5 else 52
            else
              if c < 4540249 then
                if c == 4476491 then 13 else 52
              else
                if c == 4540249 then 40 else 52
          else
            if c < 4606286 then
              if c == 4543312 then 7 else 52
            else
              if c < 4608577 then
                if c == 4606286 then 14 else 52
              else
                if c == 4608577 then 6 else 52
        else
          if c < 4740430 then
            if c < 4674115 then
              if c == 4670034 then 2 else 52
            else
              if c < 4737863 then
                if c == 4674115 then 24 else 52
              else
                if c == 4737863 then 44 else 52
          else
            if c < 4804164 then
              if c < 4801614 then
                if c == 4740430 then 21 else 52
              else
                if c == 4801614 then 49 else 52
            else
              if c < 4805196 then
                if c == 4804164 then 29 else 52
              else
                if c == 4805196 then 15 else 52
    else
      if c < 5263180 then
        if c < 5069139 then
          if c < 4932942 then
            if c < 4805697 then
              if c == 4805458 then 26 else 52
            else
              if c < 4870222 then
                if c == 4805697 then 8 else 52
              else
                if c == 4870222 then 31 else 52
          else
            if c < 4935506 then
              if c == 4932942 then 42 else 52
            else
              if c < 5064024 then
                if c == 4935506 then 32 else 52
              else
                if c == 5064024 then 34 else 52
        else
          if c < 5132114 then
            if c < 5130049 then
              if c == 5069139 then 48 else 52
            else
              if c < 5131332 then
                if c == 5130049 then 41 else 52
              else
                if c == 5131332 then 10 else 52
          else
            if c < 5260626 then
              if c < 5134924 then
                if c == 5132114 then 12 else 52
              else
                if c == 5134924 then 51 else 52
            else
              if c < 5261388 then
                if c == 5260626 then 38 else 52
              else
                if c == 5261388 then 50 else 52
      else
        if c < 5523521 then
          if c < 5457744 then
            if c < 5394261 then
              if c == 5263180 then 9 else 52
            else
              if c < 5456213 then
                if c == 5394261 then 22 else 52
              else
                if c == 5456213 then 28 else 52
          else
            if c < 5461579 then
              if c == 5457744 then 43 else 52
            else
              if c < 5461829 then
                if c == 5461579 then 20 else 52
              else
                if c == 5461829 then 11 else 52
        else
          if c < 5589842 then
            if c < 5526866 then
              if c == 5523521 then 46 else 52
            else
              if c < 5527374 then
                if c == 5526866 then 25 else 52
              else
                if c == 5527374 then 45 else 52
          else
            if c < 5656141 then
              if c < 5591873 then
                if c == 5589842 then 0 else 52
              else
                if c == 5591873 then 1 else 52
            else
              if c < 5914950 then
                if c == 5656141 then 47 else 52
              else
                if c == 5914950 then 39 else 52
  }

  lemma {:induction false} TableAKeys()
    ensures forall i :: 0 <= i < |TableA| ==> KeyPosition(Code2(TableA[i].0)) == i
  {
  }

  lemma {:induction false} TableAValues()
    ensures forall i :: 0 <= i < |TableA| ==> ValuePosition(Code3(TableA[i].1)) == i
  {
  }

  lemma {:induction false} TableARows()
    ensures forall i :: 0 <= i < |TableA| ==> CodeRow(TableA[i])
  {
  }

  lemma {:induction false} TableBKeys()
    ensures forall i :: 0 <= i < |TableB| ==> KeyPosition(Code2(TableB[i].0)) == 13 + i
  {
  }

  lemma {:induction false} TableBValues()
    ensures forall i :: 0 <= i < |TableB| ==> ValuePosition(Code3(TableB[i].1)) == 13 + i
  {
  }

  lemma {:induction false} TableBRows()
    ensures forall i :: 0 <= i < |TableB| ==> CodeRow(TableB[i])
  {
  }

  lemma {:induction false} TableCKeys()
    ensures forall i :: 0 <= i < |TableC| ==> KeyPosition(Code2(TableC[i].0)) == 26 + i
  {
  }

  lemma {:induction false} TableCValues()
    ensures forall i :: 0 <= i < |TableC| ==> ValuePosition(Code3(TableC[i].1)) == 26 + i
  {
  }

  lemma {:induction false} TableCRows()
    ensures forall i :: 0 <= i < |TableC| ==> CodeRow(TableC[i])
  {
  }

  lemma {:induction false} TableDKeys()
    ensures forall i :: 0 <= i < |TableD| ==> KeyPosition(Code2(TableD[i].0)) == 39 + i
  {
  }

  lemma {:induction false} TableDValues()
    ensures forall i :: 0 <= i < |TableD| ==> ValuePosition(Code3(TableD[i].1)) == 39 + i
  {
  }

  lemma {:induction false} TableDRows()
    ensures forall i :: 0 <= i < |TableD| ==> CodeRow(TableD[i])
  {
  }

  /** No key and no value occurs twice in the table, and every row is well formed. */
  predicate KeysDistinct(t: seq<Pair>) {
    forall i, j :: 0 <= i < |t| && 0 <= j < |t| && t[i].0 == t[j].0 ==> i == j
  }

  predicate ValuesDistinct(t: seq<Pair>) {
    forall i, j :: 0 <= i < |t| && 0 <= j < |t| && t[i].1 == t[j].1 ==> i == j
  }

  /** A table of the shipped shape: well-formed rows, one-to-one, no "UNK". */
  predicate WellFormedTable(t: seq<Pair>) {
    && KeysDistinct(t)
    && ValuesDistinct(t)
    && (forall i :: 0 <= i < |t| ==> CodeRow(t[i]))
    && (forall i :: 0 <= i < |t| ==> t[i].1 != "UNK")
  }

  lemma {:induction false} TableRowsPositioned()
    ensures |Table| == 52
    ensures forall i :: 0 <= i < |Table| ==> KeyPosition(Code2(Table[i].0)) == i
    ensures forall i :: 0 <= i < |Table| ==> ValuePosition(Code3(Table[i].1)) == i
    ensures forall i :: 0 <= i < |Table| ==> CodeRow(Table[i])
  {
    TableAKeys(); TableBKeys(); TableCKeys(); TableDKeys();
    TableAValues(); TableBValues(); TableCValues(); TableDValues();
    TableARows(); TableBRows(); TableCRows(); TableDRows();
    forall i | 0 <= i < |Table|
      ensures KeyPosition(Code2(Table[i].0)) == i && ValuePosition(Code3(Table[i].1)) == i && CodeRow(Table[i])
    {
      if i < 13 {
        assert Table[i] == TableA[i];
      } else if i < 26 {
        assert Table[i] == TableB[i - 13];
      } else if i < 39 {
        assert Table[i] == TableC[i - 26];
      } else {
        assert Table[i] == TableD[i - 39];
      }
    }
  }

  /** The shipped table has 52 rows of the expected shape. */
  lemma {:induction false} TableWellFormed()
    ensures |Table| == 52
    ensures WellFormedTable(Table)
  {
    TableRowsPositioned();
    assert ValuePosition(Code3("UNK")) == 52;
  }
}

=== FILE: js_string.dfy ===
/**
 * The few pieces of JavaScript's `String.prototype` the model relies on:
 * `trim`, ASCII `toUpperCase`, `startsWith` and `slice` with negative
 * indices. Strings are sequences of Unicode scalar values.
 */
module JsString {

  /** ECMAScript WhiteSpace and LineTerminator code points: what `trim` removes. */
  predicate IsWhitespace(c: char) {
    || c == '\t' || c == '\n' || c == '\U{B}' || c == '\U{C}' || c == '\r' || c == ' '
    || c == '\U{A0}' || c == '\U{1680}' || ('\U{2000}' <= c <= '\U{200A}')
    || c == '\U{2028}' || c == '\U{2029}' || c == '\U{202F}' || c == '\U{205F}'
    || c == '\U{3000}' || c == '\U{FEFF}'
  }

  predicate AllWhitespace(s: string) {
    forall i :: 0 <= i < |s| ==> IsWhitespace(s[i])
  }

  /** The index of the first non-whitespace character at or after `i`, or `|s|`. */
  function SkipLeading(s: string, i: nat): (n: nat)
    requires i <= |s|
    ensures i <= n <= |s|
    ensures forall k :: i <= k < n ==> IsWhitespace(s[k])
    ensures n == |s| || !IsWhitespace(s[n])
    decreases |s| - i
  {
    if i < |s| && IsWhitespace(s[i]) then SkipLeading(s, i + 1) else i
  }

  /** The index just past the last non-whitespace character before `j`, or 0. */
  function SkipTrailing(s: string, j: nat): (n: nat)
    requires j <= |s|
    ensures n <= j
    ensures forall k :: n <= k < j ==> IsWhitespace(s[k])
    ensures n == 0 || !IsWhitespace(s[n - 1])
  {
    if j > 0 && IsWhitespace(s[j - 1]) then SkipTrailing(s, j - 1) else j
  }

  /** Leading whitespace removed. */
  function TrimStart(s: string): (r: string)
    ensures |r| <= |s| && r == s[|s| - |r|..]
    ensures r == [] || !IsWhitespace(r[0])
    ensures AllWhitespace(s[..|s| - |r|])
  {
    var n := SkipLeading(s, 0);
    assert forall k :: 0 <= k < n ==> s[..n][k] == s[k];
    s[n..]
  }

  /** Trailing whitespace removed. */
  function TrimEnd(s: string): (r: string)
    ensures |r| <= |s| && r == s[..|r|]
    ensures r == [] || !IsWhitespace(r[|r| - 1])
    ensures AllWhitespace(s[|r|..])
  {
    var n := SkipTrailing(s, |s|);
    assert forall k :: n <= k < |s| ==> s[n..][k - n] == s[k];
    s[..n]
  }

  /** `String.prototype.trim`. */
  function Trim(s: string): string {
    TrimEnd(TrimStart(s))
  }

  /** A string trims to nothing exactly when it is whitespace only. */
  lemma {:induction false} TrimEmptyIffWhitespace(s: string)
    ensures Trim(s) == [] <==> AllWhitespace(s)
  {
    var t := TrimStart(s);
    if Trim(s) == [] {
      assert AllWhitespace(t[0..]);
      assert s == s[..|s| - |t|] + t;
    }
  }

  predicate IsAscii(s: string) {
    forall i :: 0 <= i < |s| ==> s[i] < '\U{80}'
  }

  predicate IsUpperLetter(c: char) {
    'A' <= c <= 'Z'
  }

  predicate IsLowerLetter(c: char) {
    'a' <= c <= 'z'
  }

  /** `toUpperCase` restricted to ASCII: only `a`..`z` change. */
  function UpperChar(c: char): (u: char)
    ensures IsLowerLetter(c) ==> u as int == c as int - 32
    ensures !IsLowerLetter(c) ==> u == c
  {
    if IsLowerLetter(c) then (c as int - 32) as char else c
  }

  function AsciiUpper(s: string): (r: string)
    ensures |r| == |s|
    ensures forall i :: 0 <= i < |s| ==> r[i] == UpperChar(s[i])
  {
    seq(|s|, i requires 0 <= i < |s| => UpperChar(s[i]))
  }

  /** `s.startsWith(p)`. */
  predicate StartsWith(s: string, p: string) {
    |p| <= |s| && s[..|p|] == p
  }

  /** How `slice` resolves a possibly negative index against a length. */
  function RelativeIndex(len: nat, k: int): (r: nat)
    ensures r <= len
    ensures 0 <= k <= len ==> r == k
    ensures -(len as int) <= k < 0 ==> r == len + k
  {
    if k < 0 then (if len + k < 0 then 0 else len + k)
    else if k > len then len
    else k
  }

  /** `s.slice(start, end)`. */
  function Slice(s: string, start: int, end: int): (r: string)
    ensures |r| <= |s|
  {
    var from := RelativeIndex(|s|, start);
    var to := RelativeIndex(|s|, end);
    if from < to then s[from..to] else []
  }

  /** `s.slice(start)`. */
  function SliceFrom(s: string, start: int): string {
    Slice(s, start, |s|)
  }

  /** `n` zero digits: the fill `padStart`/`padEnd` insert with `'0'`. */
  function Zeros(n: nat): (z: string)
    ensures |z| == n && forall k :: 0 <= k < n ==> z[k] == '0'
  {
    seq(n, _ => '0')
  }
}

=== FILE: keyset_paging.dfy ===
/**
 * Why the cursor cache of the subgraph provider is sound: under the two
 * assumptions the provider relies on without enforcing them, every page it
 * fetches through a cached cursor is exactly the page an offset query would
 * have returned, and the probe-based total announces a next page exactly
 * when one exists.
 *
 * Assumptions, stated as preconditions rather than built into the model:
 *  - the subgraph lists rows in strict `(orderBy, id)` order for the
 *    direction (the query names only `orderBy`, so ties are assumed to come
 *    out in `id` order), and every listed row has a value for `orderBy`;
 *  - the collection does not change between calls that share a cache entry.
 */
module KeysetPaging {
  import opened Wrappers
  import opened Values
  import opened Subgraph
  import opened SubgraphProvider

  /** `a` comes strictly before `b` in `(orderBy, id)` order for the direction. */
  predicate Precedes(a: Row, b: Row, orderBy: string, dir: Direction) {
    && FieldValue(a, orderBy).Some?
    && FieldValue(b, orderBy).Some?
    && var va := FieldValue(a, orderBy).value;
       var vb := FieldValue(b, orderBy).value;
       if dir == Asc then va < vb || (va == vb && a.id < b.id)
       else va > vb || (va == vb && a.id > b.id)
  }

  /** Row `r` lies strictly past cursor `cur` in `(orderBy, id)` order for the direction. */
  predicate After(r: Row, cur: Cursor, orderBy: string, dir: Direction) {
    && FieldValue(r, orderBy).Some?
    && var v := FieldValue(r, orderBy).value;
       if dir == Asc then v > cur.v || (v == cur.v && r.id > cur.id)
       else v < cur.v || (v == cur.v && r.id < cur.id)
  }

  /** The order the subgraph is assumed to list a collection in. */
  predicate SortedFor(rows: seq<Row>, orderBy: string, dir: Direction) {
    && (forall i :: 0 <= i < |rows| ==> FieldValue(rows[i], orderBy).Some?)
    && (forall i, j :: 0 <= i < j < |rows| ==> Precedes(rows[i], rows[j], orderBy, dir))
  }

  /**
   * A cursor whose value and identifier agree when the sort field is `id`
   * itself, as every cursor taken from a row does.
   */
  predicate Coherent(cur: Cursor, orderBy: string) {
    orderBy == "id" ==> cur.v == cur.id
  }

  /** The seek predicate alone, without a base filter. */
  function SeekOnly(orderBy: string, dir: Direction, cur: Cursor): Where {
    SeekWhere([], orderBy, dir, cur)
  }

  lemma {:induction false} HoldsAnd2(a: Where, b: Where, r: Row, atom: (string, Value, Row) -> bool)
    ensures Holds(And([a, b]), r, atom) <==> Holds(a, r, atom) && Holds(b, r, atom)
  {
    assert [a, b][0] == a && [a, b][1] == b;
  }

  lemma {:induction false} HoldsOr2(a: Where, b: Where, r: Row, atom: (string, Value, Row) -> bool)
    ensures Holds(Or([a, b]), r, atom) <==> Holds(a, r, atom) || Holds(b, r, atom)
  {
    assert [a, b][0] == a && [a, b][1] == b;
    if Holds(Or([a, b]), r, atom) {
      var i :| 0 <= i < 2 && Holds([a, b][i], r, atom);
    }
  }

  /**
   * The central property of `seekWhere`: a row satisfies it exactly when it
   * satisfies the base filter and lies strictly past the cursor.
   */
  lemma {:induction false} SeekWhereSelectsAfterCursor(base: Filter, orderBy: string, dir: Direction, cur: Cursor,
                                    r: Row, atom: (string, Value, Row) -> bool)
    requires Coherent(cur, orderBy)
    ensures Holds(SeekWhere(base, orderBy, dir, cur), r, atom)
            <==> Holds(Match(base), r, atom) && After(r, cur, orderBy, dir)
  {
    var c := CmpFor(dir);
    var seek := SeekWhere([], orderBy, dir, cur);
    if orderBy != "id" {
      var a := Compare(orderBy, c, cur.v);
      var b := And([Compare(orderBy, Equal, cur.v), Compare("id", c, cur.id)]);
      HoldsOr2(a, b, r, atom);
      HoldsAnd2(Compare(orderBy, Equal, cur.v), Compare("id", c, cur.id), r, atom);
      assert Holds(seek, r, atom) <==> After(r, cur, orderBy, dir);
    }
    if |base| > 0 {
      HoldsAnd2(Match(base), seek, r, atom);
    }
  }

  /** Rows on pages `1..page` are the rows before it plus one page. */
  lemma {:induction false} RowsStep(page: nat, perPage: nat)
    requires page >= 1
    ensures RowsThrough(page, perPage) == RowsBefore(page, perPage) + perPage
    ensures RowsBefore(page + 1, perPage) == RowsThrough(page, perPage)
  {
  }

  /** Selecting by a conjunction is selecting by one conjunct, then by the other. */
  lemma {:induction false} SelectConj(rows: seq<Row>, w: Where, a: Where, b: Where, atom: (string, Value, Row) -> bool)
    requires forall r :: r in rows ==> (Holds(w, r, atom) <==> Holds(a, r, atom) && Holds(b, r, atom))
    ensures Select(rows, w, atom) == Select(Select(rows, a, atom), b, atom)
  {
    if |rows| > 0 {
      SelectConj(rows[1..], w, a, b, atom);
      var rest := Select(rows[1..], a, atom);
      if Holds(a, rows[0], atom) {
        var s := [rows[0]] + rest;
        assert s[0] == rows[0] && s[1..] == rest;
      }
    }
  }

  /** A filter that fails on a prefix and holds on the rest keeps exactly the rest. */
  lemma {:induction false} SelectSuffix(rows: seq<Row>, w: Where, e: nat, atom: (string, Value, Row) -> bool)
    requires e <= |rows|
    requires forall i :: 0 <= i < |rows| ==> (Holds(w, rows[i], atom) <==> i >= e)
    ensures Select(rows, w, atom) == rows[e..]
  {
    if |rows| > 0 {
      assert forall i :: 0 <= i < |rows| - 1 ==> rows[1..][i] == rows[i + 1];
      if e > 0 {
        SelectSuffix(rows[1..], w, e - 1, atom);
        assert rows[1..][e - 1..] == rows[e..];
      } else {
        SelectSuffix(rows[1..], w, 0, atom);
        assert [rows[0]] + rows[1..] == rows;
      }
    }
  }

  /** Filtering a sorted listing leaves it sorted. */
  lemma {:induction false} SelectKeepsSorted(rows: seq<Row>, w: Where, orderBy: string, dir: Direction,
                                             atom: (string, Value, Row) -> bool)
    requires SortedFor(rows, orderBy, dir)
    ensures SortedFor(Select(rows, w, atom), orderBy, dir)
  {
    if |rows| > 0 {
      var tail := rows[1..];
      assert SortedFor(tail, orderBy, dir) by {
        assert forall i :: 0 <= i < |tail| ==> tail[i] == rows[i + 1];
      }
      SelectKeepsSorted(tail, w, orderBy, dir, atom);
      var rest := Select(tail, w, atom);
      if Holds(w, rows[0], atom) {
        var s := [rows[0]] + rest;
        forall i | 0 <= i < |s|
          ensures FieldValue(s[i], orderBy).Some?
        {
          if i > 0 {
            assert s[i] == rest[i - 1];
            assert s[i] in tail;
          }
        }
        forall i, j | 0 <= i < j < |s|
          ensures Precedes(s[i], s[j], orderBy, dir)
        {
          assert s[j] == rest[j - 1];
          if i == 0 {
            assert s[j] in tail;
            var k :| 0 <= k < |tail| && tail[k] == s[j];
            assert rows[k + 1] == s[j];
          } else {
            assert s[i] == rest[i - 1];
          }
        }
      }
    }
  }

  /** Page `page` of `rows` by offset: what `skip = (page - 1) * perPage, first = perPage` returns. */
  function OffsetPage(rows: seq<Row>, page: nat, perPage: nat): seq<Row>
    requires page >= 1
  {
    Window(rows, RowsBefore(page, perPage), perPage)
  }

  /** One past the index of the last row on page `page`. */
  function PageEnd(rows: seq<Row>, page: nat, perPage: nat): nat
    requires page >= 1
  {
    RowsBefore(page, perPage) + |OffsetPage(rows, page, perPage)|
  }

  /**
   * A cache entry agrees with the filtered listing: the cursor at index `i`
   * is the one page `i + 1`, fetched by offset, would leave behind.
   */
  predicate EntryValid(cursors: Cursors, rows: seq<Row>, perPage: nat, orderBy: string) {
    forall i :: i in cursors ==> LastCursor(OffsetPage(rows, i + 1, perPage), orderBy) == Some(cursors[i])
  }

  /** In a sorted listing, one row precedes another exactly when it sits earlier. */
  lemma {:induction false} SortedPrecedes(rows: seq<Row>, orderBy: string, dir: Direction, k: nat, i: nat)
    requires SortedFor(rows, orderBy, dir)
    requires k < |rows| && i < |rows|
    ensures Precedes(rows[k], rows[i], orderBy, dir) <==> k < i
  {
    if i < k {
      assert Precedes(rows[i], rows[k], orderBy, dir);
    }
  }

  /** Being past a row's cursor is coming after that row. */
  lemma {:induction false} AfterCursorOf(last: Row, r: Row, cur: Cursor, orderBy: string, dir: Direction)
    requires FieldValue(last, orderBy).Some?
    requires cur == Cursor(FieldValue(last, orderBy).value, last.id)
    ensures After(r, cur, orderBy, dir) <==> Precedes(last, r, orderBy, dir)
  {
  }

  /** The last row of a non-empty offset page, and where the page ends. */
  lemma {:induction false} PageLast(rows: seq<Row>, page: nat, perPage: nat)
    requires page >= 1
    requires |OffsetPage(rows, page, perPage)| > 0
    ensures 0 < PageEnd(rows, page, perPage) <= |rows|
    ensures var data := OffsetPage(rows, page, perPage);
            data[|data| - 1] == rows[PageEnd(rows, page, perPage) - 1]
    ensures PageEnd(rows, page, perPage) == if RowsThrough(page, perPage) < |rows| then RowsThrough(page, perPage) else |rows|
  {
    RowsStep(page, perPage);
  }

  /** The rows past the cursor of a page are exactly the rows after that page. */
  lemma {:induction false} SelectAfterCursor(rows: seq<Row>, page: nat, perPage: nat, cur: Cursor, orderBy: string, dir: Direction,
                          atom: (string, Value, Row) -> bool)
    requires page >= 1
    requires SortedFor(rows, orderBy, dir)
    requires LastCursor(OffsetPage(rows, page, perPage), orderBy) == Some(cur)
    ensures Coherent(cur, orderBy)
    ensures Select(rows, SeekOnly(orderBy, dir, cur), atom) == rows[PageEnd(rows, page, perPage)..]
  {
    var e := PageEnd(rows, page, perPage);
    PageLast(rows, page, perPage);
    var last := rows[e - 1];
    forall i | 0 <= i < |rows|
      ensures Holds(SeekOnly(orderBy, dir, cur), rows[i], atom) <==> i >= e
    {
      SeekWhereSelectsAfterCursor([], orderBy, dir, cur, rows[i], atom);
      AfterCursorOf(last, rows[i], cur, orderBy, dir);
      SortedPrecedes(rows, orderBy, dir, e - 1, i);
    }
    SelectSuffix(rows, SeekOnly(orderBy, dir, cur), e, atom);
  }

  /** The filtered listing the base filter selects. */
  function Filtered(ordered: seq<Row>, base: Filter, atom: (string, Value, Row) -> bool): seq<Row> {
    Select(ordered, Match(base), atom)
  }

  /** Seeking from a page's cursor in the whole listing reaches the rows after that page of the filtered listing. */
  lemma {:induction false} SeekQueryAfterPage(ordered: seq<Row>, base: Filter, sort: Sort, page: nat, perPage: nat, cur: Cursor,
                           atom: (string, Value, Row) -> bool)
    requires page >= 1
    requires SortedFor(ordered, sort.orderBy, sort.dir)
    requires LastCursor(OffsetPage(Filtered(ordered, base, atom), page, perPage), sort.orderBy) == Some(cur)
    ensures var rows := Filtered(ordered, base, atom);
            Select(ordered, SeekWhere(base, sort.orderBy, sort.dir, cur), atom) == rows[PageEnd(rows, page, perPage)..]
  {
    var rows := Filtered(ordered, base, atom);
    SelectKeepsSorted(ordered, Match(base), sort.orderBy, sort.dir, atom);
    SelectAfterCursor(rows, page, perPage, cur, sort.orderBy, sort.dir, atom);
    forall r | r in ordered
      ensures Holds(SeekWhere(base, sort.orderBy, sort.dir, cur), r, atom)
              <==> Holds(Match(base), r, atom) && Holds(SeekOnly(sort.orderBy, sort.dir, cur), r, atom)
    {
      SeekWhereSelectsAfterCursor(base, sort.orderBy, sort.dir, cur, r, atom);
      SeekWhereSelectsAfterCursor([], sort.orderBy, sort.dir, cur, r, atom);
    }
    SelectConj(ordered, SeekWhere(base, sort.orderBy, sort.dir, cur), Match(base), SeekOnly(sort.orderBy, sort.dir, cur), atom);
  }

  /** A window at the start of a suffix is the window at the suffix's offset. */
  lemma {:induction false} WindowOfSuffix(rows: seq<Row>, e: nat, skip: nat, first: nat)
    requires e <= |rows|
    requires e == skip || (e == |rows| && skip >= |rows|)
    ensures Window(rows[e..], 0, first) == Window(rows, skip, first)
  {
  }

  /** The rows fetched, by cursor or by offset, are the offset page. */
  lemma {:induction false} FetchedRowsAreOffsetPage(cache: Cache, k: CacheKey, ordered: seq<Row>, base: Filter, sort: Sort,
                                 page: nat, perPage: nat, atom: (string, Value, Row) -> bool)
    requires page >= 1
    requires SortedFor(ordered, sort.orderBy, sort.dir)
    requires EntryValid(EntryOf(cache, k), Filtered(ordered, base, atom), perPage, sort.orderBy)
    ensures FetchPage(cache, k, ordered, base, sort, page, perPage, atom).data
            == OffsetPage(Filtered(ordered, base, atom), page, perPage)
  {
    var rows := Filtered(ordered, base, atom);
    var cursors := EntryOf(cache, k);
    if page > 1 && page - 2 in cursors {
      var cur := cursors[page - 2];
      SeekQueryAfterPage(ordered, base, sort, page - 1, perPage, cur, atom);
      PageLast(rows, page - 1, perPage);
      RowsStep(page - 1, perPage);
      WindowOfSuffix(rows, PageEnd(rows, page - 1, perPage), RowsBefore(page, perPage), perPage);
    }
  }

  /** Recording the cursor of the offset page keeps a consistent entry consistent. */
  lemma {:induction false} RecordKeepsEntryValid(cache: Cache, k: CacheKey, rows: seq<Row>, page: nat, perPage: nat, orderBy: string)
    requires page >= 1
    requires EntryValid(EntryOf(cache, k), rows, perPage, orderBy)
    ensures EntryValid(EntryOf(RecordCursor(cache, k, page, OffsetPage(rows, page, perPage), orderBy), k),
                       rows, perPage, orderBy)
  {
  }

  /**
   * The soundness of the cursor cache: when the cache entry agrees with the
   * listing, the page fetched, by cursor or by offset, is exactly the offset
   * page, and the entry still agrees with the listing afterwards.
   */
  lemma {:induction false} FetchPageIsOffsetPage(cache: Cache, k: CacheKey, ordered: seq<Row>, base: Filter, sort: Sort,
                              page: nat, perPage: nat, atom: (string, Value, Row) -> bool)
    requires page >= 1
    requires SortedFor(ordered, sort.orderBy, sort.dir)
    requires EntryValid(EntryOf(cache, k), Filtered(ordered, base, atom), perPage, sort.orderBy)
    ensures var f := FetchPage(cache, k, ordered, base, sort, page, perPage, atom);
            && f.data == OffsetPage(Filtered(ordered, base, atom), page, perPage)
            && EntryValid(EntryOf(f.cache, k), Filtered(ordered, base, atom), perPage, sort.orderBy)
  {
    FetchedRowsAreOffsetPage(cache, k, ordered, base, sort, page, perPage, atom);
    RecordKeepsEntryValid(cache, k, Filtered(ordered, base, atom), page, perPage, sort.orderBy);
  }

  /**
   * The probe past a page's last row finds something exactly when rows
   * remain after that page.
   */
  lemma {:induction false} HasNextIffMoreRows(ordered: seq<Row>, base: Filter, sort: Sort, page: nat, perPage: nat,
                           atom: (string, Value, Row) -> bool)
    requires page >= 1
    requires SortedFor(ordered, sort.orderBy, sort.dir)
    ensures var rows := Filtered(ordered, base, atom);
            HasNext(ordered, base, sort, OffsetPage(rows, page, perPage), atom)
            <==> perPage > 0 && RowsThrough(page, perPage) < |rows|
  {
    var rows := Filtered(ordered, base, atom);
    var data := OffsetPage(rows, page, perPage);
    SelectKeepsSorted(ordered, Match(base), sort.orderBy, sort.dir, atom);
    RowsStep(page, perPage);
    match LastCursor(data, sort.orderBy)
    case Some(cur) =>
      SeekQueryAfterPage(ordered, base, sort, page, perPage, cur, atom);
      PageLast(rows, page, perPage);
    case None =>
      if |data| > 0 {
        PageLast(rows, page, perPage);
      }
  }

  /**
   * `getList` on a consistent cache entry: the offset page, an entry that
   * stays consistent, and a total that promises a next page exactly when one
   * exists; on a page that has rows the total never exceeds the number of
   * matching rows and equals it on the last page. A page past the end
   * reports the rows before it, which can exceed the number of matching rows.
   */
  lemma {:induction false} ListPageSound(cache: Cache, k: CacheKey, ordered: seq<Row>, base: Filter, sort: Sort,
                      pg: Pagination, atom: (string, Value, Row) -> bool)
    requires pg.page >= 1
    requires SortedFor(ordered, sort.orderBy, sort.dir)
    requires EntryValid(EntryOf(cache, k), Filtered(ordered, base, atom), pg.perPage, sort.orderBy)
    ensures var r := ListPage(cache, k, ordered, base, sort, pg, atom);
            var rows := Filtered(ordered, base, atom);
            && r.result.data == OffsetPage(rows, pg.page, pg.perPage)
            && EntryValid(EntryOf(r.cache, k), rows, pg.perPage, sort.orderBy)
            && (r.result.total > RowsThrough(pg.page, pg.perPage)
                <==> pg.perPage > 0 && RowsThrough(pg.page, pg.perPage) < |rows|)
            && (|r.result.data| > 0 ==> r.result.total <= |rows|)
            && (|r.result.data| > 0 && |rows| <= RowsThrough(pg.page, pg.perPage) ==> r.result.total == |rows|)
            && (|r.result.data| == 0 ==> r.result.total == RowsBefore(pg.page, pg.perPage))
  {
    var rows := Filtered(ordered, base, atom);
    FetchPageIsOffsetPage(cache, k, ordered, base, sort, pg.page, pg.perPage, atom);
    HasNextIffMoreRows(ordered, base, sort, pg.page, pg.perPage, atom);
    RowsStep(pg.page, pg.perPage);
    if |OffsetPage(rows, pg.page, pg.perPage)| > 0 {
      PageLast(rows, pg.page, pg.perPage);
    }
  }

  /**
   * As written, a page past the end of the listing reports the rows before
   * it as the total, more than there are: with 5 matching rows and 10 per
   * page, page 3 reports 20.
   */
  lemma {:induction false} PastEndTotalOvershoots(cache: Cache, k: CacheKey, ordered: seq<Row>, base: Filter, sort: Sort,
                               pg: Pagination, atom: (string, Value, Row) -> bool)
    requires pg.page >= 1
    requires SortedFor(ordered, sort.orderBy, sort.dir)
    requires EntryValid(EntryOf(cache, k), Filtered(ordered, base, atom), pg.perPage, sort.orderBy)
    requires |Filtered(ordered, base, atom)| < RowsBefore(pg.page, pg.perPage)
    ensures var r := ListPage(cache, k, ordered, base, sort, pg, atom);
            && |r.result.data| == 0
            && r.result.total == RowsBefore(pg.page, pg.perPage)
            && r.result.total > |Filtered(ordered, base, atom)|
  {
    ListPageSound(cache, k, ordered, base, sort, pg, atom);
  }

  /**
   * The total that counts only rows known to exist never exceeds the
   * matching rows, announces a next page exactly when one exists, and is
   * exact on the last page that has rows.
   */
  lemma {:induction false} KnownTotalIsLowerBound(cache: Cache, k: CacheKey, ordered: seq<Row>, base: Filter, sort: Sort,
                               pg: Pagination, atom: (string, Value, Row) -> bool)
    requires pg.page >= 1
    requires SortedFor(ordered, sort.orderBy, sort.dir)
    requires EntryValid(EntryOf(cache, k), Filtered(ordered, base, atom), pg.perPage, sort.orderBy)
    ensures var f := FetchPage(cache, k, ordered, base, sort, pg.page, pg.perPage, atom);
            var rows := Filtered(ordered, base, atom);
            var t := EstimateTotalKnown(pg.page, pg.perPage, |f.data|, HasNext(ordered, base, sort, f.data, atom));
            && t <= |rows|
            && (t > RowsThrough(pg.page, pg.perPage) <==> pg.perPage > 0 && RowsThrough(pg.page, pg.perPage) < |rows|)
            && (|f.data| > 0 && |rows| <= RowsThrough(pg.page, pg.perPage) ==> t == |rows|)
  {
    var rows := Filtered(ordered, base, atom);
    FetchPageIsOffsetPage(cache, k, ordered, base, sort, pg.page, pg.perPage, atom);
    HasNextIffMoreRows(ordered, base, sort, pg.page, pg.perPage, atom);
    RowsStep(pg.page, pg.perPage);
    if |OffsetPage(rows, pg.page, pg.perPage)| > 0 {
      PageLast(rows, pg.page, pg.perPage);
    }
  }

  /**
   * `getManyReference` on a consistent cache entry: the offset page, an entry
   * that stays consistent, and, on a page that has rows, a total equal to the
   * rows up to the end of that page.
   */
  lemma {:induction false} ReferencePageSound(cache: Cache, k: CacheKey, ordered: seq<Row>, base: Filter, sort: Sort,
                           pg: Pagination, atom: (string, Value, Row) -> bool)
    requires pg.page >= 1
    requires SortedFor(ordered, sort.orderBy, sort.dir)
    requires EntryValid(EntryOf(cache, k), Filtered(ordered, base, atom), pg.perPage, sort.orderBy)
    ensures var r := ReferencePage(cache, k, ordered, base, sort, pg, atom);
            var rows := Filtered(ordered, base, atom);
            && r.result.data == OffsetPage(rows, pg.page, pg.perPage)
            && EntryValid(EntryOf(r.cache, k), rows, pg.perPage, sort.orderBy)
            && (|r.result.data| > 0 ==>
                  r.result.total == if RowsThrough(pg.page, pg.perPage) < |rows| then RowsThrough(pg.page, pg.perPage) else |rows|)
  {
    var rows := Filtered(ordered, base, atom);
    FetchPageIsOffsetPage(cache, k, ordered, base, sort, pg.page, pg.perPage, atom);
    if |OffsetPage(rows, pg.page, pg.perPage)| > 0 {
      PageLast(rows, pg.page, pg.perPage);
    }
  }

  /** A fresh cache entry holds no cursor, so it agrees with every listing. */
  lemma {:induction false} EmptyEntryValid(cache: Cache, k: CacheKey, rows: seq<Row>, perPage: nat, orderBy: string)
    requires k !in cache
    ensures EntryValid(EntryOf(cache, k), rows, perPage, orderBy)
  {
  }

  /** The cache a fetch of page `p` under `k` leaves behind (page numbers start at 1). */
  function FetchStep(k: CacheKey, ordered: seq<Row>, base: Filter, sort: Sort, perPage: nat,
                     atom: (string, Value, Row) -> bool): (Cache, nat) -> Cache {
    (c: Cache, p: nat) => if p >= 1 then FetchPage(c, k, ordered, base, sort, p, perPage, atom).cache else c
  }

  /** The state after the first `j` of `xs` have been fed to `step`, in order. */
  function Iterate<S>(step: (S, nat) -> S, s0: S, xs: seq<nat>, j: nat): S
    requires j <= |xs|
    decreases j
  {
    if j == 0 then s0 else step(Iterate(step, s0, xs, j - 1), xs[j - 1])
  }

  /** A property every step keeps holds after any number of steps. */
  lemma {:induction false} IterateKeeps<S>(step: (S, nat) -> S, s0: S, xs: seq<nat>, j: nat, inv: S -> bool)
    requires j <= |xs|
    requires forall s: S, x: nat {:trigger step(s, x)} :: inv(s) ==> inv(step(s, x))
    requires inv(s0)
    ensures inv(Iterate(step, s0, xs, j))
    decreases j
  {
    if j > 0 {
      IterateKeeps(step, s0, xs, j - 1, inv);
    }
  }

  /**
   * Pages `pages[0]`, `pages[1]`, … fetched one after another under one key:
   * the rows of each visit and the cache left at the end.
   */
  function Browse(cache: Cache, k: CacheKey, ordered: seq<Row>, base: Filter, sort: Sort,
                  pages: seq<nat>, perPage: nat, atom: (string, Value, Row) -> bool): (b: (seq<seq<Row>>, Cache))
    requires forall i :: 0 <= i < |pages| ==> pages[i] >= 1
    ensures |b.0| == |pages|
  {
    var step := FetchStep(k, ordered, base, sort, perPage, atom);
    (seq(|pages|, i requires 0 <= i < |pages| =>
           FetchPage(Iterate(step, cache, pages, i), k, ordered, base, sort, pages[i], perPage, atom).data),
     Iterate(step, cache, pages, |pages|))
  }

  /**
   * Whatever order the pages are visited in (forwards, backwards, jumping
   * ahead past pages never fetched), every page seen is the offset page.
   */
  lemma {:induction false} BrowseSeesOffsetPages(cache: Cache, k: CacheKey, ordered: seq<Row>, base: Filter, sort: Sort,
                                                 pages: seq<nat>, perPage: nat, atom: (string, Value, Row) -> bool)
    requires forall i :: 0 <= i < |pages| ==> pages[i] >= 1
    requires SortedFor(ordered, sort.orderBy, sort.dir)
    requires EntryValid(EntryOf(cache, k), Filtered(ordered, base, atom), perPage, sort.orderBy)
    ensures var b := Browse(cache, k, ordered, base, sort, pages, perPage, atom);
            forall i :: 0 <= i < |pages| ==> b.0[i] == OffsetPage(Filtered(ordered, base, atom), pages[i], perPage)
  {
    var rows := Filtered(ordered, base, atom);
    var step := FetchStep(k, ordered, base, sort, perPage, atom);
    var inv := (c: Cache) => EntryValid(EntryOf(c, k), rows, perPage, sort.orderBy);
    forall c: Cache, p: nat | inv(c)
      ensures inv(step(c, p))
    {
      if p >= 1 {
        FetchPageIsOffsetPage(c, k, ordered, base, sort, p, perPage, atom);
      }
    }
    var b := Browse(cache, k, ordered, base, sort, pages, perPage, atom);
    forall i | 0 <= i < |pages|
      ensures b.0[i] == OffsetPage(rows, pages[i], perPage)
    {
      IterateKeeps(step, cache, pages, i, inv);
      FetchPageIsOffsetPage(Iterate(step, cache, pages, i), k, ordered, base, sort, pages[i], perPage, atom);
    }
  }

  /**
   * `getList` end to end: for a known resource whose listing under the
   * chosen sort is sorted, and a cache entry consistent with it, the page
   * returned is the offset page of the cleaned filter and the entry stays
   * consistent.
   */
  lemma {:induction false} GetListSound(cache: Cache, resource: string, params: ListParams, up: Upstream)
    requires ValidCall(resource, params.pagination, params.sort, params.filter)
    requires resource in Specs
    requires var s := Descriptor(Specs[resource]);
             var sort := SortOf(s, params.sort);
             var pg := params.pagination.GetOr(DefaultPagination);
             && SortedFor(up.ordered(s.many, sort.orderBy, sort.dir), sort.orderBy, sort.dir)
             && EntryValid(EntryOf(cache, ListKey(resource, s, params)),
                           Filtered(up.ordered(s.many, sort.orderBy, sort.dir), CleanWhere(params.filter), up.atom),
                           pg.perPage, sort.orderBy)
    ensures var s := Descriptor(Specs[resource]);
            var sort := SortOf(s, params.sort);
            var pg := params.pagination.GetOr(DefaultPagination);
            var rows := Filtered(up.ordered(s.many, sort.orderBy, sort.dir), CleanWhere(params.filter), up.atom);
            var r := GetList(cache, resource, params, up);
            && r.Success?
            && r.value.result.data == OffsetPage(rows, pg.page, pg.perPage)
            && EntryValid(EntryOf(r.value.cache, ListKey(resource, s, params)), rows, pg.perPage, sort.orderBy)
  {
    var s := Descriptor(Specs[resource]);
    var sort := SortOf(s, params.sort);
    var pg := params.pagination.GetOr(DefaultPagination);
    ListPageSound(cache, ListKey(resource, s, params), up.ordered(s.many, sort.orderBy, sort.dir),
                  CleanWhere(params.filter), sort, pg, up.atom);
  }

  /**
   * `getManyReference` end to end: for a known resource whose reference entry
   * is valid, the answer is the offset page of the rows matching the cleaned
   * filter with `target = id` forced in, the entry stays valid, and a
   * non-empty page reports the rows up to its end as the total.
   */
  lemma {:induction false} GetManyReferenceSound(cache: Cache, resource: string, params: ReferenceParams, up: Upstream)
    requires ValidCall(resource, params.pagination, params.sort, params.filter)
    requires resource in Specs
    requires var s := Descriptor(Specs[resource]);
             var sort := SortOf(s, params.sort);
             var pg := params.pagination.GetOr(DefaultPagination);
             && SortedFor(up.ordered(s.many, sort.orderBy, sort.dir), sort.orderBy, sort.dir)
             && EntryValid(EntryOf(cache, ReferenceKey(resource, s, params)),
                           Filtered(up.ordered(s.many, sort.orderBy, sort.dir), ReferenceBase(params), up.atom),
                           pg.perPage, sort.orderBy)
    ensures var s := Descriptor(Specs[resource]);
            var sort := SortOf(s, params.sort);
            var pg := params.pagination.GetOr(DefaultPagination);
            var rows := Filtered(up.ordered(s.many, sort.orderBy, sort.dir), ReferenceBase(params), up.atom);
            var r := GetManyReference(cache, resource, params, up);
            && r.Success?
            && r.value.result.data == OffsetPage(rows, pg.page, pg.perPage)
            && EntryValid(EntryOf(r.value.cache, ReferenceKey(resource, s, params)), rows, pg.perPage, sort.orderBy)
            && (|r.value.result.data| > 0 ==>
                  r.value.result.total == if RowsThrough(pg.page, pg.perPage) < |rows| then RowsThrough(pg.page, pg.perPage) else |rows|)
  {
    var s := Descriptor(Specs[resource]);
    var sort := SortOf(s, params.sort);
    var pg := params.pagination.GetOr(DefaultPagination);
    ReferencePageSound(cache, ReferenceKey(resource, s, params), up.ordered(s.many, sort.orderBy, sort.dir),
                       ReferenceBase(params), sort, pg, up.atom);
  }
}

=== FILE: short_hex.dfy ===
/**
 * The `shortHex` helpers of the list and show views, which abbreviate
 * identifiers, addresses and transaction hashes: a short enough value is
 * shown whole, a longer one as a head, an ellipsis and a tail. The views
 * carry four variants that differ in threshold, head width and whether a
 * `0x` prefix is required.
 *
 * The optional argument `v?: string` is an `Option<string>`; `!v` holds for
 * a missing value and for "". Widths are natural numbers, and the tail
 * width is positive because `v.slice(-0)` is the whole string, not an
 * empty tail.
 */
module ShortHex {
  import opened Wrappers
  import opened JsString

  const Ellipsis: char := '\U{2026}'

  /** JavaScript truthiness of an optional string: present and non-empty. */
  predicate Truthy(v: Option<string>) {
    v.Some? && v.value != ""
  }

  /**
   * `r` is `v` cut down to its first `keep` characters, the ellipsis and its
   * last `tail` characters.
   */
  predicate Abbreviates(r: string, v: string, keep: nat, tail: nat)
    requires keep + tail <= |v|
  {
    && |r| == keep + tail + 1
    && r[..keep] == v[..keep]
    && r[keep] == Ellipsis
    && r[keep + 1..] == v[|v| - tail..]
  }

  /** `${v.slice(0, keep)}…${v.slice(-tail)}`. */
  function Abbreviate(v: string, keep: nat, tail: nat): (r: string)
    requires 0 < tail && keep + tail <= |v|
    ensures Abbreviates(r, v, keep, tail)
  {
    var head := Slice(v, 0, keep);
    var end := SliceFrom(v, -(tail as int));
    assert head == v[..keep];
    assert end == v[|v| - tail..];
    var r := head + [Ellipsis] + end;
    assert r[..keep] == head;
    assert r[keep + 1..] == end;
    r
  }

  /**
   * The variant of the prize-paid and balance lists: whole up to
   * `left + right + 3` characters, otherwise the first `left` characters,
   * the ellipsis and the last `right`, strictly shorter than `v`.
   */
  function ShortHexPlain(v: Option<string>, left: nat, right: nat): (r: string)
    requires right > 0
    ensures !Truthy(v) ==> r == ""
    ensures Truthy(v) && |v.value| <= left + right + 3 ==> r == v.value
    ensures Truthy(v) && |v.value| > left + right + 3 ==>
      Abbreviates(r, v.value, left, right) && |r| < |v.value|
  {
    if !Truthy(v) then ""
    else if |v.value| <= left + right + 3 then v.value
    else Abbreviate(v.value, left, right)
  }

  /**
   * The variant of the pick-winners list and show views: whole up to
   * `left + right + 2` characters, otherwise the first `left + 2`
   * characters (room for a `0x` prefix), the ellipsis and the last `right`.
   * The result is never longer than `v`, and as long as `v` exactly when
   * `v` has `left + right + 3` characters.
   */
  function ShortHexHead(v: Option<string>, left: nat, right: nat): (r: string)
    requires right > 0
    ensures !Truthy(v) ==> r == ""
    ensures Truthy(v) && |v.value| <= left + right + 2 ==> r == v.value
    ensures Truthy(v) && |v.value| > left + right + 2 ==>
      && Abbreviates(r, v.value, left + 2, right)
      && |r| <= |v.value|
      && (|r| == |v.value| <==> |v.value| == left + right + 3)
  {
    if !Truthy(v) then ""
    else if |v.value| <= left + right + 2 then v.value
    else Abbreviate(v.value, left + 2, right)
  }

  /**
   * The variant of the promo-users list and show views: as `ShortHexHead`,
   * but a value without the `0x` prefix is shown whole; whenever the result
   * differs from the input it starts with `0x`.
   */
  function ShortHexChecked(v: Option<string>, left: nat, right: nat): (r: string)
    requires right > 0
    ensures !Truthy(v) ==> r == ""
    ensures Truthy(v) && !StartsWith(v.value, "0x") ==> r == v.value
    ensures Truthy(v) && StartsWith(v.value, "0x") && |v.value| <= left + right + 2 ==> r == v.value
    ensures Truthy(v) && StartsWith(v.value, "0x") && |v.value| > left + right + 2 ==>
      Abbreviates(r, v.value, left + 2, right) && |r| <= |v.value|
    ensures Truthy(v) && r != v.value ==> StartsWith(r, "0x")
  {
    if !Truthy(v) then ""
    else if !StartsWith(v.value, "0x") then v.value
    else
      var r := ShortHexHead(v, left, right);
      assert r != v.value ==> r[..2] == r[..left + 2][..2] == v.value[..2];
      r
  }

  /**
   * The single-width variant of the winners list: whole up to `2 + 2n`
   * characters, otherwise the first `2 + n` characters, the ellipsis and the
   * last `n`, in all `2n + 3` characters.
   */
  function ShortHexWidth(v: Option<string>, n: nat): (r: string)
    requires n > 0
    ensures !Truthy(v) ==> r == ""
    ensures Truthy(v) && |v.value| <= 2 + 2 * n ==> r == v.value
    ensures Truthy(v) && |v.value| > 2 + 2 * n ==>
      Abbreviates(r, v.value, 2 + n, n) && |r| == 2 * n + 3 && |r| <= |v.value|
  {
    ShortHexHead(v, n, n)
  }

  // ---------- the views, with their default widths ----------

  /** The prize-paid list (`left = 10`, `right = 8`): whole up to 21 characters, otherwise 19. */
  function PrizePaidListShortHex(v: Option<string>): (r: string)
    ensures Truthy(v) && |v.value| <= 21 ==> r == v.value
    ensures Truthy(v) && |v.value| > 21 ==> |r| == 19 && Abbreviates(r, v.value, 10, 8)
  {
    ShortHexPlain(v, 10, 8)
  }

  /** The balance list (`left = 8`, `right = 6`): whole up to 17 characters, otherwise 15. */
  function BalanceListShortHex(v: Option<string>): (r: string)
    ensures Truthy(v) && |v.value| <= 17 ==> r == v.value
    ensures Truthy(v) && |v.value| > 17 ==> |r| == 15 && Abbreviates(r, v.value, 8, 6)
  {
    ShortHexPlain(v, 8, 6)
  }

  /** The promo-users list (`left = 8`, `right = 6`): a long `0x` value becomes "0x", 8 digits, "…" and 6. */
  function PromoUsersListShortHex(v: Option<string>): (r: string)
    ensures Truthy(v) && (!StartsWith(v.value, "0x") || |v.value| <= 16) ==> r == v.value
    ensures Truthy(v) && StartsWith(v.value, "0x") && |v.value| > 16 ==>
      |r| == 17 && Abbreviates(r, v.value, 10, 6) && StartsWith(r, "0x")
  {
    ShortHexChecked(v, 8, 6)
  }

  /** The promo-user show view (`left = 10`, `right = 8`): a long `0x` value becomes "0x", 10 digits, "…" and 8. */
  function PromoUsersShowShortHex(v: Option<string>): (r: string)
    ensures Truthy(v) && (!StartsWith(v.value, "0x") || |v.value| <= 20) ==> r == v.value
    ensures Truthy(v) && StartsWith(v.value, "0x") && |v.value| > 20 ==>
      |r| == 21 && Abbreviates(r, v.value, 12, 8) && StartsWith(r, "0x")
  {
    ShortHexChecked(v, 10, 8)
  }

  /** The pick-winners list (`left = 6`, `right = 4`): whole up to 12 characters, otherwise 13. */
  function PickWinnersListShortHex(v: Option<string>): (r: string)
    ensures Truthy(v) && |v.value| <= 12 ==> r == v.value
    ensures Truthy(v) && |v.value| > 12 ==> |r| == 13 && Abbreviates(r, v.value, 8, 4)
  {
    ShortHexHead(v, 6, 4)
  }

  /** The pick-winners show view (`left = 8`, `right = 6`): whole up to 16 characters, otherwise 17. */
  function PickWinnersShowShortHex(v: Option<string>): (r: string)
    ensures Truthy(v) && |v.value| <= 16 ==> r == v.value
    ensures Truthy(v) && |v.value| > 16 ==> |r| == 17 && Abbreviates(r, v.value, 10, 6)
  {
    ShortHexHead(v, 8, 6)
  }

  /** The winners list (`n = 6`): whole up to 14 characters, otherwise 15. */
  function WinnersListShortHex(v: Option<string>): (r: string)
    ensures Truthy(v) && |v.value| <= 14 ==> r == v.value
    ensures Truthy(v) && |v.value| > 14 ==> |r| == 15 && Abbreviates(r, v.value, 8, 6)
  {
    ShortHexWidth(v, 6)
  }

  /** The winner and transaction hash columns of the winners list (`n = 10`): whole up to 22 characters, otherwise 23. */
  function WinnersListColumnShortHex(v: Option<string>): (r: string)
    ensures Truthy(v) && |v.value| <= 22 ==> r == v.value
    ensures Truthy(v) && |v.value| > 22 ==> |r| == 23 && Abbreviates(r, v.value, 12, 10)
  {
    ShortHexWidth(v, 10)
  }

  // ---------- properties ----------

  /** Abbreviating an abbreviation of the same widths changes nothing. */
  lemma {:induction false} AbbreviateFixed(r: string, v: string, keep: nat, tail: nat)
    requires 0 < tail && keep + tail <= |v|
    requires Abbreviates(r, v, keep, tail)
    ensures Abbreviate(r, keep, tail) == r
  {
    var a := Abbreviate(r, keep, tail);
    assert a[..keep] == r[..keep];
    assert a[keep + 1..] == r[|r| - tail..] == r[keep + 1..];
    assert a == a[..keep] + [a[keep]] + a[keep + 1..];
    assert r == r[..keep] + [r[keep]] + r[keep + 1..];
  }

  /** Shortening twice is shortening once. */
  lemma {:induction false} PlainIdempotent(v: Option<string>, left: nat, right: nat)
    requires right > 0
    ensures ShortHexPlain(Some(ShortHexPlain(v, left, right)), left, right) == ShortHexPlain(v, left, right)
  {
  }

  /**
   * The same holds for the `+2` variant, although its abbreviation is longer
   * than its threshold: the second pass re-cuts it to the same head and tail.
   */
  lemma {:induction false} HeadIdempotent(v: Option<string>, left: nat, right: nat)
    requires right > 0
    ensures ShortHexHead(Some(ShortHexHead(v, left, right)), left, right) == ShortHexHead(v, left, right)
  {
    if Truthy(v) && |v.value| > left + right + 2 {
      var r := ShortHexHead(v, left, right);
      AbbreviateFixed(r, v.value, left + 2, right);
    }
  }

  lemma {:induction false} CheckedIdempotent(v: Option<string>, left: nat, right: nat)
    requires right > 0
    ensures ShortHexChecked(Some(ShortHexChecked(v, left, right)), left, right) == ShortHexChecked(v, left, right)
  {
    var r := ShortHexChecked(v, left, right);
    if Truthy(v) && r != v.value {
      assert r == ShortHexHead(v, left, right);
      HeadIdempotent(v, left, right);
    }
  }

  /**
   * Two long values are shown alike exactly when they agree on the first
   * `left` and the last `right` characters.
   */
  lemma {:induction false} PlainSameIff(v: string, w: string, left: nat, right: nat)
    requires right > 0
    requires |v| > left + right + 3 && |w| > left + right + 3
    ensures ShortHexPlain(Some(v), left, right) == ShortHexPlain(Some(w), left, right)
      <==> v[..left] == w[..left] && v[|v| - right..] == w[|w| - right..]
  {
    var a := ShortHexPlain(Some(v), left, right);
    var b := ShortHexPlain(Some(w), left, right);
    if v[..left] == w[..left] && v[|v| - right..] == w[|w| - right..] {
      assert a == a[..left] + [a[left]] + a[left + 1..];
      assert b == b[..left] + [b[left]] + b[left + 1..];
    }
  }
}

=== FILE: subgraph.dfy ===
/**
 * The upstream subgraph as the provider sees it: entity rows, the `where`
 * filter language (`field`, `field_lt`, `field_gt`, `and`, `or`) and the
 * list query `first` / `skip` / `where` / `orderBy` / `orderDirection`.
 *
 * Sort-field values and identifiers are drawn from an abstract total order,
 * represented here by `int`. The provider stores them through `String(...)`
 * in its cursors and hands them back to the subgraph; the model assumes that
 * round trip is faithful and order-preserving.
 */
module Subgraph {
  import opened Wrappers
  import opened Values

  type Key = int

  /** An entity row, projected to its identifier and its sortable field values. */
  datatype Row = Row(id: Key, fields: map<string, Key>)

  datatype Direction = Asc | Desc

  /** `row[field]`; `id` is the identifier, a missing field is `null`. */
  function FieldValue(r: Row, field: string): Option<Key> {
    if field == "id" then Some(r.id)
    else if field in r.fields then Some(r.fields[field])
    else None
  }

  /** The comparison suffix of a filter key: none (equality), `_lt` or `_gt`. */
  datatype Cmp = Equal | Lt | Gt

  /**
   * A `where` argument. `Match(f)` is a plain filter object whose entries the
   * subgraph interprets, `Compare(f, Lt, x)` stands for `{ f_lt: x }`, and
   * `And`/`Or` for `{ and: [...] }` / `{ or: [...] }`.
   */
  datatype Where =
    | Match(filter: Filter)
    | Compare(field: string, cmp: Cmp, value: Key)
    | And(all: seq<Where>)
    | Or(any: seq<Where>)

  function CmpHolds(a: Key, cmp: Cmp, b: Key): bool {
    match cmp
    case Equal => a == b
    case Lt => a < b
    case Gt => a > b
  }

  /**
   * Whether row `r` satisfies `w`. The meaning of one plain filter entry
   * (`winner: "0x…"`, `blockTimestamp_gte: 5`, …) belongs to the subgraph and
   * is the parameter `atom`; a comparison on a null field never holds.
   */
  function Holds(w: Where, r: Row, atom: (string, Value, Row) -> bool): bool {
    match w
    case Match(f) => forall i :: 0 <= i < |f| ==> atom(f[i].0, f[i].1, r)
    case Compare(field, cmp, x) =>
      var v := FieldValue(r, field);
      v.Some? && CmpHolds(v.value, cmp, x)
    case And(ws) => forall i :: 0 <= i < |ws| ==> Holds(ws[i], r, atom)
    case Or(ws) => exists i :: 0 <= i < |ws| && Holds(ws[i], r, atom)
  }

  /** The rows of `rows` that satisfy `w`, in their original order. */
  function Select(rows: seq<Row>, w: Where, atom: (string, Value, Row) -> bool): (s: seq<Row>)
    ensures |s| <= |rows|
    ensures forall r :: r in s <==> r in rows && Holds(w, r, atom)
  {
    if |rows| == 0 then []
    else
      var rest := Select(rows[1..], w, atom);
      assert forall r :: r in rows <==> r == rows[0] || r in rows[1..];
      if Holds(w, rows[0], atom) then [rows[0]] + rest else rest
  }

  /** `s.slice(skip, skip + first)` on natural numbers. */
  function Window(s: seq<Row>, skip: nat, first: nat): (r: seq<Row>)
    ensures |r| == if skip >= |s| then 0 else if first < |s| - skip then first else |s| - skip
    ensures forall i :: 0 <= i < |r| ==> r[i] == s[skip + i]
  {
    var from := if skip < |s| then skip else |s|;
    var to := if first < |s| - from then from + first else |s|;
    s[from..to]
  }

  /**
   * One list query: the rows of the collection, in the order the subgraph
   * returns them for this `orderBy` / `orderDirection`, filtered by `where`,
   * `skip` rows skipped and at most `first` returned.
   */
  function Query(ordered: seq<Row>, where: Where, first: nat, skip: nat, atom: (string, Value, Row) -> bool): (r: seq<Row>)
    ensures |r| <= first
    ensures forall x :: x in r ==> x in ordered && Holds(where, x, atom)
  {
    Window(Select(ordered, where, atom), skip, first)
  }

  /**
   * The subgraph: `ordered(many, orderBy, dir)` lists collection `many` in the
   * order it returns for that sort, and `atom` interprets filter entries.
   */
  datatype Upstream = Upstream(
    ordered: (string, string, Direction) -> seq<Row>,
    atom: (string, Value, Row) -> bool)
}

=== FILE: subgraph_provider.dfy ===
/**
 * The read-only react-admin data provider over the promo-raffle subgraph:
 * resource table, filter and sort normalisation, the process-wide cursor
 * cache, keyset (seek) pagination with an offset fallback, and the
 * probe-based total estimate. Network calls are the `Upstream` parameter;
 * the cursor cache is threaded through each call as explicit state.
 */
module SubgraphProvider {
  import opened Wrappers
  import opened JsString
  import opened Values
  import opened Subgraph

  /** Static descriptor of one resource: query names, filter type, sortable fields, selection. */
  datatype ResourceSpec = ResourceSpec(
    one: string,
    many: string,
    filterType: string,
    idVar: string,
    orderBy: seq<string>,
    select: seq<string>)

  /** The four subgraph entities behind the six resource names. */
  datatype Entity = RaffleEnter | WinnerPicked | FundsReceived | PrizePaid

  /** The descriptor of each entity, with the source's query and field names. */
  function Descriptor(e: Entity): ResourceSpec {
    match e
    case RaffleEnter =>
      ResourceSpec(
        "raffleEnter", "raffleEnters", "RaffleEnter_filter", "Bytes!",
        ["blockTimestamp", "blockNumber", "_lastTimestamp", "_player", "_country3", "id"],
        ["id", "_player", "_ip", "_country3", "_lastTimestamp", "blockNumber", "blockTimestamp", "transactionHash"])
    case WinnerPicked =>
      ResourceSpec(
        "winnerPicked", "winnerPickeds", "WinnerPicked_filter", "Bytes!",
        ["blockTimestamp", "blockNumber", "cycle", "winner", "id"],
        ["id", "cycle", "players", "winner", "blockNumber", "blockTimestamp", "transactionHash"])
    case FundsReceived =>
      ResourceSpec(
        "raffleFundsReceived", "raffleFundsReceiveds", "RaffleFundsReceived_filter", "Bytes!",
        ["blockTimestamp", "blockNumber", "amount", "from", "id"],
        ["id", "from", "amount", "blockNumber", "blockTimestamp", "transactionHash"])
    case PrizePaid =>
      ResourceSpec(
        "rafflePrizePaid", "rafflePrizePaids", "RafflePrizePaid_filter", "Bytes!",
        ["blockTimestamp", "blockNumber", "amount", "winner", "id"],
        ["id", "winner", "amount", "blockNumber", "blockTimestamp", "transactionHash"])
  }

  /**
   * `SPEC`, resource name to entity; the two inline entries of the source
   * are field-for-field copies of the named descriptors.
   */
  const Specs: map<string, Entity> := map[
    "PromoUsers" := RaffleEnter,
    "PromoPickWinners" := WinnerPicked,
    "promoBalance" := FundsReceived,
    "promoPrizePaid" := PrizePaid,
    "RafflePrizePaid" := PrizePaid,
    "WinnerPicked" := WinnerPicked]

  /**
   * Names `SPEC[name]` would resolve through `Object.prototype` rather than
   * report as unknown; callers must not pass them.
   */
  const PrototypeMembers: set<string> := {
    "constructor", "hasOwnProperty", "isPrototypeOf", "propertyIsEnumerable",
    "toString", "toLocaleString", "valueOf", "__proto__",
    "__defineGetter__", "__defineSetter__", "__lookupGetter__", "__lookupSetter__"}

  /** The sort field `sortOf` falls back to. */
  const DefaultSortField := "blockTimestamp"

  datatype Error =
    | UnknownResource(resource: string)
    | ReadOnly(operation: string)

  /** The text of the `Error` the source throws. */
  function Message(e: Error): string {
    match e
    case UnknownResource(r) => "Unknown resource: " + r
    case ReadOnly(m) => "Read-only subgraph: dataProvider." + m + " is not supported."
  }

  /** `spec(resource)`: the descriptor, or the "Unknown resource" failure. */
  function Spec(resource: string): (r: Result<ResourceSpec, Error>)
    requires resource !in PrototypeMembers
    ensures r.Success? <==> resource in Specs
    ensures r.Success? ==> r.value == Descriptor(Specs[resource])
    ensures r.Failure? ==> Message(r.error) == "Unknown resource: " + resource
  {
    if resource in Specs then Success(Descriptor(Specs[resource])) else Failure(UnknownResource(resource))
  }

  /**
   * The six resource names the provider serves, and every one of them can be
   * sorted by `blockTimestamp` (the default sort field) and by `id`.
   */
  lemma {:induction false} SpecsServed()
    ensures Specs.Keys == {"PromoUsers", "PromoPickWinners", "promoBalance",
                           "promoPrizePaid", "RafflePrizePaid", "WinnerPicked"}
    ensures forall e: Entity :: DefaultSortField in Descriptor(e).orderBy && "id" in Descriptor(e).orderBy
  {
  }

  /** A filter value `cleanWhere` keeps: not undefined, not null, not a blank string. */
  predicate Kept(v: Value) {
    !v.Undefined? && !v.Null? && !(v.Str? && AllWhitespace(v.s))
  }

  /** `a` is `b` with some entries removed, order kept. */
  predicate SubsequenceOf<T(==)>(a: seq<T>, b: seq<T>)
    decreases |b|
  {
    if |a| == 0 then true
    else if |b| == 0 then false
    else if a[0] == b[0] then SubsequenceOf(a[1..], b[1..])
    else SubsequenceOf(a, b[1..])
  }

  function CleanEntries(es: Filter): (w: Filter)
    ensures forall e :: e in w <==> e in es && Kept(e.1)
    ensures SubsequenceOf(w, es)
  {
    if |es| == 0 then []
    else
      var rest := CleanEntries(es[1..]);
      var (k, v) := es[0];
      assert forall e :: e in es <==> e == es[0] || e in es[1..];
      if v.Undefined? || v.Null? then rest
      else if v.Str? && Trim(v.s) == "" then
        TrimEmptyIffWhitespace(v.s);
        rest
      else
        assert v.Str? ==> !AllWhitespace(v.s) by {
          if v.Str? { TrimEmptyIffWhitespace(v.s); }
        }
        [(k, v)] + rest
  }

  /**
   * `cleanWhere(f)`: the entries of a filter object whose value is set,
   * in order; anything that is not an object gives the empty filter.
   * (An array filter is outside the model: react-admin passes objects.)
   */
  function CleanWhere(f: Value): (w: Filter)
    requires !f.Arr?
    ensures !f.Obj? ==> w == []
    ensures f.Obj? ==> forall e :: e in w <==> e in f.entries && Kept(e.1)
    ensures f.Obj? ==> SubsequenceOf(w, f.entries)
  {
    if f.Obj? then CleanEntries(f.entries) else []
  }

  datatype Sort = Sort(orderBy: string, dir: Direction)

  /** `sortOf(s, params)`: a whitelisted field and a direction. */
  function SortOf(s: ResourceSpec, sort: SortParams): (r: Sort)
    requires sort.order.Some? ==> IsAscii(sort.order.value)
    ensures r.orderBy in s.orderBy || r.orderBy == DefaultSortField
    ensures sort.field.Some? && sort.field.value in s.orderBy ==> r.orderBy == sort.field.value
    ensures sort.field.None? || sort.field.value !in s.orderBy ==> r.orderBy == DefaultSortField
    ensures r.dir == Asc <==> sort.order.Some? && AsciiUpper(sort.order.value) == "ASC"
  {
    var f := sort.field.GetOr(DefaultSortField);
    var o := AsciiUpper(sort.order.GetOr("DESC"));
    Sort(if f in s.orderBy then f else DefaultSortField, if o == "ASC" then Asc else Desc)
  }

  /** The last row of a page seen under one sort: its sort value and identifier. */
  datatype Cursor = Cursor(v: Key, id: Key)

  /**
   * `keyOf(...)`, kept as the tuple it serialises. `JSON.stringify` follows the
   * filter's insertion order, so equal filters written in another order give
   * other keys; the tuple keeps that order too.
   */
  datatype CacheKey = CacheKey(resource: string, orderBy: string, dir: Direction, perPage: nat, base: Filter)

  /** One cache entry: the sparse array `cursors`, page index (0-based) to cursor. */
  type Cursors = map<nat, Cursor>

  /** The process-wide `cursorCache`. */
  type Cache = map<CacheKey, Cursors>

  function KeyOf(resource: string, sort: Sort, perPage: nat, base: Filter): CacheKey {
    CacheKey(resource, sort.orderBy, sort.dir, perPage, base)
  }

  /** `cursorCache.get(k) ?? []`. */
  function EntryOf(cache: Cache, k: CacheKey): Cursors {
    if k in cache then cache[k] else map[]
  }

  function CmpFor(dir: Direction): Cmp {
    if dir == Desc then Lt else Gt
  }

  /**
   * `seekWhere(base, orderBy, dir, cur)`: rows strictly past the cursor in
   * `(orderBy, id)` order for the direction, and-ed with the base filter
   * when it has entries.
   */
  function SeekWhere(base: Filter, orderBy: string, dir: Direction, cur: Cursor): Where {
    var c := CmpFor(dir);
    var seek :=
      if orderBy == "id" then Compare("id", c, cur.id)
      else Or([Compare(orderBy, c, cur.v), And([Compare(orderBy, Equal, cur.v), Compare("id", c, cur.id)])]);
    if |base| == 0 then seek else And([Match(base), seek])
  }

  /** Rows on the pages before `page` (pages are numbered from 1): the offset `(page - 1) * perPage`. */
  function RowsBefore(page: nat, perPage: nat): nat
    requires page >= 1
  {
    (page - 1) * perPage
  }

  /** Rows on pages `1..page`. */
  function RowsThrough(page: nat, perPage: nat): nat {
    page * perPage
  }

  /** The variables of one list query. */
  datatype Plan = Plan(where: Where, first: nat, skip: nat)

  /**
   * Cursor or offset: the cursor at index `page - 2` is consulted only for
   * `page > 1`; with it the query seeks from the cursor with `skip = 0`,
   * without it the query skips `(page - 1) * perPage` rows of the base filter.
   */
  function PlanPage(cursors: Cursors, page: nat, perPage: nat, base: Filter, sort: Sort): (p: Plan)
    requires page >= 1
    ensures p.first == perPage
    ensures page > 1 && page - 2 in cursors ==>
              p.skip == 0 && p.where == SeekWhere(base, sort.orderBy, sort.dir, cursors[page - 2])
    ensures !(page > 1 && page - 2 in cursors) ==> p.skip == RowsBefore(page, perPage) && p.where == Match(base)
  {
    if page > 1 && page - 2 in cursors then Plan(SeekWhere(base, sort.orderBy, sort.dir, cursors[page - 2]), perPage, 0)
    else Plan(Match(base), perPage, RowsBefore(page, perPage))
  }

  /**
   * The cursor a page leaves behind: taken from its last row, and only when
   * that row has a sort value (an entity id is never null).
   */
  function LastCursor(data: seq<Row>, orderBy: string): (c: Option<Cursor>)
    ensures c.Some? <==> |data| > 0 && FieldValue(data[|data| - 1], orderBy).Some?
    ensures c.Some? ==> c.value == Cursor(FieldValue(data[|data| - 1], orderBy).value, data[|data| - 1].id)
  {
    if |data| == 0 then None
    else
      var last := data[|data| - 1];
      match FieldValue(last, orderBy)
      case None => None
      case Some(v) => Some(Cursor(v, last.id))
  }

  /**
   * After a fetch: the entry for `k` gains the page's cursor at index
   * `page - 1`; every other index and every other key is left alone.
   */
  function RecordCursor(cache: Cache, k: CacheKey, page: nat, data: seq<Row>, orderBy: string): (c: Cache)
    requires page >= 1
    ensures c - {k} == cache - {k}
    ensures LastCursor(data, orderBy).None? ==> c == cache
    ensures LastCursor(data, orderBy).Some? ==>
              k in c && c[k].Keys == EntryOf(cache, k).Keys + {page - 1}
              && c[k][page - 1] == LastCursor(data, orderBy).value
              && c[k] - {page - 1} == EntryOf(cache, k) - {page - 1}
  {
    match LastCursor(data, orderBy)
    case None => cache
    case Some(cur) => cache[k := EntryOf(cache, k)[page - 1 := cur]]
  }

  /** One page fetched through the cache: the rows and the updated cache. */
  datatype Fetched = Fetched(data: seq<Row>, cache: Cache)

  function FetchPage(cache: Cache, k: CacheKey, ordered: seq<Row>, base: Filter, sort: Sort,
                     page: nat, perPage: nat, atom: (string, Value, Row) -> bool): (f: Fetched)
    requires page >= 1
    ensures |f.data| <= perPage
    ensures f.cache == RecordCursor(cache, k, page, f.data, sort.orderBy)
    ensures f.cache - {k} == cache - {k}
  {
    var plan := PlanPage(EntryOf(cache, k), page, perPage, base, sort);
    var data := Query(ordered, plan.where, plan.first, plan.skip, atom);
    Fetched(data, RecordCursor(cache, k, page, data, sort.orderBy))
  }

  /**
   * The total `getList` reports: rows seen so far, or `page * perPage + 1`
   * when the one-row probe past the last row found something.
   */
  function EstimateTotal(page: nat, perPage: nat, seen: nat, hasNext: bool): (t: nat)
    requires page >= 1 && seen <= perPage
    ensures t >= RowsBefore(page, perPage) + seen
    ensures t > RowsBefore(page, perPage) + seen <==> hasNext
    ensures hasNext ==> t == RowsThrough(page, perPage) + 1
  {
    if hasNext then RowsThrough(page, perPage) + 1 else RowsBefore(page, perPage) + seen
  }

  /**
   * A total that counts only rows known to exist: as `EstimateTotal`, except
   * that a page with no rows vouches for none, rather than for the
   * `(page - 1) * perPage` rows before it.
   */
  function EstimateTotalKnown(page: nat, perPage: nat, seen: nat, hasNext: bool): (t: nat)
    requires page >= 1 && seen <= perPage
    ensures seen > 0 || hasNext ==> t == EstimateTotal(page, perPage, seen, hasNext)
    ensures seen == 0 && !hasNext ==> t == 0
  {
    if hasNext then RowsThrough(page, perPage) + 1
    else if seen == 0 then 0
    else RowsBefore(page, perPage) + seen
  }

  /** The probe `hasNextPage`: is there a row past `last` under the same filter and sort? */
  function HasNext(ordered: seq<Row>, base: Filter, sort: Sort, data: seq<Row>,
                   atom: (string, Value, Row) -> bool): (b: bool)
    ensures b ==> LastCursor(data, sort.orderBy).Some?
  {
    match LastCursor(data, sort.orderBy)
    case None => false
    case Some(cur) => |Query(ordered, SeekWhere(base, sort.orderBy, sort.dir, cur), 1, 0, atom)| > 0
  }

  /** `DEFAULT_PAGINATION`. */
  const DefaultPagination := Pagination(1, 25)

  predicate ValidPagination(p: Option<Pagination>) {
    p.Some? ==> p.value.page >= 1
  }

  datatype ListParams = ListParams(pagination: Option<Pagination>, sort: SortParams, filter: Value)

  datatype ReferenceParams = ReferenceParams(
    target: string, id: string, pagination: Option<Pagination>, sort: SortParams, filter: Value)

  datatype ListResult = ListResult(data: seq<Row>, total: nat)

  /** A call's answer together with the cache it leaves behind. */
  datatype Response = Response(result: ListResult, cache: Cache)

  /** Caller obligations: the framework's pagination and sort order, and a plain filter object. */
  predicate ValidCall(resource: string, pagination: Option<Pagination>, sort: SortParams, filter: Value) {
    && resource !in PrototypeMembers
    && ValidPagination(pagination)
    && (sort.order.Some? ==> IsAscii(sort.order.value))
    && !filter.Arr?
  }

  /** The cache key `getList` uses. */
  function ListKey(resource: string, s: ResourceSpec, params: ListParams): CacheKey
    requires params.sort.order.Some? ==> IsAscii(params.sort.order.value)
    requires !params.filter.Arr?
  {
    KeyOf(resource, SortOf(s, params.sort), params.pagination.GetOr(DefaultPagination).perPage, CleanWhere(params.filter))
  }

  /**
   * The page `getList` answers once the resource is known: one page through
   * the cursor cache under the key `k`, then the one-row probe for the total.
   */
  function ListPage(cache: Cache, k: CacheKey, ordered: seq<Row>, base: Filter, sort: Sort,
                    pg: Pagination, atom: (string, Value, Row) -> bool): (r: Response)
    requires pg.page >= 1
    ensures |r.result.data| <= pg.perPage
    ensures r.result.total >= RowsBefore(pg.page, pg.perPage) + |r.result.data|
    ensures r.result.total == RowsBefore(pg.page, pg.perPage) + |r.result.data|
            || r.result.total == RowsThrough(pg.page, pg.perPage) + 1
    ensures r.cache - {k} == cache - {k}
  {
    var f := FetchPage(cache, k, ordered, base, sort, pg.page, pg.perPage, atom);
    var total := EstimateTotal(pg.page, pg.perPage, |f.data|, HasNext(ordered, base, sort, f.data, atom));
    Response(ListResult(f.data, total), f.cache)
  }

  /**
   * `getList`: fails before any query for an unknown resource; otherwise one
   * page of the cleaned filter under the key `keyOf(resource, sort, perPage, where)`.
   */
  function GetList(cache: Cache, resource: string, params: ListParams, up: Upstream): (r: Result<Response, Error>)
    requires ValidCall(resource, params.pagination, params.sort, params.filter)
    ensures r.Failure? <==> resource !in Specs
    ensures r.Failure? ==> r.error == UnknownResource(resource)
    ensures r.Success? ==>
              var pg := params.pagination.GetOr(DefaultPagination);
              var res := r.value.result;
              && |res.data| <= pg.perPage
              && res.total >= RowsBefore(pg.page, pg.perPage) + |res.data|
              && (res.total == RowsBefore(pg.page, pg.perPage) + |res.data| || res.total == RowsThrough(pg.page, pg.perPage) + 1)
              && r.value.cache - {ListKey(resource, Descriptor(Specs[resource]), params)} == cache - {ListKey(resource, Descriptor(Specs[resource]), params)}
  {
    var s :- Spec(resource);
    var pg := params.pagination.GetOr(DefaultPagination);
    var sort := SortOf(s, params.sort);
    var base := CleanWhere(params.filter);
    var ordered := up.ordered(s.many, sort.orderBy, sort.dir);
    Success(ListPage(cache, ListKey(resource, s, params), ordered, base, sort, pg, up.atom))
  }

  /** The base filter of `getManyReference`: the cleaned filter with `target = id` forced in. */
  function ReferenceBase(params: ReferenceParams): Filter
    requires !params.filter.Arr?
  {
    Put(CleanWhere(params.filter), params.target, Str(params.id))
  }

  /**
   * `target = id` is always in the reference base filter, replacing a filter
   * entry of the same name; every other entry is the cleaned filter's.
   */
  lemma {:induction false} ReferenceBaseForcesTarget(params: ReferenceParams)
    requires !params.filter.Arr?
    ensures Get(ReferenceBase(params), params.target) == Some(Str(params.id))
    ensures forall k :: k != params.target ==> Get(ReferenceBase(params), k) == Get(CleanWhere(params.filter), k)
    ensures Get(CleanWhere(params.filter), params.target).Some? ==> |ReferenceBase(params)| == |CleanWhere(params.filter)|
  {
    PutGet(CleanWhere(params.filter), params.target, Str(params.id));
  }

  /** The cache namespace `ref:<resource>:<target>:<id>`. */
  function ReferenceScope(resource: string, target: string, id: string): string {
    "ref:" + resource + ":" + target + ":" + id
  }

  function ReferenceKey(resource: string, s: ResourceSpec, params: ReferenceParams): CacheKey
    requires params.sort.order.Some? ==> IsAscii(params.sort.order.value)
    requires !params.filter.Arr?
  {
    KeyOf(ReferenceScope(resource, params.target, params.id), SortOf(s, params.sort),
          params.pagination.GetOr(DefaultPagination).perPage, ReferenceBase(params))
  }

  /**
   * The page `getManyReference` answers once the resource is known: the
   * `getList` page logic under the key `k`, reporting the rows seen so far
   * as the total.
   */
  function ReferencePage(cache: Cache, k: CacheKey, ordered: seq<Row>, base: Filter, sort: Sort,
                         pg: Pagination, atom: (string, Value, Row) -> bool): (r: Response)
    requires pg.page >= 1
    ensures |r.result.data| <= pg.perPage
    ensures r.result.total == RowsBefore(pg.page, pg.perPage) + |r.result.data|
    ensures r.cache - {k} == cache - {k}
  {
    var f := FetchPage(cache, k, ordered, base, sort, pg.page, pg.perPage, atom);
    Response(ListResult(f.data, RowsBefore(pg.page, pg.perPage) + |f.data|), f.cache)
  }

  /**
   * `getManyReference`: fails before any query for an unknown resource;
   * otherwise one page under the namespaced key `ref:<resource>:<target>:<id>`
   * on the base filter with `target = id` forced in.
   */
  function GetManyReference(cache: Cache, resource: string, params: ReferenceParams, up: Upstream): (r: Result<Response, Error>)
    requires ValidCall(resource, params.pagination, params.sort, params.filter)
    ensures r.Failure? <==> resource !in Specs
    ensures r.Failure? ==> r.error == UnknownResource(resource)
    ensures r.Success? ==>
              var pg := params.pagination.GetOr(DefaultPagination);
              && |r.value.result.data| <= pg.perPage
              && r.value.result.total == RowsBefore(pg.page, pg.perPage) + |r.value.result.data|
              && r.value.cache - {ReferenceKey(resource, Descriptor(Specs[resource]), params)} == cache - {ReferenceKey(resource, Descriptor(Specs[resource]), params)}
  {
    var s :- Spec(resource);
    var pg := params.pagination.GetOr(DefaultPagination);
    var sort := SortOf(s, params.sort);
    var base := ReferenceBase(params);
    var ordered := up.ordered(s.many, sort.orderBy, sort.dir);
    Success(ReferencePage(cache, ReferenceKey(resource, s, params), ordered, base, sort, pg, up.atom))
  }

  /** A reference list never shares a cache entry with a plain list. */
  lemma {:induction false} ReferenceKeysAreSeparate(resource: string, params: ListParams, resource': string, params': ReferenceParams)
    requires ValidCall(resource, params.pagination, params.sort, params.filter)
    requires ValidCall(resource', params'.pagination, params'.sort, params'.filter)
    requires resource in Specs && resource' in Specs
    ensures ListKey(resource, Descriptor(Specs[resource]), params) != ReferenceKey(resource', Descriptor(Specs[resource']), params')
  {
    var scope := ReferenceScope(resource', params'.target, params'.id);
    assert scope[0] == 'r';
    assert resource[0] != 'r';
  }

  /** The mutating operations, all refused. */
  datatype Mutation = Create | Update | Delete | UpdateMany | DeleteMany

  function MethodName(m: Mutation): string {
    match m
    case Create => "create"
    case Update => "update"
    case Delete => "delete"
    case UpdateMany => "updateMany"
    case DeleteMany => "deleteMany"
  }

  /** `create`, `update`, `delete`, `updateMany`, `deleteMany`: throw `ro(method)`. */
  function Mutate(m: Mutation): (r: Result<(), Error>)
    ensures r.Failure? && r.error.ReadOnly?
    ensures Message(r.error) == "Read-only subgraph: dataProvider." + MethodName(m) + " is not supported."
  {
    Failure(ReadOnly(MethodName(m)))
  }

  /** The refusal names the operation: different operations give different messages. */
  lemma {:induction false} MutationMessagesDistinct(m: Mutation, m': Mutation)
    requires m != m'
    ensures Message(Mutate(m).error) != Message(Mutate(m').error)
  {
    var p := "Read-only subgraph: dataProvider.";
    var q := " is not supported.";
    var a := Message(Mutate(m).error);
    var b := Message(Mutate(m').error);
    assert a == p + MethodName(m) + q && b == p + MethodName(m') + q;
    assert a[|p|] == MethodName(m)[0] && b[|p|] == MethodName(m')[0];
    assert MethodName(m)[0] != MethodName(m')[0] || |MethodName(m)| != |MethodName(m')|;
  }
}

=== FILE: supabase_query.dfy ===
/**
 * The list query of the Supabase data provider. The PostgREST query
 * builder is recorded as the sequence of calls made on it (`order`,
 * `ilike`, `eq`, `range`); the client, the network and the database are
 * not modelled, and the database's answer to a recorded query is the
 * parameter `run`.
 */
module SupabaseQuery {
  import opened Wrappers
  import opened Values

  datatype Step =
    | Order(column: string, ascending: bool)
    | Ilike(column: string, pattern: string)
    | Eq(column: string, value: Value)
    | Range(from: int, to: int)

  /** `params` of `getList`: a missing filter object is `None`. */
  datatype ListParams = ListParams(pagination: Pagination, sort: SortParams, filter: Option<Filter>)

  // ---------- the range window ----------

  /** `(page - 1) * perPage`: the index of the page's first row. */
  function RangeFrom(p: Pagination): int {
    (p.page - 1) * p.perPage
  }

  /** `from + perPage - 1`: the index of the page's last row, inclusive. */
  function RangeTo(p: Pagination): int {
    RangeFrom(p) + p.perPage - 1
  }

  /** Row `n` lies in the inclusive window of `p`. */
  predicate InWindow(n: int, p: Pagination) {
    RangeFrom(p) <= n <= RangeTo(p)
  }

  lemma {:induction false} MulLe(a: int, b: int, c: nat)
    requires a <= b
    ensures a * c <= b * c
  {
  }

  /**
   * The windows tile the rows: a window holds `perPage` indices, the next
   * page's window starts right after it, and row `n` lies in the window of
   * page `n / perPage + 1` and of no other page.
   */
  lemma {:induction false} WindowsTile(n: nat, p: Pagination)
    requires p.page >= 1 && p.perPage >= 1
    ensures RangeTo(p) - RangeFrom(p) + 1 == p.perPage
    ensures RangeFrom(Pagination(p.page + 1, p.perPage)) == RangeTo(p) + 1
    ensures InWindow(n, p) <==> p.page == n / p.perPage + 1
  {
    var k := n / p.perPage;
    assert n == k * p.perPage + n % p.perPage;
    assert RangeFrom(Pagination(p.page + 1, p.perPage)) == p.page * p.perPage;
    if p.page - 1 < k {
      MulLe(p.page, k, p.perPage);
    } else if p.page - 1 > k {
      MulLe(k + 1, p.page - 1, p.perPage);
    }
  }

  // ---------- ordering ----------

  /** `sort?.field` is truthy. */
  predicate SortsBy(s: SortParams) {
    s.field.Some? && s.field.value != ""
  }

  /** The `order` call, if any: ascending exactly for the order "ASC", compared case-sensitively. */
  function OrderSteps(s: SortParams): (r: seq<Step>)
    ensures |r| <= 1 && (|r| == 1 <==> SortsBy(s))
    ensures |r| == 1 ==> r[0].Order? && r[0].column == s.field.value
    ensures |r| == 1 ==> (r[0].ascending <==> s.order == Some("ASC"))
  {
    if SortsBy(s) then [Order(s.field.value, s.order == Some("ASC"))] else []
  }

  // ---------- filters ----------

  /** `applyListQuery` passes over a filter value that is `undefined`, `null` or exactly "". */
  predicate Ignored(v: Value) {
    v.Undefined? || v.Null? || v == Str("")
  }

  /** A string value is matched as a substring, case-insensitively; any other value by equality. */
  function EntryStep(k: string, v: Value): Step
    requires !Ignored(v)
  {
    if v.Str? then Ilike(k, "%" + v.s + "%") else Eq(k, v)
  }

  /** The `forEach` over `Object.entries(filter)`, each entry adding at most one call. */
  function FilterSteps(q: seq<Step>, f: Filter): seq<Step>
    decreases |f|
  {
    if f == [] then q
    else
      var k := f[0].0;
      var v := f[0].1;
      FilterSteps(if Ignored(v) then q else q + [EntryStep(k, v)], f[1..])
  }

  /** The filter entries that produce a call, in their original order. */
  function Used(f: Filter): (u: Filter)
    ensures |u| <= |f|
    ensures forall e :: e in u <==> e in f && !Ignored(e.1)
  {
    if f == [] then []
    else
      var rest := Used(f[1..]);
      assert forall e :: e in f <==> e == f[0] || e in f[1..];
      if Ignored(f[0].1) then rest else [f[0]] + rest
  }

  /** The calls the filter produces, read off entry by entry. */
  function Dispatch(f: Filter): seq<Step> {
    var u := Used(f);
    seq(|u|, i requires 0 <= i < |u| => EntryStep(u[i].0, u[i].1))
  }

  lemma {:induction false} DispatchCons(f: Filter)
    requires f != []
    ensures Dispatch(f) == (if Ignored(f[0].1) then [] else [EntryStep(f[0].0, f[0].1)]) + Dispatch(f[1..])
  {
    var u := Used(f);
    var u' := Used(f[1..]);
    if !Ignored(f[0].1) {
      assert u == [f[0]] + u';
      assert forall i :: 1 <= i < |u| ==> u[i] == u'[i - 1];
    }
  }

  /** The fold over the entries appends exactly the calls `Dispatch` reads off. */
  lemma {:induction false} FilterStepsDispatch(q: seq<Step>, f: Filter)
    ensures FilterSteps(q, f) == q + Dispatch(f)
    decreases |f|
  {
    if f == [] {
      assert Dispatch(f) == [];
    } else {
      var v := f[0].1;
      var q' := if Ignored(v) then q else q + [EntryStep(f[0].0, v)];
      FilterStepsDispatch(q', f[1..]);
      DispatchCons(f);
    }
  }

  /**
   * Every entry whose value is not ignored, including a whitespace-only
   * string, yields its call; every call comes from such an entry; and no
   * filter call is an `order` or a `range`.
   */
  lemma {:induction false} DispatchContents(f: Filter)
    ensures forall e :: e in f && !Ignored(e.1) ==> EntryStep(e.0, e.1) in Dispatch(f)
    ensures forall s :: s in Dispatch(f) ==> exists e :: e in f && !Ignored(e.1) && s == EntryStep(e.0, e.1)
    ensures forall s :: s in Dispatch(f) ==> s.Ilike? || s.Eq?
  {
    var u := Used(f);
    var d := Dispatch(f);
    forall e | e in f && !Ignored(e.1)
      ensures EntryStep(e.0, e.1) in d
    {
      var i :| 0 <= i < |u| && u[i] == e;
      assert d[i] == EntryStep(e.0, e.1);
    }
    forall s | s in d
      ensures exists e :: e in f && !Ignored(e.1) && s == EntryStep(e.0, e.1)
    {
      var i :| 0 <= i < |d| && d[i] == s;
      assert u[i] in u;
    }
  }

  // ---------- the list query ----------

  /**
   * `applyListQuery(query, params)`: the calls already on `q`, then the
   * `order` call, then one call per used filter entry in filter order, then
   * the `range` call last.
   */
  function ApplyListQuery(q: seq<Step>, p: ListParams): (r: seq<Step>)
    ensures r == q + OrderSteps(p.sort) + Dispatch(p.filter.GetOr([]))
      + [Range(RangeFrom(p.pagination), RangeTo(p.pagination))]
  {
    var ordered := if SortsBy(p.sort) then q + [Order(p.sort.field.value, p.sort.order == Some("ASC"))] else q;
    var filtered := if p.filter.Some? then FilterSteps(ordered, p.filter.value) else ordered;
    FilterStepsDispatch(ordered, p.filter.GetOr([]));
    assert FilterSteps(ordered, []) == ordered;
    filtered + [Range(RangeFrom(p.pagination), RangeTo(p.pagination))]
  }

  /** The query of `getList`: `select('*', { count: 'exact' })`, then `applyListQuery`. */
  function ListQuery(p: ListParams): seq<Step> {
    ApplyListQuery([], p)
  }

  /** The query of `getManyReference`: `eq(target, id)`, then `applyListQuery`. */
  function ReferenceQuery(target: string, id: Value, p: ListParams): seq<Step> {
    ApplyListQuery([Eq(target, id)], p)
  }

  /** No filter call is a `range` or an `order`. */
  lemma {:induction false} DispatchNoRangeNoOrder(f: Filter)
    ensures forall i :: 0 <= i < |Dispatch(f)| ==> !Dispatch(f)[i].Range? && !Dispatch(f)[i].Order?
  {
    DispatchContents(f);
    var d := Dispatch(f);
    forall i | 0 <= i < |d|
      ensures !d[i].Range? && !d[i].Order?
    {
      assert d[i] in d;
    }
  }

  /**
   * The list query orders at most once, first and by the sort field, ends
   * with the page's range and holds no other range.
   */
  lemma {:induction false} ListQueryShape(p: ListParams)
    ensures var r := ListQuery(p);
      && |r| >= 1 && r[|r| - 1] == Range(RangeFrom(p.pagination), RangeTo(p.pagination))
      && (forall i :: 0 <= i < |r| - 1 ==> !r[i].Range?)
      && (forall i :: 0 < i < |r| ==> !r[i].Order?)
      && (r[0].Order? <==> SortsBy(p.sort))
  {
    var o := OrderSteps(p.sort);
    var d := Dispatch(p.filter.GetOr([]));
    DispatchNoRangeNoOrder(p.filter.GetOr([]));
    var r := ListQuery(p);
    assert r == o + d + [r[|r| - 1]];
    forall i | |o| <= i < |r| - 1
      ensures r[i] == d[i - |o|]
    {
    }
  }

  /** The reference query is the list query behind one leading `eq(target, id)`. */
  lemma {:induction false} ReferenceIsFilteredList(target: string, id: Value, p: ListParams)
    ensures ReferenceQuery(target, id, p) == [Eq(target, id)] + ListQuery(p)
  {
  }

  // ---------- the response ----------

  /** What the database answers for a query: rows, an error, the exact count; any may be missing. */
  datatype Answer = Answer(data: Option<seq<Value>>, error: Option<Value>, count: Option<int>)

  datatype ListResult = ListResult(data: seq<Value>, total: int)

  /**
   * The tail shared by `getList` and `getManyReference`: an error is
   * thrown; otherwise the rows, or none, and the count, or 0.
   */
  function Respond(a: Answer): (r: Result<ListResult, Value>)
    ensures r.Failure? <==> a.error.Some?
    ensures r.Failure? ==> r.error == a.error.value
    ensures r.Success? ==> r.value.data == a.data.GetOr([]) && r.value.total == a.count.GetOr(0)
  {
    if a.error.Some? then Failure(a.error.value)
    else Success(ListResult(a.data.GetOr([]), a.count.GetOr(0)))
  }

  /**
   * `getList`: the database is asked the list query; its error is thrown,
   * otherwise its rows (none when missing) and its exact count (0 when
   * missing) are returned.
   */
  function GetList(p: ListParams, run: seq<Step> -> Answer): (r: Result<ListResult, Value>)
    ensures var a := run(ListQuery(p));
      && (r.Failure? <==> a.error.Some?)
      && (r.Failure? ==> r.error == a.error.value)
      && (r.Success? && a.data.Some? ==> r.value.data == a.data.value)
      && (r.Success? && a.data.None? ==> r.value.data == [])
      && (r.Success? && a.count.Some? ==> r.value.total == a.count.value)
      && (r.Success? && a.count.None? ==> r.value.total == 0)
  {
    Respond(run(ListQuery(p)))
  }

  /** `getManyReference`: `getList` over the list query narrowed to `target == id`. */
  function GetManyReference(target: string, id: Value, p: ListParams, run: seq<Step> -> Answer): (r: Result<ListResult, Value>)
    ensures r == GetList(p, q => run([Eq(target, id)] + q))
  {
    ReferenceIsFilteredList(target, id, p);
    Respond(run(ReferenceQuery(target, id, p)))
  }
}

=== FILE: values.dfy ===
/**
 * JavaScript values as they appear in filter objects and query variables.
 * A plain object is its own enumerable properties in insertion order, the
 * order `Object.entries` and the object spread operator follow for string
 * keys. JavaScript lists keys that look like array indices ("0", "1", …)
 * first, in ascending numeric order; filter objects here are keyed by field
 * names, and that reordering is not modelled.
 */
module Values {
  import opened Wrappers

  datatype Value =
    | Undefined
    | Null
    | Bool(b: bool)
    | Num(n: int)
    | Str(s: string)
    | Arr(items: seq<Value>)
    | Obj(entries: seq<(string, Value)>)

  /** A plain object used as a filter: property name to value, in insertion order. */
  type Filter = seq<(string, Value)>

  /** `params.sort` of a react-admin list request; a missing sort object has neither field nor order. */
  datatype SortParams = SortParams(field: Option<string>, order: Option<string>)

  /** `params.pagination` of a react-admin list request. */
  datatype Pagination = Pagination(page: nat, perPage: nat)

  predicate HasKey(f: Filter, k: string) {
    exists i :: 0 <= i < |f| && f[i].0 == k
  }

  /** Own-property lookup `f[k]`. */
  function Get(f: Filter, k: string): (r: Option<Value>)
    ensures r.Some? <==> HasKey(f, k)
    ensures r.Some? ==> (k, r.value) in f
  {
    if |f| == 0 then None
    else if f[0].0 == k then Some(f[0].1)
    else Get(f[1..], k)
  }

  /**
   * `{...f, [k]: v}`: an existing property keeps its position and takes the
   * new value; a new property goes last.
   */
  function Put(f: Filter, k: string, v: Value): Filter {
    if |f| == 0 then [(k, v)]
    else if f[0].0 == k then [(k, v)] + f[1..]
    else [f[0]] + Put(f[1..], k, v)
  }

  lemma {:induction false} PutReadsNew(f: Filter, k: string, v: Value)
    ensures Get(Put(f, k, v), k) == Some(v)
  {
    if |f| > 0 && f[0].0 != k {
      PutReadsNew(f[1..], k, v);
    }
  }

  lemma {:induction false} PutKeepsOther(f: Filter, k: string, v: Value, k': string)
    requires k' != k
    ensures Get(Put(f, k, v), k') == Get(f, k')
  {
    if |f| > 0 && f[0].0 != k {
      PutKeepsOther(f[1..], k, v, k');
    }
  }

  lemma {:induction false} PutShape(f: Filter, k: string, v: Value)
    ensures Get(f, k).Some? ==> |Put(f, k, v)| == |f|
    ensures Get(f, k).None? ==> Put(f, k, v) == f + [(k, v)]
  {
    if |f| > 0 && f[0].0 != k {
      PutShape(f[1..], k, v);
      assert f == [f[0]] + f[1..];
    }
  }

  /**
   * After `Put`, `k` reads `v` and every other property reads as before; an
   * existing property is replaced in place and a new one is appended.
   */
  lemma {:induction false} PutGet(f: Filter, k: string, v: Value)
    ensures Get(Put(f, k, v), k) == Some(v)
    ensures forall k' :: k' != k ==> Get(Put(f, k, v), k') == Get(f, k')
    ensures Get(f, k).Some? ==> |Put(f, k, v)| == |f|
    ensures Get(f, k).None? ==> Put(f, k, v) == f + [(k, v)]
  {
    PutReadsNew(f, k, v);
    forall k' | k' != k
      ensures Get(Put(f, k, v), k') == Get(f, k')
    {
      PutKeepsOther(f, k, v, k');
    }
    PutShape(f, k, v);
  }
}

=== FILE: wei_format.dfy ===
/**
 * `pow10` and `weiToEth` of the prize-paid and balance views: a non-negative
 * amount in wei written as a decimal number of ether with `decimals`
 * fractional digits, trailing zeros of the fraction dropped.
 *
 * `BigInt(wei)` is not modelled: it is the parameter `parse`, `None` where
 * it throws. Its result is a `nat`, so negative amounts are out of scope.
 */
module WeiFormat {
  import opened Wrappers
  import opened JsString

  /** The default `decimals` of every `weiToEth`. */
  const EtherDecimals: nat := 18

  /** 10^d. */
  function Pow10(d: nat): (p: nat)
    ensures p >= 1
  {
    if d == 0 then 1 else 10 * Pow10(d - 1)
  }

  /** Powers of ten multiply by adding exponents. */
  lemma {:induction false} Pow10Add(a: nat, b: nat)
    ensures Pow10(a + b) == Pow10(a) * Pow10(b)
    decreases a
  {
    if a > 0 {
      Pow10Add(a - 1, b);
      assert Pow10(a + b) == 10 * Pow10(a - 1 + b);
    }
  }

  /** One ether is 10^18 wei. */
  lemma {:induction false} EtherScale()
    ensures Pow10(EtherDecimals) == 1_000_000_000_000_000_000
  {
    assert Pow10(3) == 1000;
    Pow10Add(3, 3);
    Pow10Add(6, 3);
    Pow10Add(9, 9);
  }

  /**
   * `pow10(decimals)`: the loop multiplies by ten `decimals` times, so a
   * negative count leaves 1.
   */
  method Pow10Loop(decimals: int) returns (p: nat)
    ensures decimals >= 0 ==> p == Pow10(decimals)
    ensures decimals < 0 ==> p == 1
  {
    p := 1;
    var i := 0;
    while i < decimals
      invariant 0 <= i
      invariant decimals >= 0 ==> i <= decimals
      invariant decimals < 0 ==> i == 0
      invariant p == Pow10(i)
    {
      p := p * 10;
      i := i + 1;
    }
  }

  // ---------- decimal digits ----------

  predicate IsDigit(c: char) {
    '0' <= c <= '9'
  }

  predicate AllDigits(s: string) {
    forall i :: 0 <= i < |s| ==> IsDigit(s[i])
  }

  function DigitValue(c: char): nat
    requires IsDigit(c)
  {
    c as int - '0' as int
  }

  function DigitChar(n: nat): (c: char)
    requires n < 10
    ensures IsDigit(c) && DigitValue(c) == n
  {
    ('0' as int + n) as char
  }

  /** The number a string of decimal digits denotes; leading zeros are allowed. */
  function DigitsValue(s: string): nat
    requires AllDigits(s)
  {
    if |s| == 0 then 0 else 10 * DigitsValue(s[..|s| - 1]) + DigitValue(s[|s| - 1])
  }

  /** `n.toString()` for a non-negative bigint: the digits of `n`, without leading zeros. */
  function NatToString(n: nat): (s: string)
    ensures |s| >= 1 && AllDigits(s)
    ensures DigitsValue(s) == n
  {
    if n < 10 then [DigitChar(n)]
    else
      var init := NatToString(n / 10);
      var s := init + [DigitChar(n % 10)];
      assert s[..|s| - 1] == init;
      s
  }

  /** `toString` writes no leading zero. */
  lemma {:induction false} NatToStringNoLeadingZero(n: nat)
    ensures |NatToString(n)| > 1 ==> NatToString(n)[0] != '0'
  {
    if n >= 10 {
      NatToStringNoLeadingZero(n / 10);
      assert NatToString(n)[0] == NatToString(n / 10)[0];
    }
  }

  /** A number below 10^k takes at most k digits. */
  lemma {:induction false} NatToStringLength(n: nat, k: nat)
    requires 0 < n < Pow10(k)
    ensures |NatToString(n)| <= k
  {
    if n >= 10 {
      NatToStringLength(n / 10, k - 1);
    }
  }

  /** Digits written after others scale those by a power of ten. */
  lemma {:induction false} DigitsAppend(a: string, b: string)
    requires AllDigits(a) && AllDigits(b)
    ensures AllDigits(a + b)
    ensures DigitsValue(a + b) == DigitsValue(a) * Pow10(|b|) + DigitsValue(b)
    decreases |b|
  {
    if |b| == 0 {
      assert a + b == a;
    } else {
      var b' := b[..|b| - 1];
      assert (a + b)[..|a + b| - 1] == a + b';
      DigitsAppend(a, b');
      assert b[..|b| - 1] == b';
      Distribute(DigitsValue(a), Pow10(|b'|), DigitsValue(b'), DigitValue(b[|b| - 1]));
    }
  }

  lemma {:induction false} Distribute(x: int, p: int, y: int, c: int)
    ensures 10 * (x * p + y) + c == x * (10 * p) + (10 * y + c)
  {
  }

  lemma {:induction false} ZerosValue(k: nat)
    ensures AllDigits(Zeros(k)) && DigitsValue(Zeros(k)) == 0
  {
    if k > 0 {
      assert Zeros(k)[..k - 1] == Zeros(k - 1);
      ZerosValue(k - 1);
    }
  }

  /** `s.padStart(n, '0')`. */
  function PadStart(s: string, n: nat): (r: string)
    ensures |r| == if |s| < n then n else |s|
  {
    if |s| < n then Zeros(n - |s|) + s else s
  }

  /** The index where the run of '0' characters ending at `j` starts. */
  function ZerosBefore(s: string, j: nat): (n: nat)
    requires j <= |s|
    ensures n <= j
    ensures forall k :: n <= k < j ==> s[k] == '0'
    ensures n == 0 || s[n - 1] != '0'
  {
    if j > 0 && s[j - 1] == '0' then ZerosBefore(s, j - 1) else j
  }

  /** `s.replace(/0+$/, '')`: the trailing run of zeros removed. */
  function StripTrailingZeros(s: string): (r: string)
    ensures |r| <= |s|
    ensures |r| == 0 || r[|r| - 1] != '0'
  {
    s[..ZerosBefore(s, |s|)]
  }

  /** What is stripped is a run of zeros. */
  lemma {:induction false} StripSplits(s: string)
    ensures s == StripTrailingZeros(s) + Zeros(|s| - |StripTrailingZeros(s)|)
  {
    var n := ZerosBefore(s, |s|);
    assert s == s[..n] + Zeros(|s| - n);
  }

  lemma {:induction false} ZerosStripToNothing(k: nat)
    ensures |StripTrailingZeros(Zeros(k))| == 0
  {
    assert ZerosBefore(Zeros(k), k) == 0;
  }

  lemma {:induction false} StripKeepsDigits(s: string)
    requires AllDigits(s)
    ensures AllDigits(StripTrailingZeros(s))
    ensures DigitsValue(s) == DigitsValue(StripTrailingZeros(s)) * Pow10(|s| - |StripTrailingZeros(s)|)
  {
    var r := StripTrailingZeros(s);
    var z := |s| - |r|;
    StripSplits(s);
    assert forall i :: 0 <= i < |r| ==> r[i] == s[i];
    ZerosValue(z);
    DigitsAppend(r, Zeros(z));
  }

  // ---------- the fraction ----------

  /**
   * The fraction `weiToEth` prints for a remainder `rem < 10^d`: the
   * remainder's digits padded to `d` places, trailing zeros stripped.
   */
  function Fraction(rem: nat, d: nat): string
    requires rem < Pow10(d)
  {
    StripTrailingZeros(PadStart(NatToString(rem), d))
  }

  /** The digits of zero padded to any width are all zeros. */
  lemma {:induction false} PadZero(d: nat)
    ensures PadStart("0", d) == Zeros(|PadStart("0", d)|)
  {
    var p := PadStart("0", d);
    assert forall i :: 0 <= i < |p| ==> p[i] == '0';
  }

  lemma {:induction false} ZeroFraction(d: nat)
    ensures |Fraction(0, d)| == 0
  {
    assert NatToString(0) == "0";
    PadZero(d);
    ZerosStripToNothing(|PadStart("0", d)|);
  }

  /** Padding with zeros in front keeps the value. */
  lemma {:induction false} PadValue(s: string, n: nat)
    requires AllDigits(s) && |s| <= n
    ensures |PadStart(s, n)| == n && AllDigits(PadStart(s, n))
    ensures DigitsValue(PadStart(s, n)) == DigitsValue(s)
  {
    var z := Zeros(n - |s|);
    assert PadStart(s, n) == z + s;
    ZerosValue(n - |s|);
    DigitsAppend(z, s);
    ZeroTimes(Pow10(|s|));
  }

  lemma {:induction false} NonZeroFraction(rem: nat, d: nat)
    requires 0 < rem < Pow10(d)
    ensures var f := Fraction(rem, d);
      && AllDigits(f) && |f| <= d
      && DigitsValue(f) * Pow10(d - |f|) == rem
  {
    NatToStringLength(rem, d);
    PadValue(NatToString(rem), d);
    StripKeepsDigits(PadStart(NatToString(rem), d));
  }

  lemma {:induction false} ZeroTimes(x: int)
    ensures 0 * x == 0
  {
  }

  /**
   * The fraction is empty exactly for a zero remainder; otherwise it has one
   * to `d` digits and does not end in '0'.
   */
  lemma {:induction false} FractionShape(rem: nat, d: nat)
    requires rem < Pow10(d)
    ensures var f := Fraction(rem, d);
      && AllDigits(f) && |f| <= d
      && (|f| == 0 <==> rem == 0)
      && (|f| == 0 || f[|f| - 1] != '0')
  {
    FractionDigits(rem, d);
    FractionEmptyIffZero(rem, d);
  }

  lemma {:induction false} FractionDigits(rem: nat, d: nat)
    requires rem < Pow10(d)
    ensures AllDigits(Fraction(rem, d)) && |Fraction(rem, d)| <= d
  {
    FractionValue(rem, d);
  }

  lemma {:induction false} FractionEmptyIffZero(rem: nat, d: nat)
    requires rem < Pow10(d)
    ensures |Fraction(rem, d)| == 0 <==> rem == 0
  {
    if rem == 0 {
      ZeroFraction(d);
    } else {
      var f := Fraction(rem, d);
      FractionValue(rem, d);
      EmptyDigitsAreZero(f, Pow10(d - |f|), rem);
    }
  }

  /** Digits that scale to a non-zero value are not empty. */
  lemma {:induction false} EmptyDigitsAreZero(f: string, scale: nat, v: nat)
    requires AllDigits(f) && DigitsValue(f) * scale == v && v != 0
    ensures |f| > 0
  {
    if |f| == 0 {
      ZeroTimes(scale);
    }
  }

  lemma {:induction false} FractionValue(rem: nat, d: nat)
    requires rem < Pow10(d)
    ensures AllDigits(Fraction(rem, d)) && |Fraction(rem, d)| <= d
    ensures DigitsValue(Fraction(rem, d)) * Pow10(d - |Fraction(rem, d)|) == rem
  {
    var f := Fraction(rem, d);
    if rem == 0 {
      ZeroFraction(d);
      assert DigitsValue(f) == 0;
    } else {
      NonZeroFraction(rem, d);
    }
  }


  // ---------- formatting and reading back ----------

  /** The index of the first '.' at or after `i`, if any. */
  function DotFrom(s: string, i: nat): (k: Option<nat>)
    requires i <= |s|
    ensures k.None? ==> forall j :: i <= j < |s| ==> s[j] != '.'
    ensures k.Some? ==> i <= k.value < |s| && s[k.value] == '.' && forall j :: i <= j < k.value ==> s[j] != '.'
    decreases |s| - i
  {
    if i == |s| then None
    else if s[i] == '.' then Some(i)
    else DotFrom(s, i + 1)
  }

  /** `s.indexOf('.')`, as an option. */
  function DotIndex(s: string): (k: Option<nat>)
    ensures k.None? ==> forall i :: 0 <= i < |s| ==> s[i] != '.'
    ensures k.Some? ==> k.value < |s| && s[k.value] == '.' && forall i :: 0 <= i < k.value ==> s[i] != '.'
  {
    DotFrom(s, 0)
  }

  /**
   * A decimal `I` or `I.F` (`I` and `F` non-empty digit strings, `F` at most
   * `d` places) read back as a whole number of 10^-d units.
   */
  function ParseUnits(s: string, d: nat): Option<nat> {
    match DotIndex(s)
    case None =>
      if |s| > 0 && AllDigits(s) then Some(DigitsValue(s) * Pow10(d)) else None
    case Some(k) =>
      var ip := s[..k];
      var fp := s[k + 1..];
      if |ip| > 0 && AllDigits(ip) && |fp| > 0 && AllDigits(fp) && |fp| <= d then
        Some(DigitsValue(ip) * Pow10(d) + DigitsValue(fp) * Pow10(d - |fp|))
      else None
  }

  /** `f ? `${ip}.${f}` : ip`. */
  function Join(ip: string, f: string): string {
    if |f| > 0 then ip + "." + f else ip
  }

  /**
   * `r[n]` is the decimal point, followed by one to `d` digits of which the
   * last is not '0'.
   */
  predicate PointThenFraction(r: string, n: nat, d: nat) {
    && n < |r| && r[n] == '.'
    && 1 <= |r| - n - 1 <= d
    && (forall i :: n < i < |r| ==> IsDigit(r[i]))
    && r[|r| - 1] != '0'
  }

  predicate HasPoint(r: string) {
    exists i :: 0 <= i < |r| && r[i] == '.'
  }

  lemma {:induction false} JoinShape(ip: string, f: string, d: nat)
    requires AllDigits(ip) && AllDigits(f) && |f| <= d
    requires |f| == 0 || f[|f| - 1] != '0'
    ensures StartsWith(Join(ip, f), ip)
    ensures HasPoint(Join(ip, f)) <==> |f| > 0
    ensures |f| > 0 ==> PointThenFraction(Join(ip, f), |ip|, d)
  {
    var r := Join(ip, f);
    if |f| > 0 {
      assert r[|ip|] == '.';
      assert forall i :: |ip| < i < |r| ==> r[i] == f[i - |ip| - 1];
    } else {
      assert forall i :: 0 <= i < |r| ==> IsDigit(r[i]);
    }
    assert r[..|ip|] == ip;
  }

  lemma {:induction false} JoinParse(ip: string, f: string, d: nat, whole: nat, part: nat, w: nat)
    requires |ip| > 0 && AllDigits(ip) && AllDigits(f) && |f| <= d
    requires DigitsValue(ip) == whole && DigitsValue(f) * Pow10(d - |f|) == part
    requires w == whole * Pow10(d) + part
    ensures ParseUnits(Join(ip, f), d) == Some(w)
  {
    var r := Join(ip, f);
    if |f| == 0 {
      assert DotIndex(r).None?;
    } else {
      assert r[|ip|] == '.';
      var k := DotIndex(r).value;
      assert forall i :: 0 <= i < |ip| ==> r[i] == ip[i];
      assert k == |ip|;
      assert r[..k] == ip;
      assert r[k + 1..] == f;
    }
  }

  /** The decimal text for `q` whole units and `rem` units of 10^-d. */
  function FormatParts(q: nat, rem: nat, d: nat): string
    requires rem < Pow10(d)
  {
    Join(NatToString(q), Fraction(rem, d))
  }

  /**
   * The text starts with the digits of `q`; it has a decimal point exactly
   * when `rem` is not zero, and then one to `d` digits after it, the last
   * not '0'.
   */
  lemma {:induction false} FormatPartsShape(q: nat, rem: nat, d: nat)
    requires rem < Pow10(d)
    ensures var r := FormatParts(q, rem, d);
      && StartsWith(r, NatToString(q))
      && (HasPoint(r) <==> rem != 0)
      && (rem != 0 ==> PointThenFraction(r, |NatToString(q)|, d))
  {
    FractionJoinShape(NatToString(q), rem, d);
  }

  lemma {:induction false} FractionJoinShape(ip: string, rem: nat, d: nat)
    requires AllDigits(ip) && rem < Pow10(d)
    ensures StartsWith(Join(ip, Fraction(rem, d)), ip)
    ensures HasPoint(Join(ip, Fraction(rem, d))) <==> rem != 0
    ensures rem != 0 ==> PointThenFraction(Join(ip, Fraction(rem, d)), |ip|, d)
  {
    FractionShape(rem, d);
    JoinShape(ip, Fraction(rem, d), d);
  }

  /** Any whole part followed by the fraction of `rem` reads back as that whole part plus `rem`. */
  lemma {:induction false} FractionParse(ip: string, q: nat, rem: nat, d: nat, w: nat)
    requires rem < Pow10(d) && w == q * Pow10(d) + rem
    requires |ip| > 0 && AllDigits(ip) && DigitsValue(ip) == q
    ensures ParseUnits(Join(ip, Fraction(rem, d)), d) == Some(w)
  {
    FractionValue(rem, d);
    JoinParse(ip, Fraction(rem, d), d, q, rem, w);
  }

  /** Read back, the text for `q` and `rem` is `q` whole units plus `rem`. */
  lemma {:induction false} FormatPartsRoundTrip(q: nat, rem: nat, d: nat, w: nat)
    requires rem < Pow10(d) && w == q * Pow10(d) + rem
    ensures ParseUnits(FormatParts(q, rem, d), d) == Some(w)
  {
    JoinedPartsRoundTrip(q, rem, d, w);
  }

  lemma {:induction false} JoinedPartsRoundTrip(q: nat, rem: nat, d: nat, w: nat)
    requires rem < Pow10(d) && w == q * Pow10(d) + rem
    ensures ParseUnits(Join(NatToString(q), Fraction(rem, d)), d) == Some(w)
  {
    FractionParse(NatToString(q), q, rem, d, w);
  }

  /** Division with remainder: `(w / base, w % base)` for `bigint` operands. */
  function Split(w: nat, base: nat): (qr: (nat, nat))
    requires base > 0
    ensures qr.1 < base && w == qr.0 * base + qr.1
    decreases w
  {
    if w < base then (0, w)
    else
      var qr := Split(w - base, base);
      (qr.0 + 1, qr.1)
  }

  /** `Split` is Dafny's own quotient and remainder. */
  lemma {:induction false} SplitIsDivMod(w: nat, base: nat)
    requires base > 0
    ensures Split(w, base) == (w / base, w % base)
  {
    var qr := Split(w, base);
    DivModUnique(w, base, qr.0, qr.1);
  }

  lemma {:induction false} DivModUnique(w: nat, base: nat, q: nat, r: nat)
    requires base > 0 && r < base && w == q * base + r
    ensures q == w / base && r == w % base
  {
    var q', r' := w / base, w % base;
    var k := q - q';
    assert k * base == r' - r by {
      assert q * base - q' * base == (q - q') * base;
    }
    if k >= 1 {
      MulLe(1, k, base);
    } else if k <= -1 {
      MulLe(k, -1, base);
    }
  }

  lemma {:induction false} MulLe(a: int, b: int, c: nat)
    requires a <= b
    ensures a * c <= b * c
  {
    assert b * c - a * c == (b - a) * c;
  }

  /**
   * The decimal text `weiToEth` produces for the amount `w`: the quotient
   * by 10^d, then a '.' and the fraction exactly when the remainder is not
   * zero, the fraction one to `d` digits long and not ending in '0'.
   */
  function FormatUnits(w: nat, d: nat): string {
    var qr := Split(w, Pow10(d));
    FormatParts(qr.0, qr.1, d)
  }

  /**
   * The text of `w` starts with the digits of the whole part; it has a
   * decimal point exactly when the remainder is not zero, and then one to
   * `d` digits after it, the last not '0'.
   */
  lemma {:induction false} FormatUnitsShape(w: nat, d: nat)
    ensures var qr := Split(w, Pow10(d)); var r := FormatUnits(w, d);
      && StartsWith(r, NatToString(qr.0))
      && (HasPoint(r) <==> qr.1 != 0)
      && (qr.1 != 0 ==> PointThenFraction(r, |NatToString(qr.0)|, d))
  {
    var qr := Split(w, Pow10(d));
    FormatPartsShape(qr.0, qr.1, d);
  }

  lemma {:induction false} SplitRoundTrip(w: nat, d: nat)
    ensures var qr := Split(w, Pow10(d));
      ParseUnits(FormatParts(qr.0, qr.1, d), d) == Some(w)
  {
    var qr := Split(w, Pow10(d));
    FormatPartsRoundTrip(qr.0, qr.1, d, w);
  }

  /** The text denotes exactly w / 10^d: read back and scaled by 10^d, it is `w`. */
  lemma {:induction false} FormatUnitsRoundTrip(w: nat, d: nat)
    ensures ParseUnits(FormatUnits(w, d), d) == Some(w)
  {
    SplitRoundTrip(w, d);
  }

  /**
   * `weiToEth(wei, decimals)`: an absent or empty `wei` gives "", text that
   * `BigInt` rejects is shown as it is, and an amount is shown as a decimal
   * that denotes it exactly: the whole part without leading zeros, then a
   * point and at most `decimals` digits, the last not '0', only when the
   * amount is not a whole number of units. A negative `decimals` makes
   * `pow10` return 1, and the amount is shown as an integer.
   */
  function WeiToEth(wei: Option<string>, parse: string -> Option<nat>, decimals: int): (r: string)
    ensures wei.None? || wei == Some("") ==> r == ""
    ensures wei.Some? && wei.value != "" && parse(wei.value).None? ==> r == wei.value
    ensures wei.Some? && wei.value != "" && parse(wei.value).Some? && decimals >= 0 ==>
      var w := parse(wei.value).value;
      var d := decimals as nat;
      var q := Split(w, Pow10(d)).0;
      && ParseUnits(r, d) == Some(w)
      && StartsWith(r, NatToString(q))
      && (|NatToString(q)| > 1 ==> r[0] != '0')
      && (HasPoint(r) <==> Split(w, Pow10(d)).1 != 0)
      && (HasPoint(r) ==> PointThenFraction(r, |NatToString(q)|, d))
    ensures wei.Some? && wei.value != "" && parse(wei.value).Some? && decimals < 0 ==>
      r == NatToString(parse(wei.value).value)
  {
    match wei
    case None => ""
    case Some(s) =>
      if s == "" then ""
      else match parse(s)
        case None => s
        case Some(w) =>
          if decimals < 0 then NatToString(w)
          else
            var d := decimals as nat;
            FormatUnitsRoundTrip(w, d);
            FormatUnitsShape(w, d);
            NatToStringNoLeadingZero(Split(w, Pow10(d)).0);
            FormatUnits(w, d)
  }

  /** `weiToEth(wei)` as every view calls it: ether's 18 decimals. */
  function EtherWeiToEth(wei: Option<string>, parse: string -> Option<nat>): (r: string)
    ensures wei.Some? && wei.value != "" && parse(wei.value).Some? ==>
      var w := parse(wei.value).value;
      && ParseUnits(r, EtherDecimals) == Some(w)
      && (HasPoint(r) <==> w % 1_000_000_000_000_000_000 != 0)
  {
    var r := WeiToEth(wei, parse, EtherDecimals);
    EtherScale();
    if wei.Some? && wei.value != "" && parse(wei.value).Some? then
      SplitIsDivMod(parse(wei.value).value, Pow10(EtherDecimals));
      r
    else r
  }
}

=== FILE: wrappers.dfy ===
/** Failure-compatible wrappers shared by every module of the model. */
module Wrappers {

  /** A value that may be missing: JavaScript's `undefined` / `null`. */
  datatype Option<+T> = None | Some(value: T) {

    predicate IsFailure() {
      None?
    }

    function PropagateFailure<U>(): Option<U>
      requires None?
    {
      None
    }

    function Extract(): T
      requires Some?
    {
      value
    }

    /** The `??` operator: the value, or `default` when it is missing. */
    function GetOr(default: T): T {
      match this
      case Some(v) => v
      case None => default
    }
  }

  /** The outcome of an operation that either returns or throws. */
  datatype Result<+R, +E> = Success(value: R) | Failure(error: E) {

    predicate IsFailure() {
      Failure?
    }

    function PropagateFailure<U>(): Result<U, E>
      requires Failure?
    {
      Failure(error)
    }

    function Extract(): R
      requires Success?
    {
      value
    }
  }
}
